=== FILE: README.md ===
# Ticket tracker core, modelled in Dafny

This project models the ticket tracker's backend and a few pure pieces of its
React client. The backend is a set of Express handlers over MySQL. Here every
handler is a pure transition `(store, request) -> (status, body, store')` over
an immutable `Db` value with these parts:

- tickets ordered by their auto-increment id;
- the `ticket_team` relation;
- sub-tickets;
- activities;
- users.

A handler that opens a transaction and fails part-way returns the store it
was given, which models the rollback. A request field that may be absent is
an `Option`. The database driver rejects an `undefined` bind parameter, so
each absent field leads to the error path the handler's `catch` takes.
Library calls become function parameters: `jwt.verify`, `jwt.sign`, bcrypt
hashing and `bcrypt.compare`. So do `JSON.parse` and database faults that no input
decides, such as a rejected bulk insert. The ticket list columns are
JSON-typed, so a query hands them back already parsed.

Modules, one per source file:

- `Store` (`store.dfy`): the tables, JSON columns and basic queries.
- `TicketController` (`ticket_controller.dfy`): `backend/controllers/ticketController.js`.
- `ChangeLog` (`change_log.dfy`): the change description `updateTicket` writes.
- `Grouping` (`grouping.dfy`): `GROUP BY ... COUNT(*)` and `ORDER BY id DESC LIMIT n`.
- `TicketLaws` (`ticket_laws.dfy`): laws relating several ticket handlers.
- `TicketModel` (`ticket_model.dfy`): `backend/models/ticket.js`.
- `Auth` (`auth.dfy`): `backend/middlewares/authMiddleware.js`.
- `TicketRoutes` (`ticket_routes.dfy`): `backend/routes/ticketRoutes.js`.
- `UserController` (`user_controller.dfy`): `backend/controllers/userController.js`, plus the parts of `backend/models/user.js` and `createJWT` it depends on.
- `TicketSearch` (`ticket_search.dfy`): the search filter of the tickets page and the dashboard table.
- `DashboardPage` (`dashboard_page.dfy`): the dashboard's `totals` reduction and its four cards.
- `AddTicketForm` (`add_ticket.dfy`): the ticket form's defaults, upload URLs and submit payload.
- `Common` (`common.dfy`): generic sequence and string helpers.

Behaviours a reader might expect that the code does not have:

- Nothing is validated against the stage and priority enumerations.
- Team ids are not deduplicated.
- `createSubTicket` never checks that the parent ticket exists.
- The "Team updated" clause never reaches the stored description.

## Model

| member | source | states |
|---|---|---|
| TicketController.CreateTicket | backend/controllers/ticketController.js:4-42 | 200 iff the ticket insert has every column and a non-empty team is an insertable list. On 200 exactly one ticket is appended under the next id, with one team row per list element in order, duplicates kept. Any failure is 500 with the store unchanged, so the operation is all-or-nothing. Store validity is preserved. |
| TicketController.NewTicket | backend/controllers/ticketController.js:15-20 | The stored assets serialise to the request's assets when they are an array, and to `[assets]` otherwise. Title, priority and stage are stored as given. |
| TicketController.AsList | backend/controllers/ticketController.js:19 | The result is always a list: an array is kept, anything else is wrapped as a one-element list. |
| TicketController.PlainIds | backend/controllers/ticketController.js:23-28 | A bulk team insert succeeds iff every element is a plain number (a `null` or object element is taken to be rejected; see Left out). The ids are then the elements, in order. |
| TicketController.CreateSubTicket | backend/controllers/ticketController.js:45-68 | 200 iff title and tag are present. On 200 exactly one sub-ticket row is appended and nothing else changes; otherwise 500 with the store unchanged. The parent id is not checked. |
| TicketController.DuplicateOf | backend/controllers/ticketController.js:87-93 | The copy's title is the source title followed by " - Duplicate". Priority, stage, assets and team are copied unchanged; description and `updated_by` take their defaults and the copy is not trashed. |
| TicketController.DuplicateTicket | backend/controllers/ticketController.js:71-106 | 404 iff no ticket has the id, with nothing inserted. Otherwise exactly the copy is appended under the next id and nothing else changes. Store validity is preserved. |
| TicketController.GetAllTickets | backend/controllers/ticketController.js:108-133 | Every listed ticket is a stored, untrashed ticket carrying its joined team. Every untrashed ticket is listed. On a valid store the list is in increasing id order. The store is unchanged. |
| TicketController.GetTicket | backend/controllers/ticketController.js:136-169 | 404 iff the id is absent. Otherwise the stored ticket with that id is returned whatever its trash flag, with its joined team. The store is unchanged. |
| TicketController.UpdateTicket | backend/controllers/ticketController.js:172-258 | 404 iff the id is absent; 200 iff the id exists and no step fails. Every non-200 outcome leaves the store unchanged. On 200 the row is rewritten in place, and an array team replaces that ticket's rows by the normalised ids in order. Every other ticket's team rows stay as they were, and a non-array team leaves `ticket_team` untouched. Store validity is preserved. |
| TicketController.Updated | backend/controllers/ticketController.js:191-230 | The written row keeps the id, trash flag and team column. Title, priority, stage and `updated_by` come from the request. The assets column is the request's assets when truthy and `[]` otherwise. The description is the rendered change list of the old row against the request. |
| TicketController.UpdatedAssets | backend/controllers/ticketController.js:224 | A truthy assets value is stored as its serialisation. A falsy one is stored as the empty list. |
| TicketController.NormalizeTeam | backend/controllers/ticketController.js:232-235 | Normalisation throws iff some member is `null`. Otherwise the result is the list of member ids that are neither 0 nor NaN. |
| TicketController.KeptIds | backend/controllers/ticketController.js:233-235 | Normalisation never yields a 0 id and never lengthens the list. |
| TicketController.KeptIdsAppend | backend/controllers/ticketController.js:233-235 | Normalisation distributes over concatenation, so it keeps order and does not deduplicate. |
| TicketController.KeptIdsSingle | backend/controllers/ticketController.js:234-235 | A single member contributes its id exactly when `Number` keeps it, and nothing otherwise. |
| TicketController.SetRow | backend/controllers/ticketController.js:214-230 | `UPDATE ... WHERE id = ?` rewrites exactly the rows with that id. Every other row and every position's id are unchanged. |
| TicketController.TeamRows | backend/controllers/ticketController.js:27 | One team row per listed user id, in order. |
| TicketController.RowsForTeamRows | backend/controllers/ticketController.js:241-244 | Reading back the rows inserted for a ticket gives exactly the inserted ids, in order, duplicates included. |
| TicketController.RowsForOtherTeamRows | backend/controllers/ticketController.js:241-244 | Rows inserted for one ticket never show up in another ticket's team. |
| TicketController.RemoveTeamRows | backend/controllers/ticketController.js:237-239 | The delete removes exactly that ticket's team rows and keeps every other row. |
| TicketController.RowsForRemoveTeamRows | backend/controllers/ticketController.js:237-239 | Deleting one ticket's team rows leaves every other ticket's team unchanged, in order. |
| TicketController.UpdatedTeamRows | backend/controllers/ticketController.js:232-247 | After the replacement the ticket's team is exactly the normalised ids, and every other ticket's team is unchanged. |
| TicketController.UpdatedTeamBound | backend/controllers/ticketController.js:232-247 | The team replacement only writes rows for a ticket that exists. |
| TicketController.UpdateKeepsValid | backend/controllers/ticketController.js:214-247 | A successful update keeps the store well-formed: ids unique and ordered, team rows naming allocated tickets. |
| TicketController.RewriteKeepsValid | backend/controllers/ticketController.js:214-230 | Rewriting an existing row in place keeps ids unique and ordered. |
| TicketController.TrashTicket | backend/controllers/ticketController.js:261-276 | Always 200. Exactly the rows with the id get the trash flag, and an absent id changes nothing. Only the tickets table changes. |
| TicketController.DeleteRestoreTicket | backend/controllers/ticketController.js:279-309 | `delete` removes the id whether or not it is trashed. `deleteAll` removes exactly the trashed tickets. `restore` clears the flag on the id. `restoreAll` clears every flag. Any other action changes nothing and still answers 200. `delete` and `restore` without an id answer 500 and change nothing. |
| TicketController.DeleteTickets | backend/controllers/ticketController.js:286-288 | Deleting tickets changes only the tickets table and keeps the store valid. |
| Store.DeleteKeepsValid | backend/controllers/ticketController.js:286-288 | Removing any set of tickets from a well-formed store leaves it well-formed: ids stay ordered and below the counter. |
| TicketController.TeamData | backend/controllers/ticketController.js:337-342 | The dashboard's team query only returns rows of untrashed tickets. |
| TicketController.TeamMapIsJoin | backend/controllers/ticketController.js:337-357 | For every untrashed ticket, grouping the single team query by ticket gives the same users, in the same order, as the per-ticket join `getTicket` runs. Both rows are reduced to the user fields the views show; the key names differ (see Left out). |
| TicketController.TeamMapGetAppend | backend/controllers/ticketController.js:346-351 | Grouping pushes members in row order, so the groups of two row blocks concatenate. |
| TicketController.DashboardStatistics | backend/controllers/ticketController.js:312-378 | `totalTickets` counts the untrashed tickets. The stage groups and the priority groups each sum to that total. Each group counts its key's occurrences, there is one group per occurring key, and no key repeats. The history is `History`. The store is unchanged. |
| TicketController.WithTeams | backend/controllers/ticketController.js:354-357 | Each ticket gets the team the grouped map holds for its id, defaulting to the empty list. |
| TicketController.History | backend/controllers/ticketController.js:332-357 | The last-ten list holds min(10, untrashed) untrashed tickets of the store with strictly decreasing ids, each with its joined team. Every untrashed ticket left out is older than every ticket shown, so these are the newest ones. |
| TicketController.HistoryTeams | backend/controllers/ticketController.js:337-357 | Each ticket of the last-ten list is a stored, untrashed ticket shown with exactly its own joined team. |
| TicketController.NewestLeavesOlder | backend/controllers/ticketController.js:332-334 | `ORDER BY id DESC LIMIT 10` leaves out only tickets older than every ticket it keeps. |
| TicketController.ViewTickets | backend/controllers/ticketController.js:354-357 | Stripping the teams off the views gives their tickets, in order. |
| Grouping.GroupCounts | backend/controllers/ticketController.js:322-329 | `GROUP BY` with `COUNT(*)`: the counts sum to the number of rows, each group counts exactly its key's occurrences and is non-empty, there is a group for exactly the keys present, and keys are distinct. |
| Grouping.GroupStep | backend/controllers/ticketController.js:322-329 | The group of one key placed before the grouping of the remaining keys groups all the keys. |
| Grouping.RemoveAll | backend/controllers/ticketController.js:322-329 | Removing one key's rows keeps the multiset of the other keys and shortens the list by that key's count. |
| Grouping.Newest | backend/controllers/ticketController.js:332-334 | `ORDER BY id DESC LIMIT n`: min(n, rows) of the rows, with strictly decreasing ids, including every row with a larger id than any row left out. |
| ChangeLog.Changes | backend/controllers/ticketController.js:192-209 | Clauses come in the fixed order Title, Stage, Priority, Assets, each at most once. The Title clause fires iff the trimmed titles differ. The Stage and Priority clauses fire iff the lower-cased, trimmed values differ. "Assets updated" fires iff the serialisations differ. No other clause appears. |
| ChangeLog.Collect | backend/controllers/ticketController.js:194-209 | The clauses come in rank order, at most one of each. |
| ChangeLog.CollectMembers | backend/controllers/ticketController.js:194-209 | Each of the four clauses is present iff its comparison fired. |
| ChangeLog.CollectOnly | backend/controllers/ticketController.js:194-209 | No clause appears beyond the four the comparisons can produce. |
| ChangeLog.Push | backend/controllers/ticketController.js:194-209 | Pushing a lower-ranked clause before later ones keeps the clause order. |
| ChangeLog.Description | backend/controllers/ticketController.js:211-212 | With no clause the previous description is kept, `NULL` included. With clauses the description is the rendered clauses joined by `", "`, so it begins with the first clause, followed by `", "` when there is a second. A single clause is stored alone. |
| ChangeLog.DescriptionAppend | backend/controllers/ticketController.js:211-212 | The description of two clause blocks is the first block's description, `", "`, then the second block's. |
| ChangeLog.DescriptionPair | backend/controllers/ticketController.js:211-212 | Two clauses are stored as the first rendering, `", "`, then the second. |
| ChangeLog.TitleAndStageChanges | backend/controllers/ticketController.js:194-209 | Changing the title of a "todo" ticket and moving it to "completed", with priority and assets unchanged, fires exactly the Title and Stage clauses, in that order. |
| ChangeLog.CollectTitleStage | backend/controllers/ticketController.js:194-209 | With only the title and stage comparisons firing, the clause list is the Title clause followed by the Stage clause. |
| ChangeLog.TitleAndStageExample | backend/controllers/ticketController.js:194-212 | That update stores "Title changed from ... to ..., Stage changed from todo to completed". |
| Common.JoinAppend | backend/controllers/ticketController.js:211 | `join(", ")` of two non-empty blocks is the first block's join, the separator, then the second block's join. |
| ChangeLog.NoChangeOnSameValues | backend/controllers/ticketController.js:194-209 | Submitting a ticket's own stored title, stage, priority and assets fires no clause. |
| ChangeLog.StageOnlyExample | backend/controllers/ticketController.js:197-212 | Moving only the stage from "todo" to "completed" records exactly the stage clause, and it becomes the whole description. |
| ChangeLog.NormalizedLiteral | backend/controllers/ticketController.js:197 | A label that is already lower-case and trimmed is its own normalised form. |
| TicketLaws.CreateThenGet | backend/controllers/ticketController.js:4-42 | A created ticket is found under the id the response reports, with the submitted fields. Its team is exactly the submitted ids resolved against the users, in order. |
| TicketLaws.CreateThenList | backend/controllers/ticketController.js:108-133 | A created ticket appears in the ticket list. |
| TicketLaws.CreateSubTicketThenList | backend/controllers/ticketController.js:45-68 | A sub-ticket created for a listed ticket appears last in that ticket's entry of the model-layer listing, which keeps its length. |
| TicketLaws.DuplicateThenGet | backend/controllers/ticketController.js:71-106 | The copy is found under the next id with the copied fields and an empty team. |
| TicketLaws.TrashHidesFromList | backend/controllers/ticketController.js:261-276 | After trashing, the ticket is absent from the list but still found by id, flagged as trashed. |
| TicketLaws.TrashLeavesList | backend/controllers/ticketController.js:266-269 | After trashing, no entry of the list carries the trashed id. |
| TicketLaws.TrashKeepsFindable | backend/controllers/ticketController.js:266-269 | After trashing an existing ticket, fetching it by id still succeeds and shows it as trashed. |
| TicketLaws.TrashIdempotent | backend/controllers/ticketController.js:266-269 | Trashing twice is the same as trashing once. |
| TicketLaws.TrashThenRestore | backend/controllers/ticketController.js:289-293 | Restoring a ticket that was untrashed before it was trashed gives back the original store. |
| TicketLaws.UpdateRowIgnoresTeam | backend/controllers/ticketController.js:211-247 | The stored row does not depend on the `team` field, so "Team updated" never reaches the description. |
| TicketLaws.UpdateWithSameValuesKeepsDescription | backend/controllers/ticketController.js:211-212 | Resubmitting a ticket's own values keeps its previous description. |
| TicketLaws.UpdateIdempotent | backend/controllers/ticketController.js:172-258 | Repeating a successful update that carries assets leaves the store as the first update left it. |
| TicketLaws.SetRowThenFind | backend/controllers/ticketController.js:214-230 | After a row is rewritten, looking up its id finds the new row. |
| TicketLaws.SetRowTwice | backend/controllers/ticketController.js:214-230 | Writing the same row twice is the same as writing it once. |
| TicketLaws.SecondPassChangesNothing | backend/controllers/ticketController.js:194-209 | Comparing a freshly written row against the request that wrote it fires no clause. |
| TicketLaws.ReplaceTeamTwice | backend/controllers/ticketController.js:237-244 | Replacing a ticket's team rows twice with the same ids is the same as replacing them once. |
| TicketModel.CreateTicket | backend/models/ticket.js:4-31 | Throws iff a column value is missing. Otherwise one ticket is appended under the next id, with falsy assets or team stored as `[]`. Validity is preserved. |
| TicketModel.ListOrEmpty | backend/models/ticket.js:21-22 | A falsy value is stored as `"[]"`; anything else as its serialisation. |
| TicketModel.AddActivity | backend/models/ticket.js:74-86 | Throws iff a value is missing. Otherwise exactly one activity row is appended and nothing else changes. |
| TicketModel.AddSubTicket | backend/models/ticket.js:89-101 | Throws iff a value is missing. Otherwise exactly one sub-ticket row is appended and nothing else changes. |
| TicketModel.ReadList | backend/models/ticket.js:49-50 | `JSON.parse` of the cell, falling back to the text `"[]"`, on the value the driver hands back: a `NULL` cell reads as `[]`; a stored list is parsed from its string form; a stored `[]` has the empty string as string form, so the parse throws. |
| TicketModel.JsString | backend/models/ticket.js:49-50 | `String(v)` of a JSON value: the empty list writes the empty string and a one-string list writes that string. |
| TicketModel.ReadListFixed | backend/models/ticket.js:49-50 | The cell, falling back to `[]`: a falsy cell reads as `[]` and any other cell as the value handed back. |
| TicketModel.StoredListReadsBack | backend/models/ticket.js:17-23 | A truthy list stored by `createTicket` reads back, through the cell falling back to `[]`, to a value with the same serialisation; a falsy one reads back as `[]`. |
| TicketModel.Distribute | backend/models/ticket.js:54-64 | Each row is appended to its own ticket's bucket. A row without a bucket is dropped, and no bucket is created. |
| TicketModel.DistributeStep | backend/models/ticket.js:55-57 | Handling one row extends only its own ticket's bucket. |
| TicketModel.DistributeFromEmpty | backend/models/ticket.js:43-64 | Starting from empty buckets, a bucket ends up holding exactly its ticket's rows, in row order. |
| TicketModel.EmptyBuckets | backend/models/ticket.js:44-52 | There is one empty bucket per listed ticket id and no other. |
| TicketModel.Buckets | backend/models/ticket.js:43-64 | Every listed ticket's bucket holds exactly the rows naming it. |
| TicketModel.Entries | backend/models/ticket.js:44-52 | One entry per listed ticket, in order, with its lists and its buckets. |
| TicketModel.GetAllTickets | backend/models/ticket.js:34-71 | As written: throws iff some untrashed ticket has a list that `JSON.parse` rejects. Otherwise it answers the entries of `GetAllTicketsFixed`, each with the lists parsed from its columns. The store is unchanged. |
| TicketModel.GetAllTicketsFixed | backend/models/ticket.js:34-71 | With the lists read as the cell falling back to `[]`: one entry per untrashed ticket, in increasing id order. Its activities and sub-tickets are exactly the rows naming it, in table order. |
| TicketModel.ParsedAgreesWithFixed | backend/models/ticket.js:43-64 | When no parse throws, the parsed listing differs from the corrected one only in its lists. |
| TicketModel.Gather | backend/models/ticket.js:43-64 | Each listed ticket gets its lists and exactly the activity and sub-ticket rows naming it. |
| TicketModel.FixedLists | backend/models/ticket.js:49-50 | Each ticket's lists read as the cell falling back to `[]`. |
| TicketModel.ParsedLists | backend/models/ticket.js:49-50 | Each ticket's lists are what `JSON.parse` returns for them. |
| TicketModel.KeyFilter | backend/models/ticket.js:54-64 | A table row is gathered under a ticket iff it names that ticket. What is gathered is a subsequence of the table. |
| TicketModel.EntryActivities | backend/models/ticket.js:54-58 | Each entry's activities all name that ticket and keep their table order. |
| TicketModel.EntrySubTickets | backend/models/ticket.js:60-64 | Each entry's sub-tickets all name that ticket and keep their table order. |
| TicketModel.ActivityPlacement | backend/models/ticket.js:54-58 | An activity lands in a listed ticket's entry iff it names that ticket. Activities of absent or trashed tickets land nowhere. |
| TicketModel.AddActivityThenList | backend/models/ticket.js:74-86 | An activity added for a listed ticket appears last in that ticket's entry. |
| TicketModel.AddSubTicketThenList | backend/models/ticket.js:89-101 | A sub-ticket added for a listed ticket appears last in that ticket's entry, and the listing keeps its length. |
| TicketModel.CreateWithoutListsReadsEmpty | backend/models/ticket.js:4-71 | With the cell falling back to `[]`, a ticket created without assets or team is listed last with both lists empty. |
| TicketModel.CreateWithoutListsThenListThrows | backend/models/ticket.js:4-71 | As written, once a ticket has been created without assets or team, the listing throws. |
| TicketModel.AppendOneKeyed | backend/models/ticket.js:54-58 | Appending a row for a ticket extends that ticket's gathered rows by exactly that row. |
| TicketModel.ActiveAppend | backend/models/ticket.js:37-39 | A new ticket that is not trashed is listed after every ticket listed before it. |
| Auth.TokenUser | backend/middlewares/authMiddleware.js:6-14 | A cookie names a user iff it is a non-empty token that verifies and carries an id. |
| Auth.ProtectRoute | backend/middlewares/authMiddleware.js:4-41 | Every stop is 401, and a missing or empty token always stops. The guard passes iff the token names an existing row. The passed user takes email and admin flag from that row and its id from the token. |
| Auth.IsAdminRoute | backend/middlewares/authMiddleware.js:43-52 | Passes the same user on iff there is one and it is an admin. Otherwise 403. |
| Auth.RunGuards | backend/routes/ticketRoutes.js:18-40 | An empty chain passes its user on. A chain of these guards only ever stops with 401 or 403. |
| Auth.UnauthenticatedGets401 | backend/middlewares/authMiddleware.js:17-40 | A chain that starts with `protectRoute` answers 401, never 403, to a caller without a valid session. |
| Auth.AdminChain | backend/routes/ticketRoutes.js:18 | `protectRoute` then `isAdminRoute` passes iff the token names an existing row with the admin flag, and the user is the one the token names. A stop is 403 exactly when authentication succeeded. |
| Auth.ProtectChain | backend/routes/ticketRoutes.js:22 | A chain of `protectRoute` alone decides as `protectRoute` does. |
| TicketRoutes.MatchPath | backend/routes/ticketRoutes.js:18-40 | An empty pattern matches only the root path, and a match never has more segments than its pattern. What a match means segment by segment is `MatchPathSegments`. |
| TicketRoutes.MatchPathSegments | backend/routes/ticketRoutes.js:18-40 | Without optional parameters, a path matches iff it has as many segments as the pattern and each literal equals its segment lower-cased, while a parameter takes any segment. A leading literal must match the first segment. A bound value is a path segment standing at a parameter. |
| TicketRoutes.FirstFrom | backend/routes/ticketRoutes.js:18-40 | The route found is the first one at or after the start position whose method and path match. None means no such route. |
| TicketRoutes.Dispatch | backend/routes/ticketRoutes.js:18-40 | The route taken is the first registered one whose method and path match. None means no route matches. |
| TicketRoutes.Handle | backend/routes/ticketRoutes.js:18-40 | No route iff nothing matches. A guard's denial is 401 or 403. A handled request reaches the dispatched route's handler. |
| TicketRoutes.GuardPolicy | backend/routes/ticketRoutes.js:18-40 | Every route authenticates first. The admin check is present exactly on the create, duplicate, create-subticket, trash and delete-restore routes. |
| TicketRoutes.NoSessionGets401 | backend/routes/ticketRoutes.js:18-40 | A caller without a valid session gets 401 from every route, never 403 and never a handler. |
| TicketRoutes.AdminHandlersNeedAdmin | backend/routes/ticketRoutes.js:18-40 | A request reaches an admin handler only for a user whose current row has the admin flag. |
| TicketRoutes.SessionReachesUserRoutes | backend/routes/ticketRoutes.js:22-32 | Any user with a valid session reaches the dashboard, list, get and update handlers, whatever the admin flag. |
| TicketRoutes.DashboardBeforeGetTicket | backend/routes/ticketRoutes.js:22-24 | `GET /dashboard` would also match `GET /:id` but goes to the statistics handler, which is registered first. |
| TicketRoutes.DeleteRestoreWithoutId | backend/routes/ticketRoutes.js:35-40 | `DELETE /delete-restore` without an id reaches the delete/restore handler, with the id absent. |
| TicketRoutes.UpdateIsProtectOnly | backend/routes/ticketRoutes.js:32-33 | `PUT /update/:id` reaches `updateTicket` behind authentication alone, not the trash route. |
| TicketRoutes.TrashIsAdminOnly | backend/routes/ticketRoutes.js:32-33 | `PUT /:id` with any single segment, `update` included, is the admin-only trash route. |
| TicketRoutes.LowerLiteral | backend/routes/ticketRoutes.js:18-40 | A lower-case route literal matches itself under the router's case-insensitive comparison. |
| UserController.RegisterUser | backend/controllers/userController.js:6-44 | 201 iff every field is present and the email is new; otherwise 400, with the store unchanged and no cookie. On 201 exactly the new row is appended, active by the assumed column default (see Left out), the body is the insert header, and a cookie is set iff the user is an admin, signed with the id the header yields. Validity is preserved. |
| UserController.InsertUser | backend/models/user.js:20-27 | Inserting appends exactly that row under the next user id and keeps the store valid. |
| UserController.RegisterUserFixed | backend/controllers/userController.js:25-26 | Same status, store, body and cookie presence as `registerUser`, with the cookie signed for the inserted row's id. |
| UserController.RegisterExistingEmail | backend/controllers/userController.js:10-15 | An email already in use answers 400 with nothing inserted and no cookie. |
| UserController.RegisterCookieRejected | backend/controllers/userController.js:25-26 | As written, the cookie an admin gets at registration is refused with 401 by `protectRoute`. |
| UserController.RegisterFixedCookieAccepted | backend/controllers/userController.js:25-26 | With the corrected cookie, the new admin passes both guards as the inserted user. |
| UserController.RegisterThenLogin | backend/controllers/userController.js:46-77 | A fresh registration can log in with the same email and password, getting the new row and a session for its id. This rests on the assumed `isActive` default (see Left out). |
| UserController.FindAppendedUser | backend/middlewares/authMiddleware.js:12-15 | A row appended with a larger id is found by that id. |
| UserController.FindAppendedEmail | backend/models/user.js:35-47 | A row appended with a new email is found by that email. |
| UserController.LoginUser | backend/controllers/userController.js:46-77 | The store is never changed. 200 iff the email is known, the account is active and the password matches, and a cookie is set exactly on 200. The body is the stored row, and the cookie is signed for its id. An inactive account is 401 whatever the password. |
| UserController.LoginExposesHash | backend/controllers/userController.js:64-67 | As written, the login answer carries the stored password hash: two stores differing only in the hash answer differently. |
| UserController.LoginUserFixed | backend/controllers/userController.js:64-67 | Same status and cookie as `loginUser`, with the row minus its hash as the body. |
| UserController.LoginFixedHidesHash | backend/controllers/userController.js:64-67 | The corrected answer does not depend on the stored hash beyond whether the password matches it. |
| UserController.RehashKeepsLookup | backend/models/user.js:35-47 | Changing one row's hash changes an email lookup's result only in that hash. |
| UserController.UpdateUsers | backend/controllers/userController.js:102-105 | `UPDATE users ... WHERE id = ?` rewrites exactly the rows with that id. |
| UserController.ProfileTarget | backend/controllers/userController.js:97-99 | An admin writes the row the body names; anyone else writes their own row. |
| UserController.UpdateUserProfile | backend/controllers/userController.js:95-113 | 200 iff the target id and all three values are present, otherwise 400 with nothing changed. Only name, title and role of the target row change, every other row is unchanged, and no other table or counter changes. |
| UserController.NonAdminEditsOwnRow | backend/controllers/userController.js:97-99 | A non-admin never changes another user's row, whatever id the body names. |
| UserController.ActivateUserProfile | backend/controllers/userController.js:137-155 | 200 iff the flag is present, otherwise 400 with nothing changed. Only `isActive` of the target row changes, and no other table or counter changes. |
| UserController.DeleteUserProfile | backend/controllers/userController.js:157-169 | Exactly the rows with that id are removed; the rest stay in order. No other table or counter changes. |
| UserController.DeactivatedCannotLogin | backend/controllers/userController.js:57-62 | After deactivation, login answers 401 whatever password is given. |
| UserController.DeactivateKeepsLookup | backend/controllers/userController.js:143-146 | Deactivating keeps what an email lookup finds, now marked inactive when it is that user. |
| UserController.DeactivatedKeepsSession | backend/middlewares/authMiddleware.js:12-29 | `protectRoute` ignores `isActive`: a session issued before deactivation keeps passing. |
| UserController.DeletedLosesSession | backend/middlewares/authMiddleware.js:17-21 | After a user is deleted, every session for that user is refused with 401. |
| TicketSearch.TicketsPageFilter | frontend/src/pages/Tickets.jsx:42-49 | No data gives `[]`. Otherwise the result is an order-preserving subsequence, and a ticket is kept iff its lower-cased title contains the lower-cased search or its id text contains the raw search. |
| TicketSearch.TicketTableFilter | frontend/src/pages/Dashboard.jsx:28-32 | The same predicate and order preservation, with an absent list staying absent. |
| TicketSearch.PagesAgree | frontend/src/pages/Dashboard.jsx:28-32 | Both pages keep the same tickets for the same list and search. |
| TicketSearch.EmptySearchKeepsAll | frontend/src/pages/Tickets.jsx:44-47 | An empty search keeps every ticket, in order. |
| TicketSearch.SearchByIdKeepsTicket | frontend/src/pages/Tickets.jsx:47 | Searching for a ticket's id keeps that ticket. |
| TicketSearch.SearchByTitleKeepsTicket | frontend/src/pages/Tickets.jsx:46 | Searching for a ticket's title, in any case, keeps that ticket. |
| TicketSearch.FilterKeepsNewestFirst | frontend/src/pages/Dashboard.jsx:28-32 | Filtering the history, which is newest first, keeps it in strictly decreasing id order. |
| TicketSearch.DecreasingFilter | frontend/src/pages/Dashboard.jsx:28-32 | Any filter of a newest-first list is newest first. |
| DashboardPage.Fold | frontend/src/pages/Dashboard.jsx:163-166 | The map holds exactly the keys seen. Each key maps to the count of its last group, so a later duplicate overwrites an earlier one. |
| DashboardPage.Totals | frontend/src/pages/Dashboard.jsx:163-167 | A missing grouping gives the empty map. Otherwise each stage maps to its last group's count. |
| DashboardPage.CountOf | frontend/src/pages/Dashboard.jsx:180-194 | A missing key shows 0. |
| DashboardPage.Stats | frontend/src/pages/Dashboard.jsx:169-198 | Four cards in the order total, completed, in progress, to-do. Each shows its count, or 0 when the summary or key is missing. |
| DashboardPage.CardCount | frontend/src/pages/Dashboard.jsx:163-167 | Over a grouping with one group per occurring key, the card for a key shows how often the key occurs. |
| DashboardPage.ThreeCounts | frontend/src/pages/Dashboard.jsx:169-198 | The occurrences of three distinct keys add up to at most the number of rows. |
| DashboardPage.DashboardCards | frontend/src/pages/Dashboard.jsx:163-198 | For the backend's summary: the total card counts the untrashed tickets, each stage card counts the untrashed tickets with exactly that stage, and the three stage cards never exceed the total. |
| AddTicketForm.UpperOr | frontend/src/components/ticket/AddTicket.jsx:48-51 | A present, non-empty value gives its upper-case form; otherwise the fallback. |
| AddTicketForm.InitialStage | frontend/src/components/ticket/AddTicket.jsx:48 | The ticket's stage upper-cased, or "TODO" when there is none. Never empty. |
| AddTicketForm.InitialPriority | frontend/src/components/ticket/AddTicket.jsx:49-51 | The ticket's priority upper-cased, or "NORMAL" when there is none. Never empty. |
| AddTicketForm.ReopenKeepsChoice | frontend/src/components/ticket/AddTicket.jsx:48-51 | Reopening a ticket saved with the form's stage and priority starts from those same values. |
| AddTicketForm.UpperIdempotent | frontend/src/components/ticket/AddTicket.jsx:48-51 | Upper-casing twice is the same as upper-casing once. |
| AddTicketForm.KeyRoundTrip | frontend/src/pages/TicketDetails.jsx:291 | Removing the first `/local-storage/` from a recorded URL gives back exactly the storage key. |
| AddTicketForm.UploadAll | frontend/src/components/ticket/AddTicket.jsx:136-155 | The URL list only grows, keeping its prefix, by one `/local-storage/` URL per file, in order. Each new URL leads back to its file's key. |
| AddTicketForm.Submit | frontend/src/components/ticket/AddTicket.jsx:72-87 | The update call is used iff the ticket has an id, carrying that id and the user's name. The assets are the ticket's own URLs followed by every recorded URL, in order. Title, date, team, stage and priority are sent as the form holds them. |
| AddTicketForm.ResentPrefix | frontend/src/components/ticket/AddTicket.jsx:28 | A recorded list that extends an earlier one, sent after a ticket's own URLs, carries the earlier list intact right after them. |
| AddTicketForm.SubmitTwice | frontend/src/components/ticket/AddTicket.jsx:28 | The recorded list is never cleared, so a second submission on the same page resends every URL uploaded for the first. |
| Store.FindTicket | backend/controllers/ticketController.js:141-150 | The lookup finds a stored ticket with that id, and finds nothing iff no row has it. |
| Store.FindTicketAt | backend/controllers/ticketController.js:141-144 | With unique ids, the lookup finds the row at that id's position. |
| Store.FindUser | backend/middlewares/authMiddleware.js:12-17 | The lookup finds a stored user with that id, and finds nothing iff no row has it. |
| Store.FindUserByEmail | backend/models/user.js:35-47 | The lookup finds a stored user with that email, and finds nothing iff no row has it. |
| Store.RowsFor | backend/controllers/ticketController.js:117-123 | The ticket's member ids are exactly those of its `ticket_team` rows. |
| Store.RowsForAppend | backend/controllers/ticketController.js:117-123 | The team rows of two row blocks concatenate. |
| Store.ResolveUsers | backend/controllers/ticketController.js:117-123 | The join keeps only ids with a user row, and keeps every such id's user. |
| Store.FreshTicketHasNoTeam | backend/controllers/ticketController.js:22-28 | A ticket id not yet allocated has no team rows. |
| Store.SetTrashed | backend/controllers/ticketController.js:266-269 | Exactly the selected rows get the new flag, and ids are unchanged. |
| Store.DeleteWhere | backend/controllers/ticketController.js:285-288 | Exactly the selected rows are removed, and the rest keep their order. |
| Store.SubsequenceKeepsSorted | backend/controllers/ticketController.js:112-114 | Dropping rows from an id-ordered table keeps it id-ordered. |
| Store.AppendKeepsSorted | backend/controllers/ticketController.js:15-22 | Inserting under an id above every existing id keeps the table id-ordered. |
| Store.AppendSubTicket | backend/controllers/ticketController.js:52-57 | A sub-ticket insert is an append that changes nothing else. |
| Store.StoreJson | backend/controllers/ticketController.js:19 | A stored JSON column reads back to a value with the same serialisation. |

## Left out

- Messages and other response text are not modelled. Bodies carry only the data a client reads.
- `GROUP BY` row order: SQL leaves it unspecified. `Grouping.GroupCounts` lists groups by first occurrence, and no property depends on that order.
- Non-numeric `:id` parameters: the router hands the raw string on, and the handlers take a numeric id. How MySQL coerces a non-numeric string is not modelled.
- Negative and fractional team values, and numeric strings: a team member is a natural number, `NaN` or `null`.
- MySQL collation: keys are compared exactly, so `GROUP BY` treats "TODO" and "todo" as different stages.
- JSON fidelity: JSON values are `undefined`, `null`, strings and lists of them. Numbers, objects and string escaping are left out.
- Auto-increment gaps: an id consumed by a rolled-back insert is not skipped.
- The `team` column that `duplicateTicket` copies is an opaque column value. Whether the column exists in a given schema is not modelled.
- Case mapping is ASCII-only: only the letters A–Z are lowered.
- Trimming removes space, tab, line feed, carriage return, U+000B, U+000C, U+00A0, U+FEFF, U+2028 and U+2029. The other Unicode space separators (U+1680, U+2000–U+200A, U+202F, U+205F, U+3000) that `String.prototype.trim` also removes are kept.
- TicketController.DashboardStatistics: requires a valid store, meaning ids unique and ordered as auto-increment keeps them. The history property depends on that order.
- TicketModel.GetAllTickets and TicketModel.GetAllTicketsFixed: require a valid store, because `Object.values` lists integer keys in ascending order and the model reads the table in id order.
- `JSON.parse` is the parameter `parse`. The model assumes only that it rejects the empty text and reads `"[]"` as the empty list (`ParsesJson`). A parse result that is a number, boolean or object has no `JsValue` and is not modelled.
- SQL row order: a `SELECT` without `ORDER BY` is taken to return rows in primary-key order, and the `ticket_team` join in insertion order. MySQL does not promise either. TicketLaws.CreateThenGet, TicketController.RowsForTeamRows, TicketController.GetAllTickets and the model-layer listing rely on this order.
- UserController.RegisterUser and UserController.RegisterThenLogin: `createUser` does not write `isActive`, and a new user's `isActive` is taken to default to true. The schema is not modelled. With a `false` or `NULL` default, a fresh registration would get 401 from `loginUser` until an admin activates the account.
- TicketController.PlainIds and TicketController.CreateTicket: a `null` or object element of a create request's `team` is taken to make the bulk insert fail, giving 500 and a rollback. The driver writes `null` as `NULL` and an object as `` `id` = n ``, so this holds only if `ticket_team.user_id` is NOT NULL and the object form is rejected. The schema is not part of this model, and a `ticket_team` row with a `NULL` user is not representable.
- Foreign keys: none are assumed. Deleting a ticket leaves its `ticket_team`, sub-ticket and activity rows in place, and sub-tickets and activities are accepted for any ticket id. No property depends on cascading deletes.
- Team member keys: the dashboard query renames the user id to `user_id`, while `getTicket` returns it as `id`. Both are modelled as the same `UserSummary`, so the key name is not modelled.
- Connection handling: the `dbConnection` pool and `process.exit` on connection failure.
- `logoutUser`, `getTeamList` and `changeUserPassword` are not part of this model.
- Cookie options, token expiry and the secret: signing and verification are the parameters `sign` and `verify`.
- bcrypt: hashing is the parameter `hash` and comparison the parameter `matches`.
- React rendering, toasts, `setTimeout` and `window.location.reload` are left out.
- `localStorage` writes and the FileReader contents are left out. An upload is a key and a URL, its time stamp is a parameter, and a FileReader error is not modelled because that upload promise never rejects.
- The form's `team` values are a generic type passed through unchanged.
- Router URL decoding, trailing slashes and query-string parsing are not modelled. A path is its list of non-empty segments.
- The commented-out activity endpoints are not modelled.

## Findings

| source | as written | input that shows it | evidently intended | confidence | as-written member | corrected member |
|---|---|---|---|---|---|---|
| backend/controllers/userController.js:26 | The admin's cookie is signed with `newUser.id`, but `createUser` returns the `INSERT` result header, which has `insertId` and no `id`. The token therefore carries no user id. | Register `{name, email, password, isAdmin: true, role, title}` with a new email. The next request with that cookie gets 401 from `protectRoute`. | Sign the token with the inserted row's id (`insertId`), so the new admin is signed in. | not executed | UserController.RegisterCookieRejected | UserController.RegisterFixedCookieAccepted |
| backend/controllers/userController.js:64-67 | A successful login answers with the whole user row, including the `password` hash. | Log in to any active account with its correct password. The body contains the stored hash. | Answer with the row minus `password`, as `registerUser` does at line 27. | not executed | UserController.LoginExposesHash | UserController.LoginFixedHidesHash |
| backend/models/ticket.js:49-50 | The listing runs `JSON.parse` on `ticket.assets`, falling back to the text `"[]"`, on a value the JSON column already hands back parsed. `JSON.parse` turns a list into its string form first, and the string form of `[]` is the empty text, which it rejects, so the whole listing throws. | Create a ticket without assets or team, which stores `[]` in both columns, then call the model-layer `getAllTickets`. | Read the columns as they come back, falling back to `[]` for `NULL`. | not executed; assumes the JSON column type that ticketController.js:207 and TicketDetails.jsx:290 rely on | TicketModel.CreateWithoutListsThenListThrows | TicketModel.CreateWithoutListsReadsEmpty |

=== FILE: add_ticket.dfy ===
/** The ticket form: the stage and priority it starts from, the local URLs
    it gives uploaded files, and the request it submits. Uploaded URLs are
    kept in one list that lives as long as the page and is only appended
    to, so it is threaded through as a value here. The upload time stamp,
    which the form reads from the clock, is a parameter. */
module AddTicketForm {
  import opened Common

  const STAGES: seq<string> := ["TODO", "IN PROGRESS", "COMPLETED"]
  const PRIORITIES: seq<string> := ["HIGH", "MEDIUM", "NORMAL", "LOW"]
  const STORAGE_PREFIX: string := "/local-storage/"
  const KEY_PREFIX: string := "uploaded_image_"

  /** The fields of the ticket the form is opened on, as the client holds
      them; each may be missing. */
  datatype OpenTicket = OpenTicket(
    id: Option<nat>,
    stage: Option<string>,
    priority: Option<string>,
    assets: Option<seq<string>>)

  /** `value?.toUpperCase() || fallback`. */
  function UpperOr(value: Option<string>, fallback: string): (r: string)
    ensures value.Some? && value.value != "" ==> r == ToUpper(value.value)
    ensures value.None? || value.value == "" ==> r == fallback
  {
    if value.Some? && ToUpper(value.value) != "" then ToUpper(value.value) else fallback
  }

  /** The stage the form starts from: the ticket's own, upper-cased, or else
      the first stage of the list. */
  function InitialStage(ticket: Option<OpenTicket>): (r: string)
    ensures r != ""
    ensures ticket.None? || ticket.value.stage.None? || ticket.value.stage.value == "" ==> r == STAGES[0]
    ensures ticket.Some? && ticket.value.stage.Some? && ticket.value.stage.value != "" ==>
      r == ToUpper(ticket.value.stage.value)
  {
    UpperOr(if ticket.Some? then ticket.value.stage else None, STAGES[0])
  }

  /** The priority the form starts from: the ticket's own, upper-cased, or
      else "NORMAL". */
  function InitialPriority(ticket: Option<OpenTicket>): (r: string)
    ensures r != ""
    ensures ticket.None? || ticket.value.priority.None? || ticket.value.priority.value == "" ==> r == PRIORITIES[2]
    ensures ticket.Some? && ticket.value.priority.Some? && ticket.value.priority.value != "" ==>
      r == ToUpper(ticket.value.priority.value)
  {
    UpperOr(if ticket.Some? then ticket.value.priority else None, PRIORITIES[2])
  }

  /** Upper-casing twice is upper-casing once. */
  lemma UpperIdempotent(s: string)
    ensures ToUpper(ToUpper(s)) == ToUpper(s)
  {
  }

  /** Re-opening a ticket saved with the form's stage and priority starts
      from those same values. */
  lemma ReopenKeepsChoice(ticket: Option<OpenTicket>, reopened: OpenTicket)
    requires reopened.stage == Some(InitialStage(ticket))
    requires reopened.priority == Some(InitialPriority(ticket))
    ensures InitialStage(Some(reopened)) == InitialStage(ticket)
    ensures InitialPriority(Some(reopened)) == InitialPriority(ticket)
  {
    if ticket.Some? && ticket.value.stage.Some? && ticket.value.stage.value != "" {
      UpperIdempotent(ticket.value.stage.value);
    }
    if ticket.Some? && ticket.value.priority.Some? && ticket.value.priority.value != "" {
      UpperIdempotent(ticket.value.priority.value);
    }
  }

  // ---------------------------------------------------------------------------
  // Uploads
  // ---------------------------------------------------------------------------

  /** The storage key of a file read at time `now`. */
  function FileKey(now: nat): string
  {
    KEY_PREFIX + NatToString(now)
  }

  /** The URL the form records for a stored file. */
  function FileUrl(key: string): string
  {
    STORAGE_PREFIX + key
  }

  /** How the details page turns a recorded URL back into a storage key:
      the first occurrence of the prefix is removed. */
  function KeyOfUrl(url: string): string
  {
    ReplaceFirst(url, STORAGE_PREFIX, "")
  }

  /** Every recorded URL leads back to the key its file was stored under. */
  lemma KeyRoundTrip(key: string)
    ensures KeyOfUrl(FileUrl(key)) == key
  {
    ReplaceFirstOfPrefix(STORAGE_PREFIX, key);
  }

  /** Uploading the selected files one by one, each read at its own time:
      the list of recorded URLs only grows, by one URL per file, in order. */
  method UploadAll(recorded: seq<string>, times: seq<nat>) returns (r: seq<string>)
    ensures |r| == |recorded| + |times|
    ensures r[..|recorded|] == recorded
    ensures forall i :: 0 <= i < |times| ==> r[|recorded| + i] == FileUrl(FileKey(times[i]))
    ensures forall i :: 0 <= i < |times| ==> KeyOfUrl(r[|recorded| + i]) == FileKey(times[i])
  {
    r := recorded;
    var n := 0;
    while n < |times|
      invariant 0 <= n <= |times|
      invariant |r| == |recorded| + n
      invariant r[..|recorded|] == recorded
      invariant forall i :: 0 <= i < n ==> r[|recorded| + i] == FileUrl(FileKey(times[i]))
    {
      var url := FileUrl(FileKey(times[n]));
      assert (r + [url])[..|recorded|] == r[..|recorded|];
      r := r + [url];
      n := n + 1;
    }
    forall i | 0 <= i < |times| ensures KeyOfUrl(r[|recorded| + i]) == FileKey(times[i]) {
      KeyRoundTrip(FileKey(times[i]));
    }
  }

  // ---------------------------------------------------------------------------
  // Submission
  // ---------------------------------------------------------------------------

  /** The request body of the form. `date` is the form's formatted date
      string, sent along although no handler reads it. */
  datatype Payload<T> = Payload(title: string, date: string, assets: seq<string>, team: seq<T>, stage: string, priority: string)

  /** The call the form makes: create, or update of the opened ticket with
      the signed-in user's name as `updated_by`. */
  datatype Mutation<T> =
    | Create(payload: Payload<T>)
    | Update(payload: Payload<T>, id: nat, updatedBy: Option<string>)

  /** The ticket's asset URLs, or none. */
  function SavedAssets(ticket: Option<OpenTicket>): seq<string>
  {
    if ticket.Some? && ticket.value.assets.Some? then ticket.value.assets.value else []
  }

  /** The submitted request: assets are the opened ticket's URLs followed by
      every URL recorded so far; the update call is used exactly when the
      opened ticket has a (non-zero) id. */
  function Submit<T>(ticket: Option<OpenTicket>, title: string, date: string, team: seq<T>, stage: string, priority: string,
                     recorded: seq<string>, userName: Option<string>): (r: Mutation<T>)
    ensures r.Update? <==> ticket.Some? && ticket.value.id.Some? && ticket.value.id.value != 0
    ensures r.Update? ==> r.id == ticket.value.id.value && r.updatedBy == userName
    ensures r.payload.assets == SavedAssets(ticket) + recorded
    ensures r.payload.title == title && r.payload.date == date && r.payload.team == team
    ensures r.payload.stage == stage && r.payload.priority == priority
  {
    var p := Payload(title, date, SavedAssets(ticket) + recorded, team, stage, priority);
    if ticket.Some? && ticket.value.id.Some? && ticket.value.id.value != 0 then
      Update(p, ticket.value.id.value, userName)
    else Create(p)
  }

  /** The recorded URLs are never cleared: a second submission on the same
      page sends again every file uploaded for the first one, after the
      second ticket's own assets. */
  method SubmitTwice<T>(recorded: seq<string>, first: Option<OpenTicket>, firstFiles: seq<nat>,
                        second: Option<OpenTicket>, secondFiles: seq<nat>,
                        title: string, date: string, team: seq<T>, stage: string, priority: string, userName: Option<string>)
    returns (m1: Mutation<T>, m2: Mutation<T>)
    ensures |m1.payload.assets| == |SavedAssets(first)| + |recorded| + |firstFiles|
    ensures |m2.payload.assets| == |SavedAssets(second)| + |recorded| + |firstFiles| + |secondFiles|
    ensures m2.payload.assets[|SavedAssets(second)|..|SavedAssets(second)| + |recorded| + |firstFiles|]
         == m1.payload.assets[|SavedAssets(first)|..]
    ensures forall i :: 0 <= i < |firstFiles| ==>
      m2.payload.assets[|SavedAssets(second)| + |recorded| + i] == FileUrl(FileKey(firstFiles[i]))
  {
    var afterFirst := UploadAll(recorded, firstFiles);
    m1 := Submit(first, title, date, team, stage, priority, afterFirst, userName);
    var afterSecond := UploadAll(afterFirst, secondFiles);
    m2 := Submit(second, title, date, team, stage, priority, afterSecond, userName);
    ResentPrefix(SavedAssets(second), afterFirst, afterSecond);
    assert m1.payload.assets[|SavedAssets(first)|..] == afterFirst;
  }

  /** A list that extends `first`, placed after `saved`, holds `first` right
      after `saved`. */
  lemma ResentPrefix(saved: seq<string>, first: seq<string>, second: seq<string>)
    requires |first| <= |second| && second[..|first|] == first
    ensures (saved + second)[|saved|..|saved| + |first|] == first
    ensures forall k :: 0 <= k < |first| ==> (saved + second)[|saved| + k] == first[k]
  {
    forall k | 0 <= k < |first| ensures (saved + second)[|saved| + k] == first[k] {
      assert second[..|first|][k] == second[k];
    }
  }
}

=== FILE: auth.dfy ===
/** The two route guards: `protectRoute`, which turns a session cookie into
    the request's user, and `isAdminRoute`, which lets only administrators
    through. Token verification is a parameter: `verify` stands for
    `jwt.verify` with the server's secret, answering the claims of a token
    that is well signed and unexpired and `None` where the library throws. */
module Auth {
  import opened Common
  import opened Store

  const UNAUTHORIZED: int := 401
  const FORBIDDEN: int := 403

  /** The payload of a session token: `{ userId }` as it was signed. A token
      signed with an undefined id carries no `userId`. */
  datatype Claims = Claims(userId: Option<UserId>)

  /** `req.user` as `protectRoute` sets it. */
  datatype Principal = Principal(email: string, isAdmin: bool, userId: UserId)

  /** A guard either calls `next` with the request's user so far, or answers
      with an error status and ends the request. */
  datatype Gate = Pass(user: Option<Principal>) | Stop(status: int)

  /** The middlewares a route lists before its handler. */
  datatype Guard = Protect | Admin

  /** The cookie value is used only when it is a non-empty string. */
  predicate HasToken(cookie: Option<string>)
  {
    cookie.Some? && cookie.value != ""
  }

  /** The user id a cookie authenticates as, when it is a verified token that
      carries an id. */
  function TokenUser(cookie: Option<string>, verify: string -> Option<Claims>): (r: Option<UserId>)
    ensures r.Some? <==> HasToken(cookie) && verify(cookie.value).Some? && verify(cookie.value).value.userId.Some?
    ensures r.Some? ==> r.value == verify(cookie.value).value.userId.value
  {
    if !HasToken(cookie) then None
    else match verify(cookie.value)
      case None => None
      case Some(c) => c.userId
  }

  /** `protectRoute`: a missing or empty cookie, a token that fails
      verification, a token without a user id (the lookup then throws) and a
      user id with no row all answer 401. Otherwise the request's user takes
      its email and admin flag from the current row and its id from the
      token. */
  function ProtectRoute(cookie: Option<string>, verify: string -> Option<Claims>, users: seq<User>): (r: Gate)
    ensures r.Stop? ==> r.status == UNAUTHORIZED
    ensures !HasToken(cookie) ==> r.Stop?
    ensures r.Pass? <==> TokenUser(cookie, verify).Some? && FindUser(users, TokenUser(cookie, verify).value).Some?
    ensures r.Pass? ==>
      && r.user.Some?
      && r.user.value.userId == verify(cookie.value).value.userId.value
      && (exists i :: 0 <= i < |users| && users[i].id == r.user.value.userId
            && users[i].email == r.user.value.email && users[i].isAdmin == r.user.value.isAdmin)
  {
    match TokenUser(cookie, verify)
    case None => Stop(UNAUTHORIZED)
    case Some(id) =>
      match FindUser(users, id)
      case None => Stop(UNAUTHORIZED)
      case Some(u) => Pass(Some(Principal(u.email, u.isAdmin, id)))
  }

  /** `isAdminRoute`: passes the user on exactly when there is one and it is
      an administrator; otherwise 403. */
  function IsAdminRoute(user: Option<Principal>): (r: Gate)
    ensures r.Pass? <==> user.Some? && user.value.isAdmin
    ensures r.Pass? ==> r.user == user
    ensures r.Stop? ==> r.status == FORBIDDEN
  {
    if user.Some? && user.value.isAdmin then Pass(user) else Stop(FORBIDDEN)
  }

  /** Runs a route's guards in order, stopping at the first that answers. */
  function RunGuards(gs: seq<Guard>, user: Option<Principal>, cookie: Option<string>,
                     verify: string -> Option<Claims>, users: seq<User>): (r: Gate)
    ensures gs == [] ==> r == Pass(user)
    ensures r.Stop? ==> r.status == UNAUTHORIZED || r.status == FORBIDDEN
    decreases |gs|
  {
    if gs == [] then Pass(user)
    else
      var g := match gs[0]
        case Protect => ProtectRoute(cookie, verify, users)
        case Admin => IsAdminRoute(user);
      match g
      case Stop(s) => Stop(s)
      case Pass(u) => RunGuards(gs[1..], u, cookie, verify, users)
  }

  /** A chain that authenticates first answers 401, never 403, to a caller
      without a valid session, whatever follows. */
  lemma UnauthenticatedGets401(gs: seq<Guard>, cookie: Option<string>, verify: string -> Option<Claims>, users: seq<User>)
    requires gs != [] && gs[0] == Protect
    requires TokenUser(cookie, verify).None? || FindUser(users, TokenUser(cookie, verify).value).None?
    ensures RunGuards(gs, None, cookie, verify, users) == Stop(UNAUTHORIZED)
  {
  }

  /** The guard chain of the administrator routes lets a request through
      exactly when its token names an existing user whose current row has
      the admin flag; the user is then the one the token names. */
  lemma AdminChain(cookie: Option<string>, verify: string -> Option<Claims>, users: seq<User>)
    ensures var r := RunGuards([Protect, Admin], None, cookie, verify, users);
      && (r.Pass? <==>
            && TokenUser(cookie, verify).Some?
            && FindUser(users, TokenUser(cookie, verify).value).Some?
            && FindUser(users, TokenUser(cookie, verify).value).value.isAdmin)
      && (r.Pass? ==> r.user.Some? && r.user.value.userId == TokenUser(cookie, verify).value)
      && (r.Stop? ==> (r.status == FORBIDDEN <==> ProtectRoute(cookie, verify, users).Pass?))
  {
    assert [Protect, Admin][1..] == [Admin];
    assert [Admin][1..] == [];
  }

  /** The guard chain of the routes open to every user lets a request
      through exactly when `protectRoute` does. */
  lemma ProtectChain(cookie: Option<string>, verify: string -> Option<Claims>, users: seq<User>)
    ensures RunGuards([Protect], None, cookie, verify, users) == ProtectRoute(cookie, verify, users)
  {
    assert [Protect][1..] == [];
  }
}

=== FILE: change_log.dfy ===
/** The change description `updateTicket` writes into a ticket's
    `description` column: one clause per changed dimension, compared in the
    fixed order title, stage, priority, assets, joined with ", ". */
module ChangeLog {
  import opened Common
  import opened Store

  datatype Change =
    | TitleChanged(from: string, to: string)
    | StageChanged(from: string, to: string)
    | PriorityChanged(from: string, to: string)
    | AssetsUpdated

  /** Position of a clause kind in the emission order. */
  function Rank(c: Change): nat
  {
    match c
    case TitleChanged(_, _) => 0
    case StageChanged(_, _) => 1
    case PriorityChanged(_, _) => 2
    case AssetsUpdated => 3
  }

  /** Titles are compared exactly after trimming. */
  predicate TitleDiffers(prev: string, next: string)
  {
    Trim(prev) != Trim(next)
  }

  /** Stages and priorities are compared lower-cased and trimmed. */
  predicate LabelDiffers(prev: string, next: string)
  {
    Trim(ToLower(prev)) != Trim(ToLower(next))
  }

  /** Assets are compared by their JSON serialisations. */
  predicate AssetsDiffer(prev: Column, next: JsValue)
  {
    Serialize(ColumnValue(prev)) != Serialize(next)
  }

  /** Clauses appear in strictly increasing kind order, so each kind at most once. */
  predicate Ordered(cs: seq<Change>)
  {
    forall i, j :: 0 <= i < j < |cs| ==> Rank(cs[i]) < Rank(cs[j])
  }

  /** Puts clause `c` in front of the later clauses when it fires. */
  function Push(fires: bool, c: Change, rest: seq<Change>): (r: seq<Change>)
    requires Ordered(rest)
    requires forall i :: 0 <= i < |rest| ==> Rank(c) < Rank(rest[i])
    ensures Ordered(r)
    ensures forall i :: 0 <= i < |r| ==> Rank(c) <= Rank(r[i])
    ensures forall x :: x in r ==> Rank(c) <= Rank(x)
    ensures forall x :: x in r <==> (fires && x == c) || x in rest
    ensures |r| <= |rest| + 1
  {
    if fires then [c] + rest else rest
  }

  /** The four candidate clauses, each kept when its flag is set, in rank order. */
  function Collect(ft: bool, tFrom: string, tTo: string, fs: bool, sFrom: string, sTo: string,
                   fp: bool, pFrom: string, pTo: string, fa: bool): (r: seq<Change>)
    ensures |r| <= 4
    ensures Ordered(r)
  {
    var r3 := Push(fa, AssetsUpdated, []);
    var r2 := Push(fp, PriorityChanged(pFrom, pTo), r3);
    var r1 := Push(fs, StageChanged(sFrom, sTo), r2);
    Push(ft, TitleChanged(tFrom, tTo), r1)
  }

  /** A candidate clause is collected exactly when its flag is set. */
  lemma CollectMembers(ft: bool, tFrom: string, tTo: string, fs: bool, sFrom: string, sTo: string,
                       fp: bool, pFrom: string, pTo: string, fa: bool)
    ensures var r := Collect(ft, tFrom, tTo, fs, sFrom, sTo, fp, pFrom, pTo, fa);
      && (TitleChanged(tFrom, tTo) in r <==> ft)
      && (StageChanged(sFrom, sTo) in r <==> fs)
      && (PriorityChanged(pFrom, pTo) in r <==> fp)
      && (AssetsUpdated in r <==> fa)
  {
    var (t, st, p) := (TitleChanged(tFrom, tTo), StageChanged(sFrom, sTo), PriorityChanged(pFrom, pTo));
    var r3 := Push(fa, AssetsUpdated, []);
    var r2 := Push(fp, p, r3);
    var r1 := Push(fs, st, r2);
    assert p !in r3 && st !in r3 && t !in r3;
    assert st !in r2 && t !in r2;
    assert t !in r1;
  }

  /** Nothing but the four candidate clauses is ever collected. */
  lemma CollectOnly(ft: bool, tFrom: string, tTo: string, fs: bool, sFrom: string, sTo: string,
                    fp: bool, pFrom: string, pTo: string, fa: bool)
    ensures forall c :: c in Collect(ft, tFrom, tTo, fs, sFrom, sTo, fp, pFrom, pTo, fa) ==>
      c == TitleChanged(tFrom, tTo) || c == StageChanged(sFrom, sTo) || c == PriorityChanged(pFrom, pTo)
      || c == AssetsUpdated
  {
    var r3 := Push(fa, AssetsUpdated, []);
    var r2 := Push(fp, PriorityChanged(pFrom, pTo), r3);
    var r1 := Push(fs, StageChanged(sFrom, sTo), r2);
    assert forall c :: c in r1 ==> c == StageChanged(sFrom, sTo) || c == PriorityChanged(pFrom, pTo) || c == AssetsUpdated;
  }

  /** The clauses an update of `prev` to the given values records. */
  function Changes(prev: Ticket, title: string, stage: string, priority: string, assets: JsValue): (r: seq<Change>)
    ensures |r| <= 4
    ensures Ordered(r)
    ensures TitleChanged(prev.title, title) in r <==> TitleDiffers(prev.title, title)
    ensures StageChanged(prev.stage, stage) in r <==> LabelDiffers(prev.stage, stage)
    ensures PriorityChanged(prev.priority, priority) in r <==> LabelDiffers(prev.priority, priority)
    ensures AssetsUpdated in r <==> AssetsDiffer(prev.assets, assets)
    ensures forall c :: c in r ==>
      c == TitleChanged(prev.title, title) || c == StageChanged(prev.stage, stage)
      || c == PriorityChanged(prev.priority, priority) || c == AssetsUpdated
  {
    CollectMembers(TitleDiffers(prev.title, title), prev.title, title,
                   LabelDiffers(prev.stage, stage), prev.stage, stage,
                   LabelDiffers(prev.priority, priority), prev.priority, priority,
                   AssetsDiffer(prev.assets, assets));
    CollectOnly(TitleDiffers(prev.title, title), prev.title, title,
                LabelDiffers(prev.stage, stage), prev.stage, stage,
                LabelDiffers(prev.priority, priority), prev.priority, priority,
                AssetsDiffer(prev.assets, assets));
    Collect(TitleDiffers(prev.title, title), prev.title, title,
            LabelDiffers(prev.stage, stage), prev.stage, stage,
            LabelDiffers(prev.priority, priority), prev.priority, priority,
            AssetsDiffer(prev.assets, assets))
  }

  function Render(c: Change): string
  {
    match c
    case TitleChanged(f, t) => "Title changed from '" + f + "' to '" + t + "'"
    case StageChanged(f, t) => "Stage changed from '" + f + "' to '" + t + "'"
    case PriorityChanged(f, t) => "Priority changed from '" + f + "' to '" + t + "'"
    case AssetsUpdated => "Assets updated"
  }

  function RenderAll(cs: seq<Change>): (r: seq<string>)
    ensures |r| == |cs|
    ensures forall i :: 0 <= i < |cs| ==> r[i] == Render(cs[i])
  {
    seq(|cs|, i requires 0 <= i < |cs| => Render(cs[i]))
  }

  /** The description stored by an update: the joined clauses, or the previous
      description (possibly `NULL`) when no clause fired. */
  function Description(prev: Option<string>, changes: seq<Change>): (r: Option<string>)
    ensures changes == [] ==> r == prev
    ensures changes != [] ==> r.Some?
    ensures |changes| == 1 ==> r == Some(Render(changes[0]))
    ensures changes != [] ==> Render(changes[0]) <= r.value
    ensures |changes| >= 2 ==> Render(changes[0]) + ", " <= r.value
    ensures changes != [] ==> r == Some(Join(RenderAll(changes), ", "))
  {
    if |changes| > 0 then Some(Join(RenderAll(changes), ", ")) else prev
  }

  /** Each further clause is written after the ones before it, separated
      by ", ", whatever the previous description was. */
  lemma DescriptionAppend(prev: Option<string>, first: seq<Change>, later: seq<Change>)
    requires first != [] && later != []
    ensures Description(prev, first + later)
         == Some(Description(prev, first).value + ", " + Description(None, later).value)
  {
    assert RenderAll(first + later) == RenderAll(first) + RenderAll(later);
    JoinAppend(RenderAll(first), RenderAll(later), ", ");
  }

  /** The worked example with two clauses: the title and the stage move, and
      the description is both clauses in that order, comma-separated. */
  lemma TitleAndStageExample(t: Ticket, title: string)
    requires t.stage == "todo" && TitleDiffers(t.title, title)
    ensures Description(t.description, Changes(t, title, "completed", t.priority, ColumnValue(t.assets)))
         == Some(Render(TitleChanged(t.title, title)) + ", " + Render(StageChanged("todo", "completed")))
  {
    TitleAndStageChanges(t, title);
    DescriptionPair(t.description, TitleChanged(t.title, title), StageChanged("todo", "completed"));
  }

  /** Two clauses are written comma-separated, in order. */
  lemma DescriptionPair(prev: Option<string>, c1: Change, c2: Change)
    ensures Description(prev, [c1, c2]) == Some(Render(c1) + ", " + Render(c2))
  {
    assert [c1] + [c2] == [c1, c2];
    DescriptionAppend(prev, [c1], [c2]);
  }

  lemma TitleAndStageChanges(t: Ticket, title: string)
    requires t.stage == "todo" && TitleDiffers(t.title, title)
    ensures Changes(t, title, "completed", t.priority, ColumnValue(t.assets))
         == [TitleChanged(t.title, title), StageChanged("todo", "completed")]
  {
    TodoCompletedDiffer();
    assert !LabelDiffers(t.priority, t.priority);
    assert !AssetsDiffer(t.assets, ColumnValue(t.assets));
    CollectTitleStage(t.title, title, "todo", "completed", t.priority);
  }

  /** With only the title and stage flags set, exactly those two clauses are
      collected, title first. */
  lemma CollectTitleStage(tFrom: string, tTo: string, sFrom: string, sTo: string, p: string)
    ensures Collect(true, tFrom, tTo, true, sFrom, sTo, false, p, p, false)
         == [TitleChanged(tFrom, tTo), StageChanged(sFrom, sTo)]
  {
    var r2 := Push(false, PriorityChanged(p, p), Push(false, AssetsUpdated, []));
    assert r2 == [];
    var r1 := Push(true, StageChanged(sFrom, sTo), r2);
    assert r1 == [StageChanged(sFrom, sTo)];
  }

  /** Resubmitting a ticket's own stored values records no change. */
  lemma {:induction false} NoChangeOnSameValues(t: Ticket)
    ensures Changes(t, t.title, t.stage, t.priority, ColumnValue(t.assets)) == []
  {
  }

  /** The worked example: only the stage moves from "todo" to "completed", so
      exactly the one stage clause is recorded. */
  lemma StageOnlyExample(t: Ticket)
    requires t.stage == "todo"
    ensures Changes(t, t.title, "completed", t.priority, ColumnValue(t.assets))
         == [StageChanged("todo", "completed")]
    ensures Description(t.description, Changes(t, t.title, "completed", t.priority, ColumnValue(t.assets)))
         == Some(Render(StageChanged("todo", "completed")))
  {
    TodoCompletedDiffer();
  }

  lemma TodoCompletedDiffer()
    ensures LabelDiffers("todo", "completed")
  {
    TodoNormalized();
    CompletedNormalized();
  }

  lemma TodoNormalized()
    ensures Trim(ToLower("todo")) == "todo"
  {
    NormalizedLiteral("todo");
  }

  lemma CompletedNormalized()
    ensures Trim(ToLower("completed")) == "completed"
  {
    NormalizedLiteral("completed");
  }

  /** A label with no upper-case letters and no surrounding white space is
      its own normalised form. */
  lemma NormalizedLiteral(s: string)
    requires s != [] && !IsSpace(s[0]) && !IsSpace(s[|s| - 1])
    requires forall i :: 0 <= i < |s| ==> !('A' <= s[i] <= 'Z')
    ensures Trim(ToLower(s)) == s
  {
    assert ToLower(s) == s;
    assert TrimStart(s) == s;
  }
}

=== FILE: common.dfy ===
/** Shared vocabulary: an optional value, generic sequence helpers, and the
    JavaScript string operations the handlers and pages rely on
    (`trim`, `toLowerCase`, `toUpperCase`, `includes`, `join`, `replace`,
    `Number.prototype.toString`). Case mapping is ASCII-only. */
module Common {

  datatype Option<+T> = None | Some(value: T)

  // ---------------------------------------------------------------------------
  // Sequences
  // ---------------------------------------------------------------------------

  /** `Array.prototype.filter`: the elements satisfying `p`, in their order. */
  function Filter<T>(s: seq<T>, p: T -> bool): (r: seq<T>)
    ensures |r| <= |s|
    ensures forall i :: 0 <= i < |r| ==> r[i] in s && p(r[i])
    ensures forall i :: 0 <= i < |s| && p(s[i]) ==> s[i] in r
  {
    if s == [] then []
    else (if p(s[0]) then [s[0]] else []) + Filter(s[1..], p)
  }

  /** One unfolding of `Filter`. */
  lemma FilterCons<T>(s: seq<T>, p: T -> bool)
    requires s != []
    ensures Filter(s, p) == (if p(s[0]) then [s[0]] else []) + Filter(s[1..], p)
  {
  }

  /** `a` can be obtained from `b` by deleting elements (order preserved). */
  predicate IsSubsequence<T(==)>(a: seq<T>, b: seq<T>)
    decreases |b|
  {
    if a == [] then true
    else if b == [] then false
    else if a[0] == b[0] then IsSubsequence(a[1..], b[1..])
    else IsSubsequence(a, b[1..])
  }

  /** A subsequence of the tail is a subsequence of the whole. */
  lemma {:induction false} SubsequenceOfTail<T>(a: seq<T>, b: seq<T>)
    requires |b| > 0
    requires IsSubsequence(a, b[1..])
    ensures IsSubsequence(a, b)
    decreases |b|, 0
  {
    if a != [] && a[0] == b[0] {
      SubsequenceDropHead(a, b[1..]);
    }
  }

  /** Dropping the first element of a subsequence keeps it a subsequence. */
  lemma {:induction false} SubsequenceDropHead<T>(a: seq<T>, b: seq<T>)
    requires a != []
    requires IsSubsequence(a, b)
    ensures IsSubsequence(a[1..], b)
    decreases |b|, 1
  {
    if a[0] == b[0] {
      SubsequenceOfTail(a[1..], b);
    } else {
      SubsequenceDropHead(a, b[1..]);
      SubsequenceOfTail(a[1..], b);
    }
  }

  /** `filter` keeps the surviving elements in their original order. */
  lemma {:induction false} FilterIsSubsequence<T>(s: seq<T>, p: T -> bool)
    ensures IsSubsequence(Filter(s, p), s)
  {
    if s != [] {
      FilterIsSubsequence(s[1..], p);
      if p(s[0]) {
        assert Filter(s, p) == [s[0]] + Filter(s[1..], p);
        assert Filter(s, p)[1..] == Filter(s[1..], p);
      } else {
        assert Filter(s, p) == Filter(s[1..], p);
        SubsequenceOfTail(Filter(s, p), s);
      }
    }
  }

  lemma {:induction false} FilterAppend<T>(a: seq<T>, b: seq<T>, p: T -> bool)
    ensures Filter(a + b, p) == Filter(a, p) + Filter(b, p)
  {
    if a == [] {
      assert a + b == b;
    } else {
      assert (a + b)[0] == a[0];
      assert (a + b)[1..] == a[1..] + b;
      FilterAppend(a[1..], b, p);
    }
  }

  lemma {:induction false} FilterAll<T>(s: seq<T>, p: T -> bool)
    requires forall i :: 0 <= i < |s| ==> p(s[i])
    ensures Filter(s, p) == s
  {
    if s != [] {
      FilterAll(s[1..], p);
    }
  }

  lemma {:induction false} FilterNone<T>(s: seq<T>, p: T -> bool)
    requires forall i :: 0 <= i < |s| ==> !p(s[i])
    ensures Filter(s, p) == []
  {
    if s != [] {
      FilterNone(s[1..], p);
    }
  }

  function Reverse<T>(s: seq<T>): (r: seq<T>)
    ensures |r| == |s|
    ensures forall i :: 0 <= i < |s| ==> r[i] == s[|s| - 1 - i]
  {
    if s == [] then [] else Reverse(s[1..]) + [s[0]]
  }

  function Min(a: int, b: int): int { if a <= b then a else b }

  // ---------------------------------------------------------------------------
  // Strings
  // ---------------------------------------------------------------------------

  /** The white-space and line-terminator characters `String.prototype.trim`
      strips (the Unicode space separators beyond U+00A0 are not listed). */
  predicate IsSpace(c: char)
  {
    c == ' ' || c == '\t' || c == '\n' || c == '\r' || c == '\U{000B}' || c == '\U{000C}'
    || c == '\U{00A0}' || c == '\U{FEFF}' || c == '\U{2028}' || c == '\U{2029}'
  }

  function TrimStart(s: string): (r: string)
    ensures |r| <= |s| && r == s[|s| - |r|..]
    ensures r == [] || !IsSpace(r[0])
    ensures forall k :: 0 <= k < |s| - |r| ==> IsSpace(s[k])
  {
    if s != [] && IsSpace(s[0]) then TrimStart(s[1..]) else s
  }

  function TrimEnd(s: string): (r: string)
    ensures |r| <= |s| && r == s[..|r|]
    ensures r == [] || !IsSpace(r[|r| - 1])
    ensures forall k :: |r| <= k < |s| ==> IsSpace(s[k])
  {
    if s != [] && IsSpace(s[|s| - 1]) then TrimEnd(s[..|s| - 1]) else s
  }

  /** `String.prototype.trim`. */
  function Trim(s: string): string
  {
    TrimEnd(TrimStart(s))
  }

  function LowerChar(c: char): char
  {
    if 'A' <= c <= 'Z' then (c as int + 32) as char else c
  }

  function UpperChar(c: char): char
  {
    if 'a' <= c <= 'z' then (c as int - 32) as char else c
  }

  /** `String.prototype.toLowerCase` on ASCII letters. */
  function ToLower(s: string): (r: string)
    ensures |r| == |s|
    ensures forall i :: 0 <= i < |s| ==> r[i] == LowerChar(s[i])
  {
    seq(|s|, i requires 0 <= i < |s| => LowerChar(s[i]))
  }

  /** `String.prototype.toUpperCase` on ASCII letters. */
  function ToUpper(s: string): (r: string)
    ensures |r| == |s|
    ensures forall i :: 0 <= i < |s| ==> r[i] == UpperChar(s[i])
  {
    seq(|s|, i requires 0 <= i < |s| => UpperChar(s[i]))
  }

  /** `sub` occurs in `s` at position `k`. */
  predicate MatchAt(s: string, sub: string, k: int)
  {
    0 <= k && k + |sub| <= |s| && s[k..k + |sub|] == sub
  }

  /** The first position at or after `from` where `sub` occurs in `s`. */
  function IndexOfFrom(s: string, sub: string, from: nat): (r: Option<nat>)
    ensures r.Some? ==> from <= r.value && MatchAt(s, sub, r.value)
    ensures r.Some? ==> forall k :: from <= k < r.value ==> !MatchAt(s, sub, k)
    ensures r.None? ==> forall k :: from <= k ==> !MatchAt(s, sub, k)
    decreases |s| - from
  {
    if from + |sub| > |s| then None
    else if s[from..from + |sub|] == sub then Some(from)
    else IndexOfFrom(s, sub, from + 1)
  }

  /** `String.prototype.indexOf`: the first occurrence of `sub` in `s`. */
  function IndexOf(s: string, sub: string): Option<nat>
  {
    IndexOfFrom(s, sub, 0)
  }

  /** `String.prototype.includes`. */
  predicate Contains(s: string, sub: string)
  {
    IndexOf(s, sub).Some?
  }

  lemma ContainsIff(s: string, sub: string)
    ensures Contains(s, sub) <==> exists k :: MatchAt(s, sub, k)
  {
    if !Contains(s, sub) {
      forall k ensures !MatchAt(s, sub, k) {
        if k < 0 {
        } else {
          assert (k as nat) >= 0;
        }
      }
    }
  }

  /** Every string includes the empty string. */
  lemma ContainsEmpty(s: string)
    ensures Contains(s, "")
  {
    assert MatchAt(s, "", 0);
  }

  /** `String.prototype.replace(pat, rep)` with a string pattern: only the
      first occurrence is replaced. */
  function ReplaceFirst(s: string, pat: string, rep: string): string
  {
    match IndexOf(s, pat)
    case None => s
    case Some(i) => s[..i] + rep + s[i + |pat|..]
  }

  /** Removing the first occurrence of a prefix that was put in front of a
      key gives the key back, whatever the key contains. */
  lemma ReplaceFirstOfPrefix(prefix: string, key: string)
    ensures ReplaceFirst(prefix + key, prefix, "") == key
  {
    var s := prefix + key;
    assert s[0..|prefix|] == prefix;
    assert MatchAt(s, prefix, 0);
    var i := IndexOf(s, prefix);
    assert i == Some(0);
    assert s[|prefix|..] == key;
  }

  /** `Array.prototype.join(sep)`. */
  function Join(parts: seq<string>, sep: string): (r: string)
    ensures parts == [] ==> r == ""
    ensures |parts| == 1 ==> r == parts[0]
    ensures |parts| >= 1 ==> parts[0] <= r
    ensures |parts| >= 2 ==> parts[0] + sep <= r
  {
    if parts == [] then ""
    else if |parts| == 1 then parts[0]
    else parts[0] + sep + Join(parts[1..], sep)
  }

  /** Joining two non-empty lists back to back puts one separator between
      their joins; with the one-part case this determines `Join` entirely. */
  lemma {:induction false} JoinAppend(a: seq<string>, b: seq<string>, sep: string)
    requires a != [] && b != []
    ensures Join(a + b, sep) == Join(a, sep) + sep + Join(b, sep)
  {
    if |a| == 1 {
      assert (a + b)[1..] == b;
    } else {
      JoinAppend(a[1..], b, sep);
      assert (a + b)[1..] == a[1..] + b;
      JoinStep(a + b, sep);
      JoinStep(a, sep);
      AppendAssoc(a[0] + sep, Join(a[1..], sep), sep + Join(b, sep));
    }
  }

  /** A join of two or more parts is the first part, the separator, then
      the join of the rest. */
  lemma JoinStep(parts: seq<string>, sep: string)
    requires |parts| >= 2
    ensures Join(parts, sep) == parts[0] + sep + Join(parts[1..], sep)
  {
  }

  lemma AppendAssoc<T>(x: seq<T>, y: seq<T>, z: seq<T>)
    ensures x + (y + z) == (x + y) + z
  {
  }

  function DigitChar(d: nat): char
    requires d < 10
  {
    ('0' as int + d) as char
  }

  /** `Number.prototype.toString()` on a non-negative integer: its decimal digits. */
  function NatToString(n: nat): (r: string)
    ensures |r| >= 1
    ensures forall i :: 0 <= i < |r| ==> '0' <= r[i] <= '9'
    ensures n < 10 ==> r == [DigitChar(n)]
  {
    if n < 10 then [DigitChar(n)] else NatToString(n / 10) + [DigitChar(n % 10)]
  }
}

=== FILE: dashboard_page.dfy ===
/** The dashboard page's summary cards: the per-stage totals it folds out
    of the grouped counts, and the four cards it shows. */
module DashboardPage {
  import opened Common
  import opened Store
  import opened Grouping
  import opened TicketController

  /** A summary card: its caption and the number it shows. */
  datatype Card = Card(caption: string, total: nat)

  /** No later group has the same key as group `i`. */
  predicate LastWithKey(gs: seq<Group>, i: int)
    requires 0 <= i < |gs|
  {
    forall j :: i < j < |gs| ==> gs[j].key != gs[i].key
  }

  /** The `reduce` step by step: each group sets its key to its count. */
  function Fold(acc: map<string, nat>, gs: seq<Group>): (m: map<string, nat>)
    ensures forall k :: k in m <==> k in acc || k in Keys(gs)
    ensures forall k :: k in acc && k !in Keys(gs) ==> m[k] == acc[k]
    ensures forall i :: 0 <= i < |gs| && LastWithKey(gs, i) ==> gs[i].key in m && m[gs[i].key] == gs[i].count
    decreases |gs|
  {
    if gs == [] then acc
    else
      var m := Fold(acc[gs[0].key := gs[0].count], gs[1..]);
      KeysCons(gs);
      forall i | 0 <= i < |gs| && LastWithKey(gs, i) ensures m[gs[i].key] == gs[i].count {
        if i > 0 {
          LastWithKeyTail(gs, i);
        } else {
          LastWithKeyFirst(gs);
        }
      }
      m
  }

  /** The keys of a non-empty grouping: the first key, then the others. */
  lemma KeysCons(gs: seq<Group>)
    requires gs != []
    ensures forall k :: k in Keys(gs) <==> k == gs[0].key || k in Keys(gs[1..])
  {
    assert Keys(gs) == [gs[0].key] + Keys(gs[1..]);
  }

  /** A group after the first that is last with its key stays so in the tail. */
  lemma LastWithKeyTail(gs: seq<Group>, i: int)
    requires 0 < i < |gs| && LastWithKey(gs, i)
    ensures LastWithKey(gs[1..], i - 1)
  {
    forall j | i - 1 < j < |gs[1..]| ensures gs[1..][j].key != gs[1..][i - 1].key {
      assert gs[1..][j] == gs[j + 1];
    }
  }

  /** When the first group is last with its key, no later group has it. */
  lemma LastWithKeyFirst(gs: seq<Group>)
    requires gs != [] && LastWithKey(gs, 0)
    ensures gs[0].key !in Keys(gs[1..])
  {
    forall j | 0 <= j < |gs[1..]| ensures Keys(gs[1..])[j] != gs[0].key {
      assert gs[1..][j] == gs[j + 1];
    }
  }

  /** `totals`: stage to count, a later group overwriting an earlier one
      with the same stage; an absent grouping gives the empty map. */
  function Totals(groups: Option<seq<Group>>): (m: map<string, nat>)
    ensures groups.None? ==> m == map[]
    ensures groups.Some? ==> forall k :: k in m <==> k in Keys(groups.value)
    ensures groups.Some? ==> forall i :: 0 <= i < |groups.value| && LastWithKey(groups.value, i) ==>
      groups.value[i].key in m && m[groups.value[i].key] == groups.value[i].count
  {
    match groups
    case None => map[]
    case Some(gs) => Fold(map[], gs)
  }

  /** `totals[key] || 0`. */
  function CountOf(m: map<string, nat>, key: string): (r: nat)
    ensures key !in m ==> r == 0
    ensures key in m ==> r == m[key]
  {
    if key in m then m[key] else 0
  }

  /** `stats`: the four cards, in the order total, completed, in progress,
      to do; a missing summary or key shows 0. */
  function Stats(summary: Option<DashboardSummary>): (r: seq<Card>)
    ensures |r| == 4
    ensures r[0].caption == "TOTAL TICKET" && r[1].caption == "COMPLETED TICKET"
      && r[2].caption == "TICKET IN PROGRESS" && r[3].caption == "TODOS"
    ensures summary.None? ==> forall i :: 0 <= i < 4 ==> r[i].total == 0
    ensures summary.Some? ==> r[0].total == summary.value.totalTickets
    ensures summary.Some? ==> var gs := summary.value.groupedByStage;
      && (forall i :: 0 <= i < |gs| && LastWithKey(gs, i) && gs[i].key == "completed" ==> r[1].total == gs[i].count)
      && (forall i :: 0 <= i < |gs| && LastWithKey(gs, i) && gs[i].key == "in progress" ==> r[2].total == gs[i].count)
      && (forall i :: 0 <= i < |gs| && LastWithKey(gs, i) && gs[i].key == "todo" ==> r[3].total == gs[i].count)
      && ("completed" !in Keys(gs) ==> r[1].total == 0)
      && ("in progress" !in Keys(gs) ==> r[2].total == 0)
      && ("todo" !in Keys(gs) ==> r[3].total == 0)
  {
    var totals := Totals(if summary.Some? then Some(summary.value.groupedByStage) else None);
    [ Card("TOTAL TICKET", if summary.Some? then summary.value.totalTickets else 0),
      Card("COMPLETED TICKET", CountOf(totals, "completed")),
      Card("TICKET IN PROGRESS", CountOf(totals, "in progress")),
      Card("TODOS", CountOf(totals, "todo")) ]
  }

  /** Over a grouping with one group per occurring key, the card for a key
      shows how many times that key occurs. */
  lemma CardCount(gs: seq<Group>, keys: seq<string>, k: string)
    requires forall i :: 0 <= i < |gs| ==> gs[i].count == multiset(keys)[gs[i].key]
    requires Covers(gs, keys) && Distinct(Keys(gs))
    ensures CountOf(Totals(Some(gs)), k) == multiset(keys)[k]
  {
    if k in Keys(gs) {
      var i :| 0 <= i < |gs| && Keys(gs)[i] == k;
      assert LastWithKey(gs, i) by {
        forall j | i < j < |gs| ensures gs[j].key != gs[i].key {
          assert Keys(gs)[j] != Keys(gs)[i];
        }
      }
    } else {
      assert k !in keys;
    }
  }

  /** Occurrences of three different keys add up to at most the length. */
  lemma {:induction false} ThreeCounts(s: seq<string>, a: string, b: string, c: string)
    requires a != b && b != c && a != c
    ensures multiset(s)[a] + multiset(s)[b] + multiset(s)[c] <= |s|
  {
    if s != [] {
      ThreeCounts(s[1..], a, b, c);
      assert s == [s[0]] + s[1..];
      assert multiset(s) == multiset{s[0]} + multiset(s[1..]);
    }
  }

  /** The cards of a store's dashboard: the total is the number of tickets
      not in the trash, each stage card counts the untrashed tickets whose
      stage is exactly that key, and the three stage cards never add up to
      more than the total. */
  lemma DashboardCards(db: Db)
    requires Valid(db)
    ensures var active := ActiveTickets(db.tickets);
      var cards := Stats(Some(DashboardStatistics(db).body.summary));
      && cards[0].total == |active|
      && cards[1].total == multiset(Stages(active))["completed"]
      && cards[2].total == multiset(Stages(active))["in progress"]
      && cards[3].total == multiset(Stages(active))["todo"]
      && cards[1].total + cards[2].total + cards[3].total <= cards[0].total
  {
    var active := ActiveTickets(db.tickets);
    var s := DashboardStatistics(db).body.summary;
    var gs := s.groupedByStage;
    CardCount(gs, Stages(active), "completed");
    CardCount(gs, Stages(active), "in progress");
    CardCount(gs, Stages(active), "todo");
    ThreeCounts(Stages(active), "completed", "in progress", "todo");
  }
}

=== FILE: grouping.dfy ===
/** The aggregations behind the dashboard: `GROUP BY` with `COUNT(*)`, and
    `ORDER BY id DESC LIMIT n`. */
module Grouping {
  import opened Common
  import opened Store

  /** One row of `SELECT key, COUNT(*) AS count ... GROUP BY key`. */
  datatype Group = Group(key: string, count: nat)

  /** The sum of the counts of a grouping. */
  function Total(gs: seq<Group>): nat
  {
    if gs == [] then 0 else gs[0].count + Total(gs[1..])
  }

  /** The keys of a grouping, in row order. */
  function Keys(gs: seq<Group>): (r: seq<string>)
    ensures |r| == |gs|
    ensures forall i :: 0 <= i < |gs| ==> r[i] == gs[i].key
  {
    seq(|gs|, i requires 0 <= i < |gs| => gs[i].key)
  }

  predicate Distinct(ks: seq<string>)
  {
    forall i, j :: 0 <= i < j < |ks| ==> ks[i] != ks[j]
  }

  /** `keys` with every occurrence of `k` removed. */
  function RemoveAll(keys: seq<string>, k: string): (r: seq<string>)
    ensures |r| + multiset(keys)[k] == |keys|
    ensures multiset(r) == multiset(keys)[k := 0]
    ensures forall x :: x in r <==> x in keys && x != k
  {
    if keys == [] then []
    else
      assert keys == [keys[0]] + keys[1..];
      var rest := RemoveAll(keys[1..], k);
      if keys[0] == k then rest else [keys[0]] + rest
  }

  /** Every group counts the occurrences of its key, and no group is empty. */
  predicate CountsMatch(gs: seq<Group>, keys: seq<string>)
  {
    forall i :: 0 <= i < |gs| ==> gs[i].count == multiset(keys)[gs[i].key] && gs[i].count > 0
  }

  /** The grouping has a group for exactly the keys that occur. */
  ghost predicate Covers(gs: seq<Group>, keys: seq<string>)
  {
    forall k :: k in Keys(gs) <==> k in keys
  }

  /** The groups of `keys` with their counts, one group per distinct key;
      groups are listed in the order of each key's first occurrence (SQL
      leaves that order unspecified, and no property below depends on it). */
  function GroupCounts(keys: seq<string>): (gs: seq<Group>)
    ensures Total(gs) == |keys|
    ensures CountsMatch(gs, keys)
    ensures Covers(gs, keys)
    ensures Distinct(Keys(gs))
    decreases |keys|
  {
    if keys == [] then []
    else
      var rest := RemoveAll(keys, keys[0]);
      var tail := GroupCounts(rest);
      GroupStep(keys, rest, tail);
      [Group(keys[0], multiset(keys)[keys[0]])] + tail
  }

  /** Putting the group of the first key in front of the grouping of the
      remaining keys groups all of them. */
  lemma GroupStep(keys: seq<string>, rest: seq<string>, tail: seq<Group>)
    requires keys != []
    requires rest == RemoveAll(keys, keys[0])
    requires Total(tail) == |rest| && CountsMatch(tail, rest) && Covers(tail, rest) && Distinct(Keys(tail))
    ensures var gs := [Group(keys[0], multiset(keys)[keys[0]])] + tail;
      Total(gs) == |keys| && CountsMatch(gs, keys) && Covers(gs, keys) && Distinct(Keys(gs))
  {
    var k := keys[0];
    var g := Group(k, multiset(keys)[k]);
    assert k in multiset(keys);
    assert forall x :: x in rest <==> x in keys && x != k;
    assert forall x :: x != k ==> multiset(rest)[x] == multiset(keys)[x];
    StepKeys(k, keys, rest, tail);
    StepCounts(g, keys, rest, tail);
    StepDistinct(g, tail);
    assert ([g] + tail)[1..] == tail;
  }

  lemma StepKeys(k: string, keys: seq<string>, rest: seq<string>, tail: seq<Group>)
    requires k in keys
    requires forall x :: x in rest <==> x in keys && x != k
    requires Covers(tail, rest)
    ensures Covers([Group(k, multiset(keys)[k])] + tail, keys)
    ensures forall i :: 0 <= i < |tail| ==> tail[i].key != k
  {
    var gs := [Group(k, multiset(keys)[k])] + tail;
    assert Keys(gs) == [k] + Keys(tail);
    forall i | 0 <= i < |tail| ensures tail[i].key != k {
      assert tail[i].key in Keys(tail);
    }
  }

  lemma StepCounts(g: Group, keys: seq<string>, rest: seq<string>, tail: seq<Group>)
    requires g.count == multiset(keys)[g.key] > 0
    requires forall x :: x != g.key ==> multiset(rest)[x] == multiset(keys)[x]
    requires forall i :: 0 <= i < |tail| ==> tail[i].key != g.key
    requires CountsMatch(tail, rest)
    ensures CountsMatch([g] + tail, keys)
  {
    var gs := [g] + tail;
    forall i | 1 <= i < |gs| ensures gs[i].count == multiset(keys)[gs[i].key] && gs[i].count > 0 {
      assert gs[i] == tail[i - 1];
    }
  }

  lemma StepDistinct(g: Group, tail: seq<Group>)
    requires forall i :: 0 <= i < |tail| ==> tail[i].key != g.key
    requires Distinct(Keys(tail))
    ensures Distinct(Keys([g] + tail))
  {
    var gs := [g] + tail;
    forall i, j | 0 <= i < j < |gs| ensures Keys(gs)[i] != Keys(gs)[j] {
      assert Keys(gs)[j] == tail[j - 1].key;
      if i > 0 {
        assert Keys(gs)[i] == Keys(tail)[i - 1] && Keys(gs)[j] == Keys(tail)[j - 1];
      }
    }
  }

  /** The `n` tickets with the largest ids, largest first, of an id-ordered
      table: `ORDER BY id DESC LIMIT n`. */
  function Newest(ts: seq<Ticket>, n: nat): (r: seq<Ticket>)
    requires SortedIds(ts)
    ensures |r| == Min(n, |ts|)
    ensures forall i :: 0 <= i < |r| ==> r[i] in ts
    ensures forall i, j :: 0 <= i < j < |r| ==> r[i].id > r[j].id
    ensures forall j :: |ts| - |r| <= j < |ts| ==> ts[j] in r
    ensures forall j, i :: 0 <= j < |ts| - |r| && 0 <= i < |r| ==> ts[j].id < r[i].id
  {
    var m := Min(n, |ts|);
    var r := Reverse(ts[|ts| - m..]);
    NewestIndexes(ts, m, r);
    NewestOrder(ts, m, r);
    r
  }

  /** The reversed suffix holds the suffix's tickets, last first. */
  lemma NewestIndexes(ts: seq<Ticket>, m: nat, r: seq<Ticket>)
    requires m <= |ts| && r == Reverse(ts[|ts| - m..])
    ensures |r| == m
    ensures forall i :: 0 <= i < m ==> r[i] == ts[|ts| - 1 - i]
    ensures forall i :: 0 <= i < m ==> r[i] in ts
    ensures forall j :: |ts| - m <= j < |ts| ==> ts[j] in r
  {
    forall i | 0 <= i < m ensures r[i] == ts[|ts| - 1 - i] {
      assert ts[|ts| - m..][m - 1 - i] == ts[|ts| - 1 - i];
    }
    forall j | |ts| - m <= j < |ts| ensures ts[j] in r {
      assert r[|ts| - 1 - j] == ts[j];
    }
  }

  /** Reading an id-ordered table backwards gives ids in decreasing order,
      all above the ids of the rows left out. */
  lemma NewestOrder(ts: seq<Ticket>, m: nat, r: seq<Ticket>)
    requires SortedIds(ts) && m <= |ts| && |r| == m
    requires forall i :: 0 <= i < m ==> r[i] == ts[|ts| - 1 - i]
    ensures forall i, j :: 0 <= i < j < |r| ==> r[i].id > r[j].id
    ensures forall j, i :: 0 <= j < |ts| - |r| && 0 <= i < |r| ==> ts[j].id < r[i].id
  {
    forall i, j | 0 <= i < j < |r| ensures r[i].id > r[j].id {
      assert r[i] == ts[|ts| - 1 - i] && r[j] == ts[|ts| - 1 - j];
    }
    forall j, i | 0 <= j < |ts| - |r| && 0 <= i < |r| ensures ts[j].id < r[i].id {
      assert r[i] == ts[|ts| - 1 - i];
    }
  }
}

=== FILE: store.dfy ===
/** The relational store behind the backend, as immutable values.

    Tables: `tickets` (kept in primary-key order, which is the order a
    `SELECT` without `ORDER BY` yields on an auto-increment key),
    `ticket_team` (ticket/user pairs in insertion order), `sub_tickets`,
    `activities` and `users`. The list columns are JSON-typed: the driver
    parses them on the way out, so a column is represented by the value a
    query hands back, not by its text. */
module Store {
  import opened Common

  type TicketId = nat
  type UserId = nat

  // ---------------------------------------------------------------------------
  // JSON columns
  // ---------------------------------------------------------------------------

  /** The JavaScript values a request body carries in a list-valued field. */
  datatype JsValue = Undefined | Null | Str(s: string) | Arr(items: seq<JsValue>)

  /** JavaScript truthiness, as used by `x || []`. */
  predicate Truthy(v: JsValue)
  {
    match v
    case Undefined => false
    case Null => false
    case Str(s) => s != ""
    case Arr(_) => true
  }

  /** A value that is exactly what some JSON text parses to (no `undefined`). */
  predicate Canonical(v: JsValue)
  {
    match v
    case Undefined => false
    case Arr(items) => forall i :: 0 <= i < |items| ==> Canonical(items[i])
    case _ => true
  }

  /** `JSON.parse(JSON.stringify(v))` for a value that is not `undefined` at the
      top: `undefined` array elements are written as `null`. */
  function Canon(v: JsValue): (r: JsValue)
    ensures Canonical(r)
    ensures Canonical(v) ==> r == v
    ensures v.Arr? <==> r.Arr?
    ensures v.Arr? ==> |r.items| == |v.items|
    decreases v
  {
    match v
    case Undefined => Null
    case Arr(items) =>
      var r := Arr(seq(|items|, i requires 0 <= i < |items| => Canon(items[i])));
      assert Canonical(v) ==> r.items == items;
      r
    case _ => v
  }

  /** `JSON.stringify(v)`, represented by the value its text parses back to;
      `None` when `stringify` returns `undefined`. Two values stringify to the
      same text exactly when their `Serialize` images are equal. */
  function Serialize(v: JsValue): (r: Option<JsValue>)
    ensures r.None? <==> v == Undefined
    ensures r.Some? ==> Canonical(r.value)
  {
    if v == Undefined then None else Some(Canon(v))
  }

  /** A nullable JSON column, as the value the driver hands back for it:
      `NULL`, or the parsed JSON value. */
  datatype Column = SqlNull | JsonText(value: JsValue)

  /** The value a query hands back for a JSON column (`NULL` reads as `null`). */
  function ColumnValue(c: Column): JsValue
  {
    match c
    case SqlNull => Null
    case JsonText(v) => v
  }

  /** Writes `JSON.stringify(v)` into a column; `v` must not be `undefined`. */
  function StoreJson(v: JsValue): (c: Column)
    requires v != Undefined
    ensures c.JsonText? && Canonical(c.value)
    ensures Serialize(ColumnValue(c)) == Serialize(v)
  {
    JsonText(Canon(v))
  }

  // ---------------------------------------------------------------------------
  // Rows
  // ---------------------------------------------------------------------------

  datatype Ticket = Ticket(
    id: TicketId,
    title: string,
    priority: string,
    stage: string,
    assets: Column,
    team: Column,             // the legacy embedded team column, copied opaquely
    description: Option<string>,
    isTrashed: bool,
    updatedBy: Option<string>)

  /** A `ticket_team` row. */
  datatype TeamRow = TeamRow(ticketId: TicketId, userId: UserId)

  datatype SubTicket = SubTicket(ticketId: TicketId, title: string, tag: string)

  datatype Activity = Activity(ticketId: TicketId, kind: string, text: string, byUserId: UserId)

  /** A `users` row; `password` holds the stored hash. */
  datatype User = User(
    id: UserId,
    name: string,
    title: string,
    role: string,
    email: string,
    password: string,
    isAdmin: bool,
    isActive: bool)

  /** The user columns a team join selects (never the password). */
  datatype UserSummary = UserSummary(id: UserId, name: string, title: string, role: string, email: string)

  function Summary(u: User): UserSummary
  {
    UserSummary(u.id, u.name, u.title, u.role, u.email)
  }

  datatype Db = Db(
    tickets: seq<Ticket>,
    team: seq<TeamRow>,
    subTickets: seq<SubTicket>,
    activities: seq<Activity>,
    users: seq<User>,
    nextTicketId: TicketId,   // the tickets table's auto-increment counter
    nextUserId: UserId)       // the users table's auto-increment counter

  // ---------------------------------------------------------------------------
  // Invariant
  // ---------------------------------------------------------------------------

  predicate SortedIds(ts: seq<Ticket>)
  {
    forall i, j :: 0 <= i < j < |ts| ==> ts[i].id < ts[j].id
  }

  predicate SortedUserIds(us: seq<User>)
  {
    forall i, j :: 0 <= i < j < |us| ==> us[i].id < us[j].id
  }

  /** Primary keys are unique and ordered, every key is below its table's
      auto-increment counter, and team rows only name tickets that were
      ever allocated. */
  predicate Valid(db: Db)
  {
    && 1 <= db.nextTicketId
    && 1 <= db.nextUserId
    && SortedIds(db.tickets)
    && (forall i :: 0 <= i < |db.tickets| ==> 1 <= db.tickets[i].id < db.nextTicketId)
    && (forall i :: 0 <= i < |db.team| ==> db.team[i].ticketId < db.nextTicketId)
    && SortedUserIds(db.users)
    && (forall i :: 0 <= i < |db.users| ==> 1 <= db.users[i].id < db.nextUserId)
  }

  /** The empty database, with both counters at their first value. */
  function Empty(): (db: Db)
    ensures Valid(db)
    ensures db.tickets == [] && db.users == []
  {
    Db([], [], [], [], [], 1, 1)
  }

  // ---------------------------------------------------------------------------
  // Queries
  // ---------------------------------------------------------------------------

  /** `SELECT * FROM tickets WHERE id = ?`, first row. */
  function FindTicket(ts: seq<Ticket>, id: TicketId): (r: Option<Ticket>)
    ensures r.Some? ==> r.value in ts && r.value.id == id
    ensures r.None? <==> forall i :: 0 <= i < |ts| ==> ts[i].id != id
  {
    if ts == [] then None
    else if ts[0].id == id then Some(ts[0])
    else FindTicket(ts[1..], id)
  }

  /** With unique ids, the ticket found is the one at that id's position. */
  lemma FindTicketAt(ts: seq<Ticket>, i: int)
    requires SortedIds(ts)
    requires 0 <= i < |ts|
    ensures FindTicket(ts, ts[i].id) == Some(ts[i])
  {
    if i > 0 {
      assert ts[0].id < ts[i].id;
      assert SortedIds(ts[1..]) by {
        forall a, b | 0 <= a < b < |ts[1..]| ensures ts[1..][a].id < ts[1..][b].id {
          assert ts[1..][a] == ts[a + 1] && ts[1..][b] == ts[b + 1];
        }
      }
      FindTicketAt(ts[1..], i - 1);
    }
  }

  predicate IsActive(t: Ticket)
  {
    !t.isTrashed
  }

  /** `SELECT * FROM tickets WHERE isTrashed = FALSE`. */
  function ActiveTickets(ts: seq<Ticket>): seq<Ticket>
  {
    Filter(ts, IsActive)
  }

  /** `SELECT * FROM users WHERE id = ?`, first row: the same first-match
      lookup as `FindTicket`, on the users table. */
  function FindUser(us: seq<User>, id: UserId): (r: Option<User>)
    ensures r.Some? ==> r.value in us && r.value.id == id
    ensures r.None? <==> forall i :: 0 <= i < |us| ==> us[i].id != id
  {
    if us == [] then None
    else if us[0].id == id then Some(us[0])
    else FindUser(us[1..], id)
  }

  /** `SELECT * FROM users WHERE email = ?`, first row: the same first-match
      lookup as `FindTicket`, keyed by email. */
  function FindUserByEmail(us: seq<User>, email: string): (r: Option<User>)
    ensures r.Some? ==> r.value in us && r.value.email == email
    ensures r.None? <==> forall i :: 0 <= i < |us| ==> us[i].email != email
  {
    if us == [] then None
    else if us[0].email == email then Some(us[0])
    else FindUserByEmail(us[1..], email)
  }

  /** The user ids of the `ticket_team` rows of one ticket, in row order. */
  function RowsFor(team: seq<TeamRow>, ticketId: TicketId): (r: seq<UserId>)
    ensures |r| <= |team|
    ensures forall u :: u in r <==> TeamRow(ticketId, u) in team
    ensures (forall i :: 0 <= i < |team| ==> team[i].ticketId != ticketId) ==> r == []
  {
    if team == [] then []
    else (if team[0].ticketId == ticketId then [team[0].userId] else []) + RowsFor(team[1..], ticketId)
  }

  lemma {:induction false} RowsForAppend(a: seq<TeamRow>, b: seq<TeamRow>, ticketId: TicketId)
    ensures RowsFor(a + b, ticketId) == RowsFor(a, ticketId) + RowsFor(b, ticketId)
  {
    if a == [] {
      assert a + b == b;
    } else {
      var h := if a[0].ticketId == ticketId then [a[0].userId] else [];
      calc {
        RowsFor(a + b, ticketId);
        { assert (a + b)[0] == a[0]; }
        h + RowsFor((a + b)[1..], ticketId);
        { assert (a + b)[1..] == a[1..] + b; }
        h + RowsFor(a[1..] + b, ticketId);
        { RowsForAppend(a[1..], b, ticketId); }
        h + (RowsFor(a[1..], ticketId) + RowsFor(b, ticketId));
        RowsFor(a, ticketId) + RowsFor(b, ticketId);
      }
    }
  }

  /** The inner join `ticket_team JOIN users`: each listed id that names a
      user becomes that user's summary; ids without a user row are dropped. */
  function ResolveUsers(ids: seq<UserId>, us: seq<User>): (r: seq<UserSummary>)
    ensures |r| <= |ids|
    ensures forall i :: 0 <= i < |r| ==> r[i].id in ids && FindUser(us, r[i].id).Some?
    ensures forall i :: 0 <= i < |ids| && FindUser(us, ids[i]).Some? ==> Summary(FindUser(us, ids[i]).value) in r
  {
    if ids == [] then []
    else
      (match FindUser(us, ids[0])
       case Some(u) => [Summary(u)]
       case None => [])
      + ResolveUsers(ids[1..], us)
  }

  /** The resolved team of a ticket: its `ticket_team` rows joined with `users`. */
  function TeamOf(db: Db, ticketId: TicketId): seq<UserSummary>
  {
    ResolveUsers(RowsFor(db.team, ticketId), db.users)
  }

  /** A ticket id at or above the counter has no team rows, so its team is empty. */
  lemma FreshTicketHasNoTeam(db: Db, id: TicketId)
    requires Valid(db)
    requires id >= db.nextTicketId
    ensures RowsFor(db.team, id) == []
    ensures TeamOf(db, id) == []
  {
  }

  // ---------------------------------------------------------------------------
  // Statements
  // ---------------------------------------------------------------------------

  /** A `WHERE` clause on the tickets table. */
  datatype Where = IdIs(id: TicketId) | IsTrashed

  predicate Selects(w: Where, t: Ticket)
  {
    match w
    case IdIs(id) => t.id == id
    case IsTrashed => t.isTrashed
  }

  /** `UPDATE tickets SET isTrashed = flag WHERE w`. */
  function SetTrashed(ts: seq<Ticket>, w: Where, flag: bool): (r: seq<Ticket>)
    ensures |r| == |ts|
    ensures forall i :: 0 <= i < |ts| ==> r[i].id == ts[i].id
    ensures forall i :: 0 <= i < |ts| && Selects(w, ts[i]) ==> r[i] == ts[i].(isTrashed := flag)
    ensures forall i :: 0 <= i < |ts| && !Selects(w, ts[i]) ==> r[i] == ts[i]
  {
    seq(|ts|, i requires 0 <= i < |ts| => if Selects(w, ts[i]) then ts[i].(isTrashed := flag) else ts[i])
  }

  /** `DELETE FROM tickets WHERE w`. */
  function DeleteWhere(ts: seq<Ticket>, w: Where): (r: seq<Ticket>)
    ensures forall t :: t in r <==> t in ts && !Selects(w, t)
    ensures IsSubsequence(r, ts)
  {
    FilterIsSubsequence(ts, t => !Selects(w, t));
    Filter(ts, t => !Selects(w, t))
  }

  /** The invariant says nothing about activities or sub-tickets. */
  lemma ValidIgnoresLogs(db: Db, activities: seq<Activity>, subTickets: seq<SubTicket>)
    requires Valid(db)
    ensures Valid(db.(activities := activities, subTickets := subTickets))
  {
  }

  /** Deleting tickets keeps the store well-formed. */
  lemma DeleteKeepsValid(db: Db, w: Where)
    requires Valid(db)
    ensures Valid(db.(tickets := DeleteWhere(db.tickets, w)))
  {
    var ts := DeleteWhere(db.tickets, w);
    SubsequenceKeepsSorted(ts, db.tickets);
    forall i | 0 <= i < |ts| ensures 1 <= ts[i].id < db.nextTicketId {
      var j :| 0 <= j < |db.tickets| && db.tickets[j] == ts[i];
    }
  }

  /** Removing rows from an id-ordered table keeps it id-ordered. */
  lemma {:induction false} SubsequenceKeepsSorted(a: seq<Ticket>, b: seq<Ticket>)
    requires SortedIds(b)
    requires IsSubsequence(a, b)
    ensures SortedIds(a)
    ensures forall i :: 0 <= i < |a| ==> a[i] in b
    decreases |b|
  {
    if a != [] {
      assert SortedIds(b[1..]) by {
        forall x, y | 0 <= x < y < |b[1..]| ensures b[1..][x].id < b[1..][y].id {
          assert b[1..][x] == b[x + 1] && b[1..][y] == b[y + 1];
        }
      }
      if a[0] == b[0] {
        SubsequenceKeepsSorted(a[1..], b[1..]);
        forall j | 0 < j < |a| ensures a[0].id < a[j].id {
          assert a[j] == a[1..][j - 1];
          var k :| 0 <= k < |b[1..]| && b[1..][k] == a[j];
          assert b[k + 1] == a[j];
        }
        forall i, j | 0 <= i < j < |a| ensures a[i].id < a[j].id {
          if i > 0 {
            assert a[i] == a[1..][i - 1] && a[j] == a[1..][j - 1];
          }
        }
      } else {
        SubsequenceKeepsSorted(a, b[1..]);
      }
    }
  }

  /** The non-trashed tickets of an id-ordered table are id-ordered. */
  lemma ActiveSorted(ts: seq<Ticket>)
    requires SortedIds(ts)
    ensures SortedIds(ActiveTickets(ts))
  {
    FilterIsSubsequence(ts, IsActive);
    SubsequenceKeepsSorted(ActiveTickets(ts), ts);
  }

  /** Appending a row whose id exceeds every existing id keeps the order. */
  lemma AppendKeepsSorted(ts: seq<Ticket>, t: Ticket)
    requires SortedIds(ts)
    requires forall i :: 0 <= i < |ts| ==> ts[i].id < t.id
    ensures SortedIds(ts + [t])
  {
  }

  /** `INSERT INTO sub_tickets (ticket_id, title, tag)`: a pure append, with
      no check that the ticket exists. */
  function AppendSubTicket(db: Db, ticketId: TicketId, title: string, tag: string): (db': Db)
    ensures db'.subTickets == db.subTickets + [SubTicket(ticketId, title, tag)]
    ensures db' == db.(subTickets := db'.subTickets)
    ensures Valid(db) ==> Valid(db')
  {
    db.(subTickets := db.subTickets + [SubTicket(ticketId, title, tag)])
  }
}

=== FILE: ticket_controller.dfy ===
/** The ticket handlers of the backend as pure transitions
    `(store, request) -> (status, body, store')`.

    A handler that opens a transaction and fails part-way rolls back, which
    is modelled by returning the store it was given. Database faults that no
    input determines (a rejected bulk insert) are a boolean parameter. */
module TicketController {
  import opened Common
  import opened Store
  import opened ChangeLog
  import opened Grouping

  const OK: nat := 200
  const NOT_FOUND: nat := 404
  const SERVER_ERROR: nat := 500

  /** The dashboard history holds this many tickets at most. */
  const HISTORY_SIZE: nat := 10

  // ---------------------------------------------------------------------------
  // Requests and responses
  // ---------------------------------------------------------------------------

  /** `Number(x)` of a team member value: a non-negative integer or `NaN`. */
  datatype Num = Finite(n: nat) | NaN

  /** One element of a request's `team` array: a bare value, an object whose
      `id` property has the given numeric value, or `null`. */
  datatype TeamEntry = Plain(v: Num) | Member(id: Num) | NullMember

  /** A request's `team` field: an array, a string, or anything else (absent,
      `null`, a number, a non-array object — none of which has a positive
      `length`). */
  datatype TeamArg = NoTeam | TeamList(entries: seq<TeamEntry>) | TeamText(s: string)

  /** A ticket row with its team resolved through `ticket_team JOIN users`. */
  datatype TicketView = TicketView(ticket: Ticket, team: seq<UserSummary>)

  datatype DashboardSummary = DashboardSummary(
    totalTickets: nat,
    groupedByStage: seq<Group>,
    groupedByPriority: seq<Group>,
    history: seq<TicketView>)

  datatype Body =
    | Done
    | Created(ticketId: TicketId)
    | TicketList(tickets: seq<TicketView>)
    | OneTicket(view: TicketView)
    | Dashboard(summary: DashboardSummary)
    | Failed

  datatype Outcome = Outcome(status: nat, body: Body, db: Db)

  // ---------------------------------------------------------------------------
  // Team rows
  // ---------------------------------------------------------------------------

  /** One `ticket_team` row per user id, in order. */
  function TeamRows(id: TicketId, users: seq<UserId>): (r: seq<TeamRow>)
    ensures |r| == |users|
    ensures forall i :: 0 <= i < |users| ==> r[i] == TeamRow(id, users[i])
  {
    seq(|users|, i requires 0 <= i < |users| => TeamRow(id, users[i]))
  }

  /** Reading back the rows inserted for a ticket gives the ids in insertion
      order, duplicates included. */
  lemma {:induction false} RowsForTeamRows(id: TicketId, users: seq<UserId>)
    ensures RowsFor(TeamRows(id, users), id) == users
  {
    if users != [] {
      var r := TeamRows(id, users);
      assert r[1..] == TeamRows(id, users[1..]);
      RowsForTeamRows(id, users[1..]);
    }
  }

  /** Rows inserted for one ticket are invisible to every other ticket. */
  lemma RowsForOtherTeamRows(id: TicketId, other: TicketId, users: seq<UserId>)
    requires other != id
    ensures RowsFor(TeamRows(id, users), other) == []
  {
  }

  /** The rows a `DELETE ... WHERE ticket_id = id` keeps. */
  function OtherTicket(id: TicketId): TeamRow -> bool
  {
    (row: TeamRow) => row.ticketId != id
  }

  /** `DELETE FROM ticket_team WHERE ticket_id = ?`. */
  function RemoveTeamRows(team: seq<TeamRow>, id: TicketId): (r: seq<TeamRow>)
    ensures forall row :: row in r <==> row in team && row.ticketId != id
    ensures RowsFor(r, id) == []
  {
    Filter(team, OtherTicket(id))
  }

  /** Deleting one ticket's rows leaves every other ticket's rows as they were. */
  lemma {:induction false} RowsForRemoveTeamRows(team: seq<TeamRow>, id: TicketId, other: TicketId)
    requires other != id
    ensures RowsFor(RemoveTeamRows(team, id), other) == RowsFor(team, other)
  {
    if team != [] {
      RowsForRemoveTeamRows(team[1..], id, other);
      var p := OtherTicket(id);
      assert RemoveTeamRows(team, id) == (if p(team[0]) then [team[0]] else []) + RemoveTeamRows(team[1..], id);
      RowsForAppend(if p(team[0]) then [team[0]] else [], RemoveTeamRows(team[1..], id), other);
    }
  }

  // ---------------------------------------------------------------------------
  // createTicket
  // ---------------------------------------------------------------------------

  datatype CreateRequest = CreateRequest(
    title: Option<string>,
    priority: Option<string>,
    stage: Option<string>,
    assets: JsValue,
    team: TeamArg)

  /** `Array.isArray(v) ? v : [v]`. */
  function AsList(v: JsValue): (r: JsValue)
    ensures r.Arr?
    ensures v.Arr? ==> r == v
    ensures !v.Arr? ==> r.items == [v]
  {
    if v.Arr? then v else Arr([v])
  }

  /** The user ids of a bulk team insert, or `None` when some element is not
      a plain number. Such a row is taken to be rejected, which assumes
      `ticket_team.user_id` is NOT NULL. */
  function PlainIds(es: seq<TeamEntry>): (r: Option<seq<UserId>>)
    ensures r.Some? <==> forall i :: 0 <= i < |es| ==> es[i].Plain? && es[i].v.Finite?
    ensures r.Some? ==> |r.value| == |es| && forall i :: 0 <= i < |es| ==> r.value[i] == es[i].v.n
  {
    if es == [] then Some([])
    else if !(es[0].Plain? && es[0].v.Finite?) then None
    else match PlainIds(es[1..])
      case None => None
      case Some(rest) => Some([es[0].v.n] + rest)
  }

  /** `team && team.length > 0`: whether createTicket inserts team rows. */
  predicate HasTeamToInsert(team: TeamArg)
  {
    (team.TeamList? && team.entries != []) || (team.TeamText? && team.s != "")
  }

  /** The create transaction fails: a missing column value makes the ticket
      insert throw, a string `team` has no `map`, or the team insert is
      rejected. */
  predicate CreateFails(req: CreateRequest, insertFails: bool)
  {
    || req.title.None? || req.priority.None? || req.stage.None?
    || (HasTeamToInsert(req.team)
        && (req.team.TeamText? || insertFails || PlainIds(req.team.entries).None?))
  }

  /** The user ids a successful create inserts for its team. */
  function CreatedTeam(team: TeamArg): seq<UserId>
  {
    if team.TeamList? && PlainIds(team.entries).Some? then PlainIds(team.entries).value else []
  }

  /** The row a successful create inserts; `team`, `description` and
      `updated_by` keep their column defaults. */
  function NewTicket(id: TicketId, req: CreateRequest): (t: Ticket)
    requires req.title.Some? && req.priority.Some? && req.stage.Some?
    ensures t.id == id && !t.isTrashed
    ensures t.title == req.title.value && t.priority == req.priority.value && t.stage == req.stage.value
    ensures t.assets.JsonText? && t.assets.value.Arr?
    ensures req.assets.Arr? ==> Serialize(ColumnValue(t.assets)) == Serialize(req.assets)
    ensures !req.assets.Arr? ==> Serialize(ColumnValue(t.assets)) == Serialize(Arr([req.assets]))
  {
    Ticket(id, req.title.value, req.priority.value, req.stage.value,
           StoreJson(AsList(req.assets)), SqlNull, None, false, None)
  }

  /** `createTicket`: insert the ticket, then one team row per element of a
      non-empty team, all in one transaction. */
  function CreateTicket(db: Db, req: CreateRequest, insertFails: bool): (out: Outcome)
    ensures out.status == OK <==> !CreateFails(req, insertFails)
    ensures out.status != OK ==> out.status == SERVER_ERROR && out.db == db
    ensures out.status == OK ==>
      && out.body == Created(db.nextTicketId)
      && out.db.tickets == db.tickets + [NewTicket(db.nextTicketId, req)]
      && out.db.team == db.team + TeamRows(db.nextTicketId, CreatedTeam(req.team))
      && out.db.nextTicketId == db.nextTicketId + 1
      && out.db == db.(tickets := out.db.tickets, team := out.db.team, nextTicketId := out.db.nextTicketId)
    ensures out.status == OK && req.team.TeamList? ==>
      |out.db.team| == |db.team| + |req.team.entries|
    ensures Valid(db) ==> Valid(out.db)
  {
    if CreateFails(req, insertFails) then Outcome(SERVER_ERROR, Failed, db)
    else
      var id := db.nextTicketId;
      var t := NewTicket(id, req);
      var rows := TeamRows(id, CreatedTeam(req.team));
      var db' := db.(tickets := db.tickets + [t], team := db.team + rows, nextTicketId := id + 1);
      assert Valid(db) ==> Valid(db') by {
        if Valid(db) {
          AppendKeepsSorted(db.tickets, t);
        }
      }
      Outcome(OK, Created(id), db')
  }

  // ---------------------------------------------------------------------------
  // createSubTicket
  // ---------------------------------------------------------------------------

  /** `createSubTicket`: an unchecked insert; a missing title or tag makes it throw. */
  function CreateSubTicket(db: Db, id: TicketId, title: Option<string>, tag: Option<string>): (out: Outcome)
    ensures out.status == OK <==> title.Some? && tag.Some?
    ensures out.status != OK ==> out.status == SERVER_ERROR && out.db == db
    ensures out.status == OK ==>
      out.db.subTickets == db.subTickets + [SubTicket(id, title.value, tag.value)]
      && out.db == db.(subTickets := out.db.subTickets)
    ensures Valid(db) ==> Valid(out.db)
  {
    if title.None? || tag.None? then Outcome(SERVER_ERROR, Failed, db)
    else Outcome(OK, Done, AppendSubTicket(db, id, title.value, tag.value))
  }

  // ---------------------------------------------------------------------------
  // duplicateTicket
  // ---------------------------------------------------------------------------

  /** The copy duplicateTicket inserts: the title marked as a duplicate, the
      other listed columns copied, everything else at its default. */
  function DuplicateOf(t: Ticket, id: TicketId): (c: Ticket)
    ensures c.id == id && c.title == t.title + " - Duplicate"
    ensures c.priority == t.priority && c.stage == t.stage && c.assets == t.assets && c.team == t.team
    ensures c.description.None? && !c.isTrashed && c.updatedBy.None?
  {
    Ticket(id, t.title + " - Duplicate", t.priority, t.stage, t.assets, t.team, None, false, None)
  }

  /** `duplicateTicket`. */
  function DuplicateTicket(db: Db, id: TicketId): (out: Outcome)
    ensures out.status == NOT_FOUND <==> FindTicket(db.tickets, id).None?
    ensures out.status == NOT_FOUND ==> out.db == db
    ensures out.status != NOT_FOUND ==>
      && out.status == OK
      && out.db.tickets == db.tickets + [DuplicateOf(FindTicket(db.tickets, id).value, db.nextTicketId)]
      && out.db == db.(tickets := out.db.tickets, nextTicketId := db.nextTicketId + 1)
    ensures Valid(db) ==> Valid(out.db)
  {
    match FindTicket(db.tickets, id)
    case None => Outcome(NOT_FOUND, Failed, db)
    case Some(t) =>
      var c := DuplicateOf(t, db.nextTicketId);
      var db' := db.(tickets := db.tickets + [c], nextTicketId := db.nextTicketId + 1);
      assert Valid(db) ==> Valid(db') by {
        if Valid(db) {
          AppendKeepsSorted(db.tickets, c);
        }
      }
      Outcome(OK, Done, db')
  }

  // ---------------------------------------------------------------------------
  // getAllTickets / getTicket
  // ---------------------------------------------------------------------------

  function View(db: Db, t: Ticket): (v: TicketView)
    ensures v.ticket == t && v.team == TeamOf(db, t.id)
  {
    TicketView(t, TeamOf(db, t.id))
  }

  function Views(db: Db, ts: seq<Ticket>): (r: seq<TicketView>)
    ensures |r| == |ts|
    ensures forall i :: 0 <= i < |ts| ==> r[i] == View(db, ts[i])
  {
    seq(|ts|, i requires 0 <= i < |ts| => View(db, ts[i]))
  }

  /** `getAllTickets`: every ticket not in the trash, each with its team. */
  function GetAllTickets(db: Db): (out: Outcome)
    ensures out.status == OK && out.db == db && out.body.TicketList?
    ensures forall i :: 0 <= i < |out.body.tickets| ==>
      var v := out.body.tickets[i]; v.ticket in db.tickets && !v.ticket.isTrashed && v.team == TeamOf(db, v.ticket.id)
    ensures forall i :: 0 <= i < |db.tickets| && !db.tickets[i].isTrashed ==>
      View(db, db.tickets[i]) in out.body.tickets
    ensures Valid(db) ==> forall i, j :: 0 <= i < j < |out.body.tickets| ==>
      out.body.tickets[i].ticket.id < out.body.tickets[j].ticket.id
  {
    var active := ActiveTickets(db.tickets);
    var vs := Views(db, active);
    assert forall i :: 0 <= i < |db.tickets| && !db.tickets[i].isTrashed ==> db.tickets[i] in active;
    assert Valid(db) ==> SortedIds(active) by {
      if Valid(db) {
        FilterIsSubsequence(db.tickets, IsActive);
        SubsequenceKeepsSorted(active, db.tickets);
      }
    }
    Outcome(OK, TicketList(vs), db)
  }

  /** `getTicket`: the ticket whatever its trash flag, or 404. */
  function GetTicket(db: Db, id: TicketId): (out: Outcome)
    ensures out.db == db
    ensures out.status == NOT_FOUND <==> FindTicket(db.tickets, id).None?
    ensures out.status != NOT_FOUND ==>
      out.status == OK && out.body.OneTicket?
      && out.body.view.ticket in db.tickets && out.body.view.ticket.id == id
      && out.body.view.team == TeamOf(db, id)
  {
    match FindTicket(db.tickets, id)
    case None => Outcome(NOT_FOUND, Failed, db)
    case Some(t) => Outcome(OK, OneTicket(View(db, t)), db)
  }

  // ---------------------------------------------------------------------------
  // updateTicket
  // ---------------------------------------------------------------------------

  datatype UpdateRequest = UpdateRequest(
    title: Option<string>,
    priority: Option<string>,
    stage: Option<string>,
    assets: JsValue,
    team: TeamArg,
    updatedBy: Option<string>)

  /** `typeof m === "object" ? m.id : m`, as a number. */
  function MemberValue(e: TeamEntry): Num
    requires !e.NullMember?
  {
    match e
    case Plain(v) => v
    case Member(id) => id
  }

  /** `.filter(Number)` keeps a value whose number is neither 0 nor NaN. */
  predicate Kept(e: TeamEntry)
    requires !e.NullMember?
  {
    MemberValue(e).Finite? && MemberValue(e).n != 0
  }

  /** The surviving member ids, in order and with repetitions. */
  function KeptIds(es: seq<TeamEntry>): (r: seq<UserId>)
    requires forall i :: 0 <= i < |es| ==> !es[i].NullMember?
    ensures |r| <= |es|
    ensures forall u :: u in r ==> u != 0
  {
    if es == [] then []
    else (if Kept(es[0]) then [MemberValue(es[0]).n] else []) + KeptIds(es[1..])
  }

  /** Normalisation works element by element, so it distributes over
      concatenation: order is kept and nothing is deduplicated. */
  lemma {:induction false} KeptIdsAppend(a: seq<TeamEntry>, b: seq<TeamEntry>)
    requires forall i :: 0 <= i < |a| ==> !a[i].NullMember?
    requires forall i :: 0 <= i < |b| ==> !b[i].NullMember?
    ensures KeptIds(a + b) == KeptIds(a) + KeptIds(b)
  {
    if a == [] {
      assert a + b == b;
    } else {
      var ab := a + b;
      assert ab[0] == a[0];
      assert ab[1..] == a[1..] + b;
      assert forall i :: 0 <= i < |a[1..]| ==> !a[1..][i].NullMember?;
      KeptIdsAppend(a[1..], b);
      var head := if Kept(a[0]) then [MemberValue(a[0]).n] else [];
      assert KeptIds(a) == head + KeptIds(a[1..]);
      assert KeptIds(ab) == head + KeptIds(ab[1..]);
      assert head + (KeptIds(a[1..]) + KeptIds(b)) == (head + KeptIds(a[1..])) + KeptIds(b);
    }
  }

  /** A kept entry contributes its id; a dropped one contributes nothing. */
  lemma KeptIdsSingle(e: TeamEntry)
    requires !e.NullMember?
    ensures Kept(e) ==> KeptIds([e]) == [MemberValue(e).n]
    ensures !Kept(e) ==> KeptIds([e]) == []
  {
    assert [e][1..] == [];
  }

  /** `team.map(...).filter(Number)`; `None` when a `null` member makes the
      map throw. */
  function NormalizeTeam(es: seq<TeamEntry>): (r: Option<seq<UserId>>)
    ensures r.None? <==> exists i :: 0 <= i < |es| && es[i].NullMember?
    ensures r.Some? ==> r.value == KeptIds(es)
  {
    if exists i :: 0 <= i < |es| && es[i].NullMember? then None else Some(KeptIds(es))
  }

  /** `UPDATE tickets SET ... WHERE id = ?` with the new row `t`. */
  function SetRow(ts: seq<Ticket>, id: TicketId, t: Ticket): (r: seq<Ticket>)
    requires t.id == id
    ensures |r| == |ts|
    ensures forall i :: 0 <= i < |ts| ==> r[i].id == ts[i].id
    ensures forall i :: 0 <= i < |ts| && ts[i].id == id ==> r[i] == t
    ensures forall i :: 0 <= i < |ts| && ts[i].id != id ==> r[i] == ts[i]
  {
    seq(|ts|, i requires 0 <= i < |ts| => if ts[i].id == id then t else ts[i])
  }

  /** The stored assets of an update: `JSON.stringify(assets || [])`. */
  function UpdatedAssets(v: JsValue): (c: Column)
    ensures Truthy(v) ==> Serialize(ColumnValue(c)) == Serialize(v)
    ensures !Truthy(v) ==> ColumnValue(c) == Arr([])
  {
    StoreJson(if Truthy(v) then v else Arr([]))
  }

  /** The row an update writes over `prev`. */
  function Updated(prev: Ticket, req: UpdateRequest): (t: Ticket)
    requires req.title.Some? && req.priority.Some? && req.stage.Some? && req.updatedBy.Some?
    ensures t.id == prev.id && t.isTrashed == prev.isTrashed && t.team == prev.team
    ensures t.title == req.title.value && t.priority == req.priority.value && t.stage == req.stage.value
    ensures t.updatedBy == req.updatedBy
    ensures t.assets == UpdatedAssets(req.assets)
    ensures t.description == Description(prev.description,
      Changes(prev, req.title.value, req.stage.value, req.priority.value, req.assets))
  {
    var cs := Changes(prev, req.title.value, req.stage.value, req.priority.value, req.assets);
    prev.(title := req.title.value, priority := req.priority.value, stage := req.stage.value,
          assets := UpdatedAssets(req.assets), description := Description(prev.description, cs),
          updatedBy := req.updatedBy)
  }

  /** The update transaction fails after the ticket was found: a missing
      title, stage or priority has no `trim`, a missing `updated_by` cannot
      be bound, a `null` team member has no `id`, or the team insert is
      rejected. */
  predicate UpdateFails(req: UpdateRequest, insertFails: bool)
  {
    || req.title.None? || req.stage.None? || req.priority.None? || req.updatedBy.None?
    || (req.team.TeamList?
        && (NormalizeTeam(req.team.entries).None?
            || (NormalizeTeam(req.team.entries).value != [] && insertFails)))
  }

  /** The `ticket_team` table after the update: replaced for this ticket
      when `team` is an array, untouched otherwise. */
  function UpdatedTeam(team: seq<TeamRow>, id: TicketId, arg: TeamArg): seq<TeamRow>
    requires arg.TeamList? ==> NormalizeTeam(arg.entries).Some?
  {
    if arg.TeamList? then RemoveTeamRows(team, id) + TeamRows(id, NormalizeTeam(arg.entries).value)
    else team
  }

  /** `updateTicket`. */
  function UpdateTicket(db: Db, id: TicketId, req: UpdateRequest, insertFails: bool): (out: Outcome)
    ensures out.status == NOT_FOUND <==> FindTicket(db.tickets, id).None?
    ensures out.status == OK <==> FindTicket(db.tickets, id).Some? && !UpdateFails(req, insertFails)
    ensures out.status != OK ==> out.db == db
    ensures out.status == OK ==>
      var prev := FindTicket(db.tickets, id).value;
      && out.db.tickets == SetRow(db.tickets, id, Updated(prev, req))
      && out.db.team == UpdatedTeam(db.team, id, req.team)
      && (req.team.TeamList? ==> RowsFor(out.db.team, id) == KeptIds(req.team.entries))
      && (!req.team.TeamList? ==> out.db.team == db.team)
      && (forall other :: other != id ==> RowsFor(out.db.team, other) == RowsFor(db.team, other))
      && out.db == db.(tickets := out.db.tickets, team := out.db.team)
    ensures Valid(db) ==> Valid(out.db)
  {
    match FindTicket(db.tickets, id)
    case None => Outcome(NOT_FOUND, Failed, db)
    case Some(prev) =>
      if UpdateFails(req, insertFails) then Outcome(SERVER_ERROR, Failed, db)
      else
        var db' := db.(tickets := SetRow(db.tickets, id, Updated(prev, req)),
                       team := UpdatedTeam(db.team, id, req.team));
        UpdatedTeamRows(db.team, id, req.team);
        assert Valid(db) ==> Valid(db') by {
          if Valid(db) {
            UpdateKeepsValid(db, id, prev, req);
          }
        }
        Outcome(OK, Done, db')
  }

  /** The written row keeps its id, and the new team rows name a ticket that
      exists, so the store stays well-formed. */
  lemma UpdateKeepsValid(db: Db, id: TicketId, prev: Ticket, req: UpdateRequest)
    requires Valid(db)
    requires FindTicket(db.tickets, id) == Some(prev)
    requires req.title.Some? && req.priority.Some? && req.stage.Some? && req.updatedBy.Some?
    requires req.team.TeamList? ==> NormalizeTeam(req.team.entries).Some?
    ensures Valid(db.(tickets := SetRow(db.tickets, id, Updated(prev, req)),
                      team := UpdatedTeam(db.team, id, req.team)))
  {
    assert id < db.nextTicketId;
    UpdatedTeamBound(db.team, id, req.team, db.nextTicketId);
    RewriteKeepsValid(db, id, Updated(prev, req), UpdatedTeam(db.team, id, req.team));
  }

  /** Rewriting one existing row in place and replacing `ticket_team` by rows
      of allocated tickets keeps the store well-formed. */
  lemma RewriteKeepsValid(db: Db, id: TicketId, t: Ticket, team: seq<TeamRow>)
    requires Valid(db)
    requires t.id == id && id < db.nextTicketId
    requires forall i :: 0 <= i < |team| ==> team[i].ticketId < db.nextTicketId
    ensures Valid(db.(tickets := SetRow(db.tickets, id, t), team := team))
  {
    var ts := SetRow(db.tickets, id, t);
    assert SortedIds(ts) by {
      forall i, j | 0 <= i < j < |ts| ensures ts[i].id < ts[j].id {
        assert ts[i].id == db.tickets[i].id && ts[j].id == db.tickets[j].id;
      }
    }
    assert forall i :: 0 <= i < |ts| ==> ts[i].id == db.tickets[i].id;
  }

  /** Replacing a ticket's rows keeps every row below an id bound the ticket
      itself is below. */
  lemma UpdatedTeamBound(team: seq<TeamRow>, id: TicketId, arg: TeamArg, bound: nat)
    requires arg.TeamList? ==> NormalizeTeam(arg.entries).Some?
    requires id < bound
    requires forall i :: 0 <= i < |team| ==> team[i].ticketId < bound
    ensures forall i :: 0 <= i < |UpdatedTeam(team, id, arg)| ==> UpdatedTeam(team, id, arg)[i].ticketId < bound
  {
    if arg.TeamList? {
      var removed := RemoveTeamRows(team, id);
      var added := TeamRows(id, NormalizeTeam(arg.entries).value);
      var team' := removed + added;
      forall i | 0 <= i < |team'| ensures team'[i].ticketId < bound {
        if i < |removed| {
          assert team'[i] == removed[i] && removed[i] in team;
        } else {
          assert team'[i] == added[i - |removed|];
        }
      }
    }
  }

  /** What the team replacement leaves in `ticket_team`, ticket by ticket. */
  lemma UpdatedTeamRows(team: seq<TeamRow>, id: TicketId, arg: TeamArg)
    requires arg.TeamList? ==> NormalizeTeam(arg.entries).Some?
    ensures arg.TeamList? ==> RowsFor(UpdatedTeam(team, id, arg), id) == KeptIds(arg.entries)
    ensures forall other :: other != id ==> RowsFor(UpdatedTeam(team, id, arg), other) == RowsFor(team, other)
  {
    if arg.TeamList? {
      var ids := NormalizeTeam(arg.entries).value;
      RowsForAppend(RemoveTeamRows(team, id), TeamRows(id, ids), id);
      RowsForTeamRows(id, ids);
      forall other | other != id
        ensures RowsFor(UpdatedTeam(team, id, arg), other) == RowsFor(team, other)
      {
        RowsForAppend(RemoveTeamRows(team, id), TeamRows(id, ids), other);
        RowsForRemoveTeamRows(team, id, other);
        RowsForOtherTeamRows(id, other, ids);
      }
    }
  }

  // ---------------------------------------------------------------------------
  // trashTicket / deleteRestoreTicket
  // ---------------------------------------------------------------------------

  /** `trashTicket`: flag the one ticket; an absent id changes nothing. */
  function TrashTicket(db: Db, id: TicketId): (out: Outcome)
    ensures out.status == OK
    ensures out.db == db.(tickets := out.db.tickets)
    ensures |out.db.tickets| == |db.tickets|
    ensures forall i :: 0 <= i < |db.tickets| ==>
      out.db.tickets[i] == (if db.tickets[i].id == id then db.tickets[i].(isTrashed := true) else db.tickets[i])
    ensures Valid(db) ==> Valid(out.db)
  {
    Outcome(OK, Done, db.(tickets := SetTrashed(db.tickets, IdIs(id), true)))
  }

  /** `deleteRestoreTicket`, dispatched on `actionType`; the `id` path
      parameter is optional, and binding a missing one throws. */
  function DeleteRestoreTicket(db: Db, id: Option<TicketId>, actionType: Option<string>): (out: Outcome)
    ensures out.status == OK || out.status == SERVER_ERROR
    ensures out.status == SERVER_ERROR <==>
      id.None? && (actionType == Some("delete") || actionType == Some("restore"))
    ensures out.status == SERVER_ERROR ==> out.db == db
    ensures out.db == db.(tickets := out.db.tickets)
    ensures out.status == OK && actionType == Some("delete") ==>
      forall t :: t in out.db.tickets <==> t in db.tickets && t.id != id.value
    ensures actionType == Some("deleteAll") ==>
      forall t :: t in out.db.tickets <==> t in db.tickets && !t.isTrashed
    ensures out.status == OK && actionType == Some("restore") ==>
      out.db.tickets == SetTrashed(db.tickets, IdIs(id.value), false)
    ensures actionType == Some("restoreAll") ==>
      |out.db.tickets| == |db.tickets| && forall i :: 0 <= i < |db.tickets| ==>
        out.db.tickets[i] == db.tickets[i].(isTrashed := false)
    ensures actionType !in {Some("delete"), Some("deleteAll"), Some("restore"), Some("restoreAll")} ==>
      out.db == db
    ensures Valid(db) ==> Valid(out.db)
  {
    if actionType == Some("delete") || actionType == Some("restore") then
      if id.None? then Outcome(SERVER_ERROR, Failed, db)
      else if actionType == Some("delete") then
        Outcome(OK, Done, DeleteTickets(db, IdIs(id.value)))
      else
        Outcome(OK, Done, db.(tickets := SetTrashed(db.tickets, IdIs(id.value), false)))
    else if actionType == Some("deleteAll") then
      Outcome(OK, Done, DeleteTickets(db, IsTrashed))
    else if actionType == Some("restoreAll") then
      Outcome(OK, Done, db.(tickets := SetTrashed(db.tickets, IsTrashed, false)))
    else Outcome(OK, Done, db)
  }

  /** `DELETE FROM tickets WHERE w`; team rows and sub-tickets are left in place. */
  function DeleteTickets(db: Db, w: Where): (db': Db)
    ensures db' == db.(tickets := DeleteWhere(db.tickets, w))
    ensures Valid(db) ==> Valid(db')
  {
    var db' := db.(tickets := DeleteWhere(db.tickets, w));
    assert Valid(db) ==> Valid(db') by {
      if Valid(db) {
        DeleteKeepsValid(db, w);
      }
    }
    db'
  }

  // ---------------------------------------------------------------------------
  // dashboardStatistics
  // ---------------------------------------------------------------------------

  /** A row of the dashboard's team query: a ticket id with one member. */
  datatype TeamDatum = TeamDatum(ticketId: TicketId, user: UserSummary)

  /** `ticket_team JOIN users WHERE ticket_id IN (active ids)`, in row order. */
  function TeamData(rows: seq<TeamRow>, users: seq<User>, active: seq<Ticket>): (r: seq<TeamDatum>)
    ensures forall i :: 0 <= i < |r| ==> FindTicket(active, r[i].ticketId).Some?
  {
    if rows == [] then []
    else
      var row := rows[0];
      (if FindTicket(active, row.ticketId).Some? && FindUser(users, row.userId).Some?
       then [TeamDatum(row.ticketId, Summary(FindUser(users, row.userId).value))]
       else [])
      + TeamData(rows[1..], users, active)
  }

  /** `teamMap[id] || []`: the members pushed for `id`, in row order. */
  function TeamMapGet(data: seq<TeamDatum>, id: TicketId): seq<UserSummary>
  {
    if data == [] then []
    else (if data[0].ticketId == id then [data[0].user] else []) + TeamMapGet(data[1..], id)
  }

  /** Grouping the one big join by ticket gives, for every active ticket,
      exactly the per-ticket join that getTicket runs. */
  lemma {:induction false} TeamMapIsJoin(rows: seq<TeamRow>, users: seq<User>, active: seq<Ticket>, id: TicketId)
    requires FindTicket(active, id).Some?
    ensures TeamMapGet(TeamData(rows, users, active), id) == ResolveUsers(RowsFor(rows, id), users)
  {
    if rows != [] {
      TeamMapIsJoin(rows[1..], users, active, id);
      var row := rows[0];
      var head := if FindTicket(active, row.ticketId).Some? && FindUser(users, row.userId).Some?
        then [TeamDatum(row.ticketId, Summary(FindUser(users, row.userId).value))] else [];
      var data := TeamData(rows, users, active);
      assert data == head + TeamData(rows[1..], users, active);
      TeamMapGetAppend(head, TeamData(rows[1..], users, active), id);
      var ids := RowsFor(rows, id);
      if row.ticketId == id {
        assert ids == [row.userId] + RowsFor(rows[1..], id);
        assert ids[0] == row.userId && ids[1..] == RowsFor(rows[1..], id);
      } else {
        assert ids == RowsFor(rows[1..], id);
      }
    }
  }

  lemma {:induction false} TeamMapGetAppend(a: seq<TeamDatum>, b: seq<TeamDatum>, id: TicketId)
    ensures TeamMapGet(a + b, id) == TeamMapGet(a, id) + TeamMapGet(b, id)
  {
    if a == [] {
      assert a + b == b;
    } else {
      var ab := a + b;
      assert ab[0] == a[0];
      assert ab[1..] == a[1..] + b;
      TeamMapGetAppend(a[1..], b, id);
      var head := if a[0].ticketId == id then [a[0].user] else [];
      assert TeamMapGet(a, id) == head + TeamMapGet(a[1..], id);
      assert TeamMapGet(ab, id) == head + TeamMapGet(ab[1..], id);
      assert head + (TeamMapGet(a[1..], id) + TeamMapGet(b, id)) == (head + TeamMapGet(a[1..], id)) + TeamMapGet(b, id);
    }
  }

  function Stages(ts: seq<Ticket>): (r: seq<string>)
    ensures |r| == |ts| && forall i :: 0 <= i < |ts| ==> r[i] == ts[i].stage
  {
    seq(|ts|, i requires 0 <= i < |ts| => ts[i].stage)
  }

  function Priorities(ts: seq<Ticket>): (r: seq<string>)
    ensures |r| == |ts| && forall i :: 0 <= i < |ts| ==> r[i] == ts[i].priority
  {
    seq(|ts|, i requires 0 <= i < |ts| => ts[i].priority)
  }

  /** Tickets with their team taken from the grouped join. */
  function WithTeams(ts: seq<Ticket>, data: seq<TeamDatum>): (r: seq<TicketView>)
    ensures |r| == |ts|
    ensures forall i :: 0 <= i < |ts| ==> r[i] == TicketView(ts[i], TeamMapGet(data, ts[i].id))
  {
    seq(|ts|, i requires 0 <= i < |ts| => TicketView(ts[i], TeamMapGet(data, ts[i].id)))
  }

  /** `dashboardStatistics`. */
  function DashboardStatistics(db: Db): (out: Outcome)
    requires Valid(db)
    ensures out.status == OK && out.db == db && out.body.Dashboard?
    ensures var s := out.body.summary;
      && s.totalTickets == |ActiveTickets(db.tickets)|
      && Total(s.groupedByStage) == s.totalTickets
      && Total(s.groupedByPriority) == s.totalTickets
      && (forall i :: 0 <= i < |s.groupedByStage| ==>
            s.groupedByStage[i].count == multiset(Stages(ActiveTickets(db.tickets)))[s.groupedByStage[i].key])
      && (forall i :: 0 <= i < |s.groupedByPriority| ==>
            s.groupedByPriority[i].count == multiset(Priorities(ActiveTickets(db.tickets)))[s.groupedByPriority[i].key])
      && Covers(s.groupedByStage, Stages(ActiveTickets(db.tickets))) && Distinct(Keys(s.groupedByStage))
      && Covers(s.groupedByPriority, Priorities(ActiveTickets(db.tickets))) && Distinct(Keys(s.groupedByPriority))
    ensures out.body.summary.history == History(db)
  {
    var active := ActiveTickets(db.tickets);
    var s := DashboardSummary(|active|, GroupCounts(Stages(active)), GroupCounts(Priorities(active)), History(db));
    Outcome(OK, Dashboard(s), db)
  }

  /** The dashboard's `last10Ticket`: the newest untrashed tickets, newest
      first, each with its team; every untrashed ticket left out is older
      than every ticket shown. */
  function History(db: Db): (h: seq<TicketView>)
    requires Valid(db)
    ensures |h| == Min(HISTORY_SIZE, |ActiveTickets(db.tickets)|)
    ensures forall i, j :: 0 <= i < j < |h| ==> h[i].ticket.id > h[j].ticket.id
    ensures forall i :: 0 <= i < |h| ==>
      h[i].ticket in db.tickets && !h[i].ticket.isTrashed && h[i].team == TeamOf(db, h[i].ticket.id)
    ensures forall t, i :: t in ActiveTickets(db.tickets) && t !in ViewTickets(h) && 0 <= i < |h| ==>
      t.id < h[i].ticket.id
  {
    var active := ActiveTickets(db.tickets);
    FilterIsSubsequence(db.tickets, IsActive);
    SubsequenceKeepsSorted(active, db.tickets);
    var data := TeamData(db.team, db.users, active);
    var newest := Newest(active, HISTORY_SIZE);
    var history := WithTeams(newest, data);
    HistoryTeams(db, active, newest, history);
    NewestLeavesOlder(active, newest, history);
    history
  }

  /** Each ticket of the history is an untrashed ticket of the store, shown
      with its own team. */
  lemma HistoryTeams(db: Db, active: seq<Ticket>, newest: seq<Ticket>, history: seq<TicketView>)
    requires active == ActiveTickets(db.tickets) && SortedIds(active)
    requires forall i :: 0 <= i < |newest| ==> newest[i] in active
    requires history == WithTeams(newest, TeamData(db.team, db.users, active))
    ensures forall i :: 0 <= i < |history| ==>
      history[i].ticket in db.tickets && !history[i].ticket.isTrashed
      && history[i].team == TeamOf(db, history[i].ticket.id)
  {
    forall i | 0 <= i < |history|
      ensures history[i].ticket in db.tickets && !history[i].ticket.isTrashed
      ensures history[i].team == TeamOf(db, history[i].ticket.id)
    {
      assert newest[i] in active;
      var k :| 0 <= k < |active| && active[k] == newest[i];
      FindTicketAt(active, k);
      TeamMapIsJoin(db.team, db.users, active, newest[i].id);
    }
  }

  /** The tickets of a list of views, in order. */
  function ViewTickets(vs: seq<TicketView>): (r: seq<Ticket>)
    ensures |r| == |vs| && forall i :: 0 <= i < |vs| ==> r[i] == vs[i].ticket
  {
    seq(|vs|, i requires 0 <= i < |vs| => vs[i].ticket)
  }

  /** `ORDER BY id DESC LIMIT n` leaves out only tickets older than every
      ticket it keeps. */
  lemma NewestLeavesOlder(active: seq<Ticket>, newest: seq<Ticket>, history: seq<TicketView>)
    requires SortedIds(active) && newest == Newest(active, HISTORY_SIZE)
    requires |history| == |newest| && forall k :: 0 <= k < |history| ==> history[k].ticket == newest[k]
    ensures forall t, i :: t in active && t !in ViewTickets(history) && 0 <= i < |history| ==>
      t.id < history[i].ticket.id
  {
    assert ViewTickets(history) == newest;
    forall t, i | t in active && t !in newest && 0 <= i < |history| ensures t.id < history[i].ticket.id {
      var j :| 0 <= j < |active| && active[j] == t;
    }
  }
}

=== FILE: ticket_laws.dfy ===
/** Properties relating several ticket handlers: what a later read sees
    after a write, and which writes undo or repeat each other. */
module TicketLaws {
  import opened Common
  import opened Store
  import opened ChangeLog
  import opened TicketController
  import TicketModel

  /** A created ticket is found under the id the response reports, with the
      submitted fields and exactly the submitted team, in order. */
  lemma CreateThenGet(db: Db, req: CreateRequest, insertFails: bool)
    requires Valid(db)
    requires CreateTicket(db, req, insertFails).status == OK
    ensures var out := CreateTicket(db, req, insertFails);
      var got := GetTicket(out.db, out.body.ticketId);
      && got.status == OK
      && got.body.view.ticket == NewTicket(db.nextTicketId, req)
      && got.body.view.team == ResolveUsers(CreatedTeam(req.team), db.users)
  {
    var out := CreateTicket(db, req, insertFails);
    var id := db.nextTicketId;
    assert out.db.tickets[|db.tickets|] == NewTicket(id, req);
    FindTicketAt(out.db.tickets, |db.tickets|);
    RowsForAppend(db.team, TeamRows(id, CreatedTeam(req.team)), id);
    FreshTicketHasNoTeam(db, id);
    RowsForTeamRows(id, CreatedTeam(req.team));
    assert RowsFor(out.db.team, id) == CreatedTeam(req.team);
  }

  /** A created ticket that is not trashed shows up in the ticket list. */
  lemma CreateThenList(db: Db, req: CreateRequest, insertFails: bool)
    requires CreateTicket(db, req, insertFails).status == OK
    ensures var out := CreateTicket(db, req, insertFails);
      View(out.db, NewTicket(db.nextTicketId, req)) in GetAllTickets(out.db).body.tickets
  {
    var out := CreateTicket(db, req, insertFails);
    assert out.db.tickets[|db.tickets|] == NewTicket(db.nextTicketId, req);
  }

  /** The copy is found under the next id, with the copied fields and no team
      of its own. */
  lemma DuplicateThenGet(db: Db, id: TicketId)
    requires Valid(db)
    requires FindTicket(db.tickets, id).Some?
    ensures var out := DuplicateTicket(db, id);
      var got := GetTicket(out.db, db.nextTicketId);
      && got.status == OK
      && got.body.view.ticket == DuplicateOf(FindTicket(db.tickets, id).value, db.nextTicketId)
      && got.body.view.team == []
  {
    var out := DuplicateTicket(db, id);
    FindTicketAt(out.db.tickets, |db.tickets|);
    FreshTicketHasNoTeam(db, db.nextTicketId);
  }

  /** A sub-ticket added through the controller shows up last in its
      ticket's entry of the model-layer listing. */
  lemma CreateSubTicketThenList(db: Db, id: TicketId, title: string, tag: string, i: int)
    requires Valid(db)
    requires 0 <= i < |TicketModel.GetAllTicketsFixed(db)| && TicketModel.GetAllTicketsFixed(db)[i].ticket.id == id
    ensures var out := CreateSubTicket(db, id, Some(title), Some(tag));
      && out.status == OK && Valid(out.db)
      && |TicketModel.GetAllTicketsFixed(out.db)| == |TicketModel.GetAllTicketsFixed(db)|
      && TicketModel.GetAllTicketsFixed(out.db)[i].subTickets
         == TicketModel.GetAllTicketsFixed(db)[i].subTickets + [SubTicket(id, title, tag)]
  {
    TicketModel.AddSubTicketThenList(db, id, title, tag, i);
    assert CreateSubTicket(db, id, Some(title), Some(tag)).db
        == TicketModel.AddSubTicket(db, Some(id), Some(title), Some(tag)).db;
  }

  /** A trashed ticket disappears from the list but is still found by id. */
  lemma TrashHidesFromList(db: Db, id: TicketId)
    requires FindTicket(db.tickets, id).Some?
    ensures var out := TrashTicket(db, id);
      && (forall v :: v in GetAllTickets(out.db).body.tickets ==> v.ticket.id != id)
      && GetTicket(out.db, id).status == OK
      && GetTicket(out.db, id).body.view.ticket.isTrashed
  {
    TrashLeavesList(db, id);
    TrashKeepsFindable(db, id);
  }

  lemma TrashLeavesList(db: Db, id: TicketId)
    ensures forall v :: v in GetAllTickets(TrashTicket(db, id).db).body.tickets ==> v.ticket.id != id
  {
    var out := TrashTicket(db, id);
    forall v | v in GetAllTickets(out.db).body.tickets ensures v.ticket.id != id {
      var j :| 0 <= j < |out.db.tickets| && out.db.tickets[j] == v.ticket;
    }
  }

  lemma TrashKeepsFindable(db: Db, id: TicketId)
    requires FindTicket(db.tickets, id).Some?
    ensures GetTicket(TrashTicket(db, id).db, id).status == OK
    ensures GetTicket(TrashTicket(db, id).db, id).body.view.ticket.isTrashed
  {
    var out := TrashTicket(db, id);
    var t := GetTicket(out.db, id).body.view.ticket;
    var k :| 0 <= k < |out.db.tickets| && out.db.tickets[k] == t;
    assert db.tickets[k].id == id;
  }

  /** Trashing twice is trashing once. */
  lemma TrashIdempotent(db: Db, id: TicketId)
    ensures TrashTicket(TrashTicket(db, id).db, id).db == TrashTicket(db, id).db
  {
    var once := TrashTicket(db, id).db;
    var twice := TrashTicket(once, id).db;
    assert twice.tickets == once.tickets;
  }

  /** Restoring a ticket that was in the board before it was trashed gives
      back the store as it was. */
  lemma TrashThenRestore(db: Db, id: TicketId)
    requires forall i :: 0 <= i < |db.tickets| && db.tickets[i].id == id ==> !db.tickets[i].isTrashed
    ensures DeleteRestoreTicket(TrashTicket(db, id).db, Some(id), Some("restore")).db == db
  {
    var trashed := TrashTicket(db, id).db;
    var back := DeleteRestoreTicket(trashed, Some(id), Some("restore")).db;
    assert back.tickets == db.tickets;
  }

  /** The stored row does not depend on the `team` field: the "Team updated"
      clause never reaches the description. */
  lemma UpdateRowIgnoresTeam(db: Db, id: TicketId, req: UpdateRequest, team: TeamArg, f1: bool, f2: bool)
    requires UpdateTicket(db, id, req, f1).status == OK
    requires UpdateTicket(db, id, req.(team := team), f2).status == OK
    ensures UpdateTicket(db, id, req, f1).db.tickets == UpdateTicket(db, id, req.(team := team), f2).db.tickets
  {
  }

  /** Submitting a ticket's own values keeps its description. */
  lemma UpdateWithSameValuesKeepsDescription(db: Db, id: TicketId, req: UpdateRequest, insertFails: bool)
    requires FindTicket(db.tickets, id).Some?
    requires var t := FindTicket(db.tickets, id).value;
      req.title == Some(t.title) && req.stage == Some(t.stage) && req.priority == Some(t.priority)
      && req.assets == ColumnValue(t.assets)
    requires UpdateTicket(db, id, req, insertFails).status == OK
    ensures var t := FindTicket(db.tickets, id).value;
      Updated(t, req).description == t.description
  {
    NoChangeOnSameValues(FindTicket(db.tickets, id).value);
  }

  /** Re-applying an update whose assets are given leaves the store as the
      first application left it: the second pass finds nothing changed. */
  lemma UpdateIdempotent(db: Db, id: TicketId, req: UpdateRequest)
    requires Valid(db)
    requires Truthy(req.assets)
    requires UpdateTicket(db, id, req, false).status == OK
    ensures var once := UpdateTicket(db, id, req, false).db;
      UpdateTicket(once, id, req, false).db == once
  {
    var prev := FindTicket(db.tickets, id).value;
    var u := Updated(prev, req);
    var once := UpdateTicket(db, id, req, false).db;
    SetRowThenFind(db.tickets, id, prev, u);
    SecondPassChangesNothing(prev, req);
    assert Updated(u, req) == u;
    SetRowTwice(db.tickets, id, u);
    if req.team.TeamList? {
      ReplaceTeamTwice(db.team, id, NormalizeTeam(req.team.entries).value);
    }
  }

  /** After a row is rewritten, looking its id up finds the new row. */
  lemma SetRowThenFind(ts: seq<Ticket>, id: TicketId, prev: Ticket, t: Ticket)
    requires SortedIds(ts)
    requires FindTicket(ts, id) == Some(prev)
    requires t.id == id
    ensures FindTicket(SetRow(ts, id, t), id) == Some(t)
  {
    var r := SetRow(ts, id, t);
    var k :| 0 <= k < |ts| && ts[k] == prev;
    assert r[k] == t;
    assert SortedIds(r) by {
      forall i, j | 0 <= i < j < |r| ensures r[i].id < r[j].id {
        assert r[i].id == ts[i].id && r[j].id == ts[j].id;
      }
    }
    FindTicketAt(r, k);
  }

  /** Writing the same row twice is writing it once. */
  lemma SetRowTwice(ts: seq<Ticket>, id: TicketId, t: Ticket)
    requires t.id == id
    ensures SetRow(SetRow(ts, id, t), id, t) == SetRow(ts, id, t)
  {
  }

  /** Comparing the written row with the same request finds no change. */
  lemma SecondPassChangesNothing(prev: Ticket, req: UpdateRequest)
    requires req.title.Some? && req.priority.Some? && req.stage.Some? && req.updatedBy.Some?
    requires Truthy(req.assets)
    ensures Changes(Updated(prev, req), req.title.value, req.stage.value, req.priority.value, req.assets) == []
  {
    var u := Updated(prev, req);
    assert Serialize(ColumnValue(u.assets)) == Serialize(req.assets);
  }

  /** Replacing a ticket's team rows twice with the same ids is replacing them once. */
  lemma ReplaceTeamTwice(team: seq<TeamRow>, id: TicketId, ids: seq<UserId>)
    ensures var once := RemoveTeamRows(team, id) + TeamRows(id, ids);
      RemoveTeamRows(once, id) + TeamRows(id, ids) == once
  {
    var p := OtherTicket(id);
    var removed := RemoveTeamRows(team, id);
    var added := TeamRows(id, ids);
    FilterAppend(removed, added, p);
    FilterAll(removed, p);
    FilterNone(added, p);
    calc {
      RemoveTeamRows(removed + added, id);
      Filter(removed + added, p);
      Filter(removed, p) + Filter(added, p);
      removed + [];
    }
    assert removed + [] == removed;
  }
}

=== FILE: ticket_model.dfy ===
/** The data-access layer under the ticket controller: inserting tickets,
    activities and sub-tickets, and the listing that gathers each
    non-trashed ticket's activities and sub-tickets. */
module TicketModel {
  import opened Common
  import opened Store

  // ---------------------------------------------------------------------------
  // Inserts
  // ---------------------------------------------------------------------------

  /** A data-access call either returns (with the new store) or throws. */
  datatype Result<T> = Returned(value: T, db: Db) | Threw

  /** `JSON.stringify(v || [])`. */
  function ListOrEmpty(v: JsValue): (c: Column)
    ensures c.JsonText?
    ensures Truthy(v) ==> Serialize(ColumnValue(c)) == Serialize(v)
    ensures !Truthy(v) ==> c == JsonText(Arr([]))
  {
    StoreJson(if Truthy(v) then v else Arr([]))
  }

  /** The model-layer `createTicket`: one insert; `assets` and `team` default
      to empty lists; a missing column value makes the insert throw. */
  function CreateTicket(db: Db, title: Option<string>, priority: Option<string>, stage: Option<string>,
                        assets: JsValue, team: JsValue): (r: Result<TicketId>)
    ensures r.Threw? <==> title.None? || priority.None? || stage.None?
    ensures r.Returned? ==>
      && r.value == db.nextTicketId
      && r.db.tickets == db.tickets + [Ticket(db.nextTicketId, title.value, priority.value, stage.value,
                                              ListOrEmpty(assets), ListOrEmpty(team), None, false, None)]
      && r.db == db.(tickets := r.db.tickets, nextTicketId := db.nextTicketId + 1)
    ensures r.Returned? && Valid(db) ==> Valid(r.db)
  {
    if title.None? || priority.None? || stage.None? then Threw
    else
      var t := Ticket(db.nextTicketId, title.value, priority.value, stage.value,
                      ListOrEmpty(assets), ListOrEmpty(team), None, false, None);
      assert Valid(db) ==> SortedIds(db.tickets + [t]) by {
        if Valid(db) {
          AppendKeepsSorted(db.tickets, t);
        }
      }
      Returned(db.nextTicketId, db.(tickets := db.tickets + [t], nextTicketId := db.nextTicketId + 1))
  }

  /** `addActivity`: an unchecked insert into `activities`. */
  function AddActivity(db: Db, ticketId: Option<TicketId>, kind: Option<string>, text: Option<string>,
                       byUserId: Option<UserId>): (r: Result<()>)
    ensures r.Threw? <==> ticketId.None? || kind.None? || text.None? || byUserId.None?
    ensures r.Returned? ==>
      r.db == db.(activities := db.activities + [Activity(ticketId.value, kind.value, text.value, byUserId.value)])
  {
    if ticketId.None? || kind.None? || text.None? || byUserId.None? then Threw
    else Returned((), db.(activities := db.activities + [Activity(ticketId.value, kind.value, text.value, byUserId.value)]))
  }

  /** `addSubTicket`: an unchecked insert into `sub_tickets`. */
  function AddSubTicket(db: Db, ticketId: Option<TicketId>, title: Option<string>, tag: Option<string>): (r: Result<()>)
    ensures r.Threw? <==> ticketId.None? || title.None? || tag.None?
    ensures r.Returned? ==> r.db == db.(subTickets := db.subTickets + [SubTicket(ticketId.value, title.value, tag.value)])
  {
    if ticketId.None? || title.None? || tag.None? then Threw
    else Returned((), AppendSubTicket(db, ticketId.value, title.value, tag.value))
  }

  // ---------------------------------------------------------------------------
  // getAllTickets
  // ---------------------------------------------------------------------------

  /** `String(v)`: a list writes its elements' strings separated by ",",
      with `null` elements written as nothing. */
  function JsString(v: JsValue): (r: string)
    ensures v == Arr([]) ==> r == ""
    ensures v.Arr? && |v.items| == 1 && v.items[0].Str? ==> r == v.items[0].s
    decreases v
  {
    match v
    case Undefined => "undefined"
    case Null => "null"
    case Str(s) => s
    case Arr(items) =>
      Join(seq(|items|, i requires 0 <= i < |items| =>
        if items[i].Null? || items[i].Undefined? then "" else JsString(items[i])), ",")
  }

  /** The two facts about `JSON.parse` the listing relies on: the JSON
      grammar (ECMA-404) has no empty text, so `""` is rejected, and `"[]"`
      is the empty array. `None` stands for a thrown `SyntaxError`. */
  predicate ParsesJson(parse: string -> Option<JsValue>)
  {
    parse("") == None && parse("[]") == Some(Arr([]))
  }

  /** `JSON.parse(cell || "[]")` as written, on the value the driver hands
      back for a JSON cell: a list is already parsed, so `JSON.parse` sees its
      string form; `None` when that throws. */
  function ReadList(c: Column, parse: string -> Option<JsValue>): (r: Option<JsValue>)
    ensures ParsesJson(parse) && !Truthy(ColumnValue(c)) ==> r == Some(Arr([]))
    ensures ParsesJson(parse) && c == JsonText(Arr([])) ==> r.None?
    ensures Truthy(ColumnValue(c)) ==> r == parse(JsString(ColumnValue(c)))
  {
    var v := ColumnValue(c);
    if Truthy(v) then parse(JsString(v)) else parse("[]")
  }

  /** `cell || []`: the cell's list as the driver hands it back, and the
      empty list for `NULL` or an empty string. */
  function ReadListFixed(c: Column): (v: JsValue)
    ensures !Truthy(ColumnValue(c)) ==> v == Arr([])
    ensures Truthy(ColumnValue(c)) ==> v == ColumnValue(c)
  {
    var v := ColumnValue(c);
    if Truthy(v) then v else Arr([])
  }

  /** A list written by `createTicket` reads back as what was written, up to
      JSON serialisation; a falsy one reads back as `[]`. */
  lemma StoredListReadsBack(v: JsValue)
    ensures Truthy(v) ==> Serialize(ReadListFixed(ListOrEmpty(v))) == Serialize(v)
    ensures !Truthy(v) ==> ReadListFixed(ListOrEmpty(v)) == Arr([])
  {
    var c := ListOrEmpty(v);
    if Truthy(v) {
      assert ColumnValue(c).Arr? <==> v.Arr?;
      assert Serialize(ColumnValue(c)) == Serialize(v);
      match v
      case Str(s) => assert ColumnValue(c) == Str(s);
      case Arr(_) =>
    }
  }

  /** Both lists of a ticket parse without throwing. */
  predicate Readable(t: Ticket, parse: string -> Option<JsValue>)
  {
    ReadList(t.assets, parse).Some? && ReadList(t.team, parse).Some?
  }

  /** One element of the listing: the ticket with its parsed lists and the
      activities and sub-tickets gathered under it. */
  datatype Entry = Entry(
    ticket: Ticket,
    assets: JsValue,
    team: JsValue,
    activities: seq<Activity>,
    subTickets: seq<SubTicket>)

  /** The rows whose ticket id is `k`. */
  function KeyIs<T>(key: T -> TicketId, k: TicketId): T -> bool
  {
    x => key(x) == k
  }

  function ActivityTicket(a: Activity): TicketId { a.ticketId }

  function SubTicketTicket(s: SubTicket): TicketId { s.ticketId }

  /** `rows.forEach(x => { if (m[key(x)]) m[key(x)].push(x) })`: each row is
      appended to the bucket of its ticket, and rows without a bucket are
      dropped. */
  function Distribute<T>(m: map<TicketId, seq<T>>, rows: seq<T>, key: T -> TicketId): (r: map<TicketId, seq<T>>)
    ensures r.Keys == m.Keys
    ensures forall k :: k in m ==> r[k] == m[k] + Filter(rows, KeyIs(key, k))
    decreases |rows|
  {
    if rows == [] then m
    else
      var x := rows[0];
      var m' := if key(x) in m then m[key(x) := m[key(x)] + [x]] else m;
      var r := Distribute(m', rows[1..], key);
      forall k | k in m ensures r[k] == m[k] + Filter(rows, KeyIs(key, k)) {
        DistributeStep(m, m', rows, key, k);
      }
      r
  }

  /** Handling the first row appends it to its own bucket only, which is
      what filtering the rows by bucket does with it. */
  lemma DistributeStep<T>(m: map<TicketId, seq<T>>, m': map<TicketId, seq<T>>, rows: seq<T>, key: T -> TicketId, k: TicketId)
    requires rows != [] && k in m
    requires m' == if key(rows[0]) in m then m[key(rows[0]) := m[key(rows[0])] + [rows[0]]] else m
    ensures k in m'
    ensures m'[k] + Filter(rows[1..], KeyIs(key, k)) == m[k] + Filter(rows, KeyIs(key, k))
  {
    var x := rows[0];
    var p := KeyIs(key, k);
    assert p(x) <==> key(x) == k;
    assert m'[k] == if p(x) then m[k] + [x] else m[k];
    FilterCons(rows, p);
    AppendStep(m[k], m'[k], x, Filter(rows[1..], p), Filter(rows, p), p(x));
  }

  /** A bucket that takes `x` when it passes, followed by the rest, is the
      bucket followed by `x` (when it passes) and the rest. */
  lemma AppendStep<T>(bucket: seq<T>, bucket': seq<T>, x: T, rest: seq<T>, whole: seq<T>, passes: bool)
    requires whole == (if passes then [x] else []) + rest
    requires bucket' == if passes then bucket + [x] else bucket
    ensures bucket' + rest == bucket + whole
  {
    if passes {
      assert (bucket + [x]) + rest == bucket + ([x] + rest);
    } else {
      assert whole == rest;
    }
  }

  /** The ids of the listed tickets, each with an empty bucket. */
  function EmptyBuckets<T>(ts: seq<Ticket>): (m: map<TicketId, seq<T>>)
    ensures forall k :: k in m <==> exists i :: 0 <= i < |ts| && ts[i].id == k
    ensures forall k :: k in m ==> m[k] == []
  {
    var ids := set i | 0 <= i < |ts| :: ts[i].id;
    map k | k in ids :: []
  }

  /** Starting from empty buckets, each bucket ends up holding exactly the
      rows of its ticket, in row order. */
  lemma DistributeFromEmpty<T>(m: map<TicketId, seq<T>>, rows: seq<T>, key: T -> TicketId, k: TicketId)
    requires k in m && m[k] == []
    ensures k in Distribute(m, rows, key)
    ensures Distribute(m, rows, key)[k] == Filter(rows, KeyIs(key, k))
  {
    assert [] + Filter(rows, KeyIs(key, k)) == Filter(rows, KeyIs(key, k));
  }

  /** The listing entries of `ts` with their read lists, reading the buckets. */
  function Entries(ts: seq<Ticket>, lists: seq<(JsValue, JsValue)>,
                   acts: map<TicketId, seq<Activity>>, subs: map<TicketId, seq<SubTicket>>): (r: seq<Entry>)
    requires |lists| == |ts|
    requires forall i :: 0 <= i < |ts| ==> ts[i].id in acts && ts[i].id in subs
    ensures |r| == |ts|
    ensures forall i :: 0 <= i < |ts| ==>
      r[i] == Entry(ts[i], lists[i].0, lists[i].1, acts[ts[i].id], subs[ts[i].id])
  {
    seq(|ts|, i requires 0 <= i < |ts| =>
      Entry(ts[i], lists[i].0, lists[i].1, acts[ts[i].id], subs[ts[i].id]))
  }

  /** The buckets of the listed tickets after every row was handed out. */
  function Buckets<T>(ts: seq<Ticket>, rows: seq<T>, key: T -> TicketId): (r: map<TicketId, seq<T>>)
    ensures forall i :: 0 <= i < |ts| ==> ts[i].id in r && r[ts[i].id] == Filter(rows, KeyIs(key, ts[i].id))
  {
    var none: map<TicketId, seq<T>> := EmptyBuckets(ts);
    var r := Distribute(none, rows, key);
    forall i | 0 <= i < |ts| ensures ts[i].id in r && r[ts[i].id] == Filter(rows, KeyIs(key, ts[i].id)) {
      assert ts[i].id in none;
      DistributeFromEmpty(none, rows, key, ts[i].id);
    }
    r
  }

  /** Each ticket with its lists and the activities and sub-tickets that
      name it. */
  function Gather(db: Db, ts: seq<Ticket>, lists: seq<(JsValue, JsValue)>): (r: seq<Entry>)
    requires |lists| == |ts|
    ensures |r| == |ts|
    ensures forall i :: 0 <= i < |ts| ==>
      r[i] == Entry(ts[i], lists[i].0, lists[i].1,
                    Filter(db.activities, KeyIs(ActivityTicket, ts[i].id)),
                    Filter(db.subTickets, KeyIs(SubTicketTicket, ts[i].id)))
  {
    Entries(ts, lists, Buckets(ts, db.activities, ActivityTicket), Buckets(ts, db.subTickets, SubTicketTicket))
  }

  /** The lists of each ticket, read as the driver hands them back. */
  function FixedLists(ts: seq<Ticket>): (r: seq<(JsValue, JsValue)>)
    ensures |r| == |ts|
    ensures forall i :: 0 <= i < |ts| ==> r[i] == (ReadListFixed(ts[i].assets), ReadListFixed(ts[i].team))
  {
    seq(|ts|, i requires 0 <= i < |ts| => (ReadListFixed(ts[i].assets), ReadListFixed(ts[i].team)))
  }

  /** The lists of each ticket, through `JSON.parse`, when none throws. */
  function ParsedLists(ts: seq<Ticket>, parse: string -> Option<JsValue>): (r: seq<(JsValue, JsValue)>)
    requires forall i :: 0 <= i < |ts| ==> Readable(ts[i], parse)
    ensures |r| == |ts|
    ensures forall i :: 0 <= i < |ts| ==>
      Some(r[i].0) == ReadList(ts[i].assets, parse) && Some(r[i].1) == ReadList(ts[i].team, parse)
  {
    seq(|ts|, i requires 0 <= i < |ts| && Readable(ts[i], parse) =>
      (ReadList(ts[i].assets, parse).value, ReadList(ts[i].team, parse).value))
  }

  /** The model-layer `getAllTickets` as written: every untrashed ticket's
      lists go through `JSON.parse`, and one that throws makes the whole
      call throw. Otherwise the entries are those of the corrected listing,
      with the parsed lists. */
  function GetAllTickets(db: Db, parse: string -> Option<JsValue>): (r: Result<seq<Entry>>)
    requires Valid(db)
    ensures r.Threw? <==>
      exists i :: 0 <= i < |ActiveTickets(db.tickets)| && !Readable(ActiveTickets(db.tickets)[i], parse)
    ensures r.Returned? ==> r.db == db && |r.value| == |GetAllTicketsFixed(db)|
    ensures r.Returned? ==> forall i :: 0 <= i < |r.value| ==>
      && r.value[i].ticket == GetAllTicketsFixed(db)[i].ticket
      && r.value[i].activities == GetAllTicketsFixed(db)[i].activities
      && r.value[i].subTickets == GetAllTicketsFixed(db)[i].subTickets
      && ReadList(r.value[i].ticket.assets, parse) == Some(r.value[i].assets)
      && ReadList(r.value[i].ticket.team, parse) == Some(r.value[i].team)
  {
    var active := ActiveTickets(db.tickets);
    if exists i :: 0 <= i < |active| && !Readable(active[i], parse) then Threw
    else
      ParsedAgreesWithFixed(db, parse);
      Returned(Gather(db, active, ParsedLists(active, parse)), db)
  }

  /** When nothing throws, the parsed listing differs from the corrected one
      only in the lists. */
  lemma ParsedAgreesWithFixed(db: Db, parse: string -> Option<JsValue>)
    requires Valid(db)
    requires forall i :: 0 <= i < |ActiveTickets(db.tickets)| ==> Readable(ActiveTickets(db.tickets)[i], parse)
    ensures var active := ActiveTickets(db.tickets);
      var r := Gather(db, active, ParsedLists(active, parse));
      && |r| == |GetAllTicketsFixed(db)|
      && forall i :: 0 <= i < |r| ==>
        && r[i].ticket == GetAllTicketsFixed(db)[i].ticket
        && r[i].activities == GetAllTicketsFixed(db)[i].activities
        && r[i].subTickets == GetAllTicketsFixed(db)[i].subTickets
        && ReadList(r[i].ticket.assets, parse) == Some(r[i].assets)
        && ReadList(r[i].ticket.team, parse) == Some(r[i].team)
  {
  }

  /** The listing with the lists read as the driver hands them back
      (`cell || []`), which never throws. The ticket map is keyed by
      integer ids, so `Object.values` lists it in ascending id order, which
      is the order of the (id-ordered) table. */
  function GetAllTicketsFixed(db: Db): (r: seq<Entry>)
    requires Valid(db)
    ensures |r| == |ActiveTickets(db.tickets)|
    ensures forall i :: 0 <= i < |r| ==> r[i].ticket == ActiveTickets(db.tickets)[i]
    ensures forall i :: 0 <= i < |r| ==> r[i].ticket in db.tickets && !r[i].ticket.isTrashed
    ensures forall i, j :: 0 <= i < j < |r| ==> r[i].ticket.id < r[j].ticket.id
    ensures forall i :: 0 <= i < |r| ==>
      && r[i].assets == ReadListFixed(r[i].ticket.assets)
      && r[i].team == ReadListFixed(r[i].ticket.team)
      && r[i].activities == Filter(db.activities, KeyIs(ActivityTicket, r[i].ticket.id))
      && r[i].subTickets == Filter(db.subTickets, KeyIs(SubTicketTicket, r[i].ticket.id))
  {
    var active := ActiveTickets(db.tickets);
    ActiveSorted(db.tickets);
    Gather(db, active, FixedLists(active))
  }

  // ---------------------------------------------------------------------------
  // Properties of the listing
  // ---------------------------------------------------------------------------

  /** The rows a key filter keeps all carry the key, and a row of the table
      is kept exactly when it carries the key. */
  lemma KeyFilter<T>(rows: seq<T>, key: T -> TicketId, k: TicketId)
    ensures forall j :: 0 <= j < |Filter(rows, KeyIs(key, k))| ==> key(Filter(rows, KeyIs(key, k))[j]) == k
    ensures forall j :: 0 <= j < |rows| ==> (rows[j] in Filter(rows, KeyIs(key, k)) <==> key(rows[j]) == k)
    ensures IsSubsequence(Filter(rows, KeyIs(key, k)), rows)
  {
    var f := Filter(rows, KeyIs(key, k));
    forall j | 0 <= j < |f| ensures key(f[j]) == k {
      assert KeyIs(key, k)(f[j]);
    }
    forall j | 0 <= j < |rows| ensures rows[j] in f ==> key(rows[j]) == k {
      if rows[j] in f {
        var q :| 0 <= q < |f| && f[q] == rows[j];
        assert KeyIs(key, k)(f[q]);
      }
    }
    FilterIsSubsequence(rows, KeyIs(key, k));
  }

  /** Each entry's activities belong to that ticket and keep their table
      order. */
  lemma EntryActivities(db: Db, i: int)
    requires Valid(db)
    requires 0 <= i < |GetAllTicketsFixed(db)|
    ensures var e := GetAllTicketsFixed(db)[i];
      && IsSubsequence(e.activities, db.activities)
      && (forall j :: 0 <= j < |e.activities| ==> e.activities[j].ticketId == e.ticket.id)
  {
    var e := GetAllTicketsFixed(db)[i];
    assert e.activities == Filter(db.activities, KeyIs(ActivityTicket, e.ticket.id));
    KeyFilter(db.activities, ActivityTicket, e.ticket.id);
    forall j | 0 <= j < |e.activities| ensures e.activities[j].ticketId == e.ticket.id {
      assert ActivityTicket(e.activities[j]) == e.ticket.id;
    }
  }

  /** Each entry's sub-tickets belong to that ticket and keep their table
      order. */
  lemma EntrySubTickets(db: Db, i: int)
    requires Valid(db)
    requires 0 <= i < |GetAllTicketsFixed(db)|
    ensures var e := GetAllTicketsFixed(db)[i];
      && IsSubsequence(e.subTickets, db.subTickets)
      && (forall j :: 0 <= j < |e.subTickets| ==> e.subTickets[j].ticketId == e.ticket.id)
  {
    var e := GetAllTicketsFixed(db)[i];
    assert e.subTickets == Filter(db.subTickets, KeyIs(SubTicketTicket, e.ticket.id));
    KeyFilter(db.subTickets, SubTicketTicket, e.ticket.id);
    forall j | 0 <= j < |e.subTickets| ensures e.subTickets[j].ticketId == e.ticket.id {
      assert SubTicketTicket(e.subTickets[j]) == e.ticket.id;
    }
  }

  /** An activity lands in a listed ticket's entry exactly when it names
      that ticket, so activities of deleted or trashed tickets appear
      nowhere. */
  lemma ActivityPlacement(db: Db, j: int, i: int)
    requires Valid(db)
    requires 0 <= j < |db.activities|
    requires 0 <= i < |GetAllTicketsFixed(db)|
    ensures db.activities[j] in GetAllTicketsFixed(db)[i].activities
        <==> db.activities[j].ticketId == GetAllTicketsFixed(db)[i].ticket.id
  {
    var e := GetAllTicketsFixed(db)[i];
    KeyFilter(db.activities, ActivityTicket, e.ticket.id);
  }

  /** An activity recorded for a listed ticket appears last in its entry. */
  lemma AddActivityThenList(db: Db, ticketId: TicketId, kind: string, text: string, byUser: UserId, i: int)
    requires Valid(db)
    requires 0 <= i < |GetAllTicketsFixed(db)| && GetAllTicketsFixed(db)[i].ticket.id == ticketId
    ensures var r := AddActivity(db, Some(ticketId), Some(kind), Some(text), Some(byUser));
      && r.Returned? && Valid(r.db)
      && GetAllTicketsFixed(r.db)[i].activities
         == GetAllTicketsFixed(db)[i].activities + [Activity(ticketId, kind, text, byUser)]
  {
    var a := Activity(ticketId, kind, text, byUser);
    var r := AddActivity(db, Some(ticketId), Some(kind), Some(text), Some(byUser));
    assert r.db == db.(activities := db.activities + [a], subTickets := db.subTickets);
    ValidIgnoresLogs(db, db.activities + [a], db.subTickets);
    var before := GetAllTicketsFixed(db);
    var after := GetAllTicketsFixed(r.db);
    assert |after| == |before|;
    assert after[i].ticket == before[i].ticket;
    assert after[i].activities == Filter(db.activities + [a], KeyIs(ActivityTicket, ticketId));
    AppendOneKeyed(db.activities, a, ActivityTicket, ticketId);
  }

  /** Appending a row with key `k` extends the `k` rows by it. */
  lemma AppendOneKeyed<T>(rows: seq<T>, x: T, key: T -> TicketId, k: TicketId)
    requires key(x) == k
    ensures Filter(rows + [x], KeyIs(key, k)) == Filter(rows, KeyIs(key, k)) + [x]
  {
    FilterAppend(rows, [x], KeyIs(key, k));
    FilterCons([x], KeyIs(key, k));
    assert [x][1..] == [];
  }

  /** With the lists read as handed back, a ticket created without assets
      or team is listed last with both lists empty. */
  lemma CreateWithoutListsReadsEmpty(db: Db, title: string, priority: string, stage: string)
    requires Valid(db)
    ensures var r := CreateTicket(db, Some(title), Some(priority), Some(stage), Undefined, Null);
      && r.Returned?
      && var listed := GetAllTicketsFixed(r.db);
      && |listed| == |GetAllTicketsFixed(db)| + 1
      && listed[|listed| - 1].ticket.id == r.value
      && listed[|listed| - 1].assets == Arr([])
      && listed[|listed| - 1].team == Arr([])
  {
    var r := CreateTicket(db, Some(title), Some(priority), Some(stage), Undefined, Null);
    var t := Ticket(db.nextTicketId, title, priority, stage, ListOrEmpty(Undefined), ListOrEmpty(Null), None, false, None);
    assert r.db.tickets == db.tickets + [t];
    assert t.assets == JsonText(Arr([])) && t.team == JsonText(Arr([]));
    assert ReadListFixed(t.assets) == Arr([]) && ReadListFixed(t.team) == Arr([]);
    ActiveAppend(db.tickets, t);
    var listed := GetAllTicketsFixed(r.db);
    assert |listed| == |ActiveTickets(db.tickets)| + 1;
    assert listed[|listed| - 1].ticket == t;
  }

  /** As written, creating a ticket without assets or team stores `[]`,
      whose string form is the empty text, so every later listing throws. */
  lemma CreateWithoutListsThenListThrows(db: Db, title: string, priority: string, stage: string,
                                         parse: string -> Option<JsValue>)
    requires Valid(db) && ParsesJson(parse)
    ensures var r := CreateTicket(db, Some(title), Some(priority), Some(stage), Undefined, Null);
      && r.Returned? && Valid(r.db)
      && GetAllTickets(r.db, parse).Threw?
  {
    var r := CreateTicket(db, Some(title), Some(priority), Some(stage), Undefined, Null);
    var t := Ticket(db.nextTicketId, title, priority, stage, ListOrEmpty(Undefined), ListOrEmpty(Null), None, false, None);
    assert r.db.tickets == db.tickets + [t];
    assert t.assets == JsonText(Arr([]));
    assert !Readable(t, parse);
    ActiveAppend(db.tickets, t);
    var active := ActiveTickets(r.db.tickets);
    assert active[|active| - 1] == t;
  }

  /** A sub-ticket recorded for a listed ticket appears last in its entry. */
  lemma AddSubTicketThenList(db: Db, ticketId: TicketId, title: string, tag: string, i: int)
    requires Valid(db)
    requires 0 <= i < |GetAllTicketsFixed(db)| && GetAllTicketsFixed(db)[i].ticket.id == ticketId
    ensures var r := AddSubTicket(db, Some(ticketId), Some(title), Some(tag));
      && r.Returned? && Valid(r.db)
      && |GetAllTicketsFixed(r.db)| == |GetAllTicketsFixed(db)|
      && GetAllTicketsFixed(r.db)[i].ticket == GetAllTicketsFixed(db)[i].ticket
      && GetAllTicketsFixed(r.db)[i].subTickets
         == GetAllTicketsFixed(db)[i].subTickets + [SubTicket(ticketId, title, tag)]
  {
    var x := SubTicket(ticketId, title, tag);
    var r := AddSubTicket(db, Some(ticketId), Some(title), Some(tag));
    assert r.db == db.(activities := db.activities, subTickets := db.subTickets + [x]);
    ValidIgnoresLogs(db, db.activities, db.subTickets + [x]);
    var before := GetAllTicketsFixed(db);
    var after := GetAllTicketsFixed(r.db);
    assert |after| == |before|;
    assert after[i].ticket == before[i].ticket;
    assert after[i].subTickets == Filter(db.subTickets + [x], KeyIs(SubTicketTicket, ticketId));
    AppendOneKeyed(db.subTickets, x, SubTicketTicket, ticketId);
  }

  /** Appending an untrashed ticket appends it to the untrashed tickets. */
  lemma ActiveAppend(ts: seq<Ticket>, t: Ticket)
    requires !t.isTrashed
    ensures ActiveTickets(ts + [t]) == ActiveTickets(ts) + [t]
  {
    FilterAppend(ts, [t], IsActive);
    FilterCons([t], IsActive);
    assert [t][1..] == [];
  }
}

=== FILE: ticket_routes.dfy ===
/** The ticket router: which handler a request reaches and which guards run
    before it. Routes are tried in registration order and the first whose
    method and path match takes the request; literal path segments match
    without regard to case, as the router does by default. A request path is
    given as its non-empty segments, so `/` is `[]` and `/dashboard` is
    `["dashboard"]`. */
module TicketRoutes {
  import opened Common
  import opened Store
  import opened Auth

  const NOT_FOUND: int := 404

  datatype Verb = GET | POST | PUT | DELETE

  datatype Handler =
    | CreateTicket | DuplicateTicket | DashboardStatistics | GetAllTickets | GetTicket
    | CreateSubTicket | UpdateTicket | TrashTicket | DeleteRestoreTicket

  /** A path pattern segment: a lower-case literal, or a named parameter
      that may be optional (`:id?`). */
  datatype Segment = Lit(text: string) | Param(optional: bool)

  datatype Route = Route(verb: Verb, pattern: seq<Segment>, guards: seq<Guard>, handler: Handler)

  /** The registration order of the ticket router. */
  const Routes: seq<Route> := [
    Route(POST, [Lit("create")], [Protect, Admin], CreateTicket),
    Route(POST, [Lit("duplicate"), Param(false)], [Protect, Admin], DuplicateTicket),
    Route(GET, [Lit("dashboard")], [Protect], DashboardStatistics),
    Route(GET, [], [Protect], GetAllTickets),
    Route(GET, [Param(false)], [Protect], GetTicket),
    Route(POST, [Lit("create-subticket"), Param(false)], [Protect, Admin], CreateSubTicket),
    Route(PUT, [Lit("update"), Param(false)], [Protect], UpdateTicket),
    Route(PUT, [Param(false)], [Protect, Admin], TrashTicket),
    Route(DELETE, [Lit("delete-restore"), Param(true)], [Protect, Admin], DeleteRestoreTicket)
  ]

  /** The handlers that only administrators reach. */
  predicate AdminOnly(h: Handler)
  {
    h == CreateTicket || h == DuplicateTicket || h == CreateSubTicket || h == TrashTicket || h == DeleteRestoreTicket
  }

  /** One path segment against one pattern segment: a literal matches the
      segment's lower-case form, a parameter matches anything. */
  predicate SegmentMatches(g: Segment, s: string)
  {
    g.Param? || ToLower(s) == g.text
  }

  /** A pattern without optional parameters. */
  predicate AllRequired(pattern: seq<Segment>)
  {
    forall k :: 0 <= k < |pattern| ==> !(pattern[k].Param? && pattern[k].optional)
  }

  /** The value a pattern binds to its parameter when it matches the path:
      `Some(Some(v))` for a matched segment, `Some(None)` when an optional
      parameter is absent, `None` when the path does not match. */
  function MatchPath(pattern: seq<Segment>, path: seq<string>): (r: Option<Option<string>>)
    ensures pattern == [] ==> (r.Some? <==> path == [])
    ensures r.Some? ==> |path| <= |pattern|
    decreases |pattern|
  {
    if pattern == [] then (if path == [] then Some(None) else None)
    else match pattern[0]
      case Lit(s) =>
        if path != [] && ToLower(path[0]) == s then MatchPath(pattern[1..], path[1..]) else None
      case Param(optional) =>
        if path != [] && MatchPath(pattern[1..], path[1..]).Some? then Some(Some(path[0]))
        else if optional && MatchPath(pattern[1..], path).Some? then Some(None)
        else None
  }

  /** What matching means segment by segment: without optional parameters a
      path matches iff it has the pattern's length and every segment matches
      its pattern segment; a leading literal must match the first segment;
      and a bound value is a path segment standing at a parameter. */
  lemma {:induction false} MatchPathSegments(pattern: seq<Segment>, path: seq<string>)
    ensures AllRequired(pattern) ==>
      (MatchPath(pattern, path).Some? <==>
        |path| == |pattern| && forall k :: 0 <= k < |path| ==> SegmentMatches(pattern[k], path[k]))
    ensures MatchPath(pattern, path).Some? && pattern != [] && pattern[0].Lit? ==>
      path != [] && ToLower(path[0]) == pattern[0].text
    ensures MatchPath(pattern, path).Some? && MatchPath(pattern, path).value.Some? ==>
      exists k :: 0 <= k < |path| && pattern[k].Param? && path[k] == MatchPath(pattern, path).value.value
    decreases |pattern|
  {
    if pattern != [] {
      if path != [] {
        MatchPathSegments(pattern[1..], path[1..]);
        if AllRequired(pattern) {
          assert AllRequired(pattern[1..]) by {
            forall k | 0 <= k < |pattern[1..]| ensures !(pattern[1..][k].Param? && pattern[1..][k].optional) {
              assert pattern[1..][k] == pattern[k + 1];
            }
          }
        }
        var r := MatchPath(pattern, path);
        if r.Some? && r.value.Some? && pattern[0].Lit? {
          var k :| 0 <= k < |path[1..]| && pattern[1..][k].Param? && path[1..][k] == r.value.value;
          assert pattern[k + 1].Param? && path[k + 1] == r.value.value;
        }
      }
      if pattern[0].Param? && pattern[0].optional {
        MatchPathSegments(pattern[1..], path);
      }
    }
  }

  /** The position of the first route that takes the request. */
  function Dispatch(verb: Verb, path: seq<string>): (r: Option<nat>)
    ensures r.Some? ==>
      && r.value < |Routes| && Routes[r.value].verb == verb
      && MatchPath(Routes[r.value].pattern, path).Some?
    ensures r.Some? ==> forall j :: 0 <= j < r.value ==>
      !(Routes[j].verb == verb && MatchPath(Routes[j].pattern, path).Some?)
    ensures r.None? ==> forall j :: 0 <= j < |Routes| ==>
      !(Routes[j].verb == verb && MatchPath(Routes[j].pattern, path).Some?)
  {
    FirstFrom(verb, path, 0)
  }

  function FirstFrom(verb: Verb, path: seq<string>, from: nat): (r: Option<nat>)
    requires from <= |Routes|
    ensures r.Some? ==>
      && from <= r.value < |Routes| && Routes[r.value].verb == verb
      && MatchPath(Routes[r.value].pattern, path).Some?
    ensures r.Some? ==> forall j :: from <= j < r.value ==>
      !(Routes[j].verb == verb && MatchPath(Routes[j].pattern, path).Some?)
    ensures r.None? ==> forall j :: from <= j < |Routes| ==>
      !(Routes[j].verb == verb && MatchPath(Routes[j].pattern, path).Some?)
    decreases |Routes| - from
  {
    if from == |Routes| then None
    else if Routes[from].verb == verb && MatchPath(Routes[from].pattern, path).Some? then Some(from)
    else FirstFrom(verb, path, from + 1)
  }

  /** What the router does with a request: no route (404), a guard's answer,
      or the handler with the request's user and the raw `:id` parameter. */
  datatype Response =
    | NoRoute
    | Denied(status: int)
    | Handled(handler: Handler, user: Option<Principal>, id: Option<string>)

  function Handle(verb: Verb, path: seq<string>, cookie: Option<string>,
                  verify: string -> Option<Claims>, users: seq<User>): (r: Response)
    ensures r.NoRoute? <==> Dispatch(verb, path).None?
    ensures r.Denied? ==> r.status == UNAUTHORIZED || r.status == FORBIDDEN
    ensures r.Handled? ==> Dispatch(verb, path).Some? && r.handler == Routes[Dispatch(verb, path).value].handler
  {
    match Dispatch(verb, path)
    case None => NoRoute
    case Some(i) =>
      match RunGuards(Routes[i].guards, None, cookie, verify, users)
      case Stop(s) => Denied(s)
      case Pass(u) => Handled(Routes[i].handler, u, MatchPath(Routes[i].pattern, path).value)
  }

  // ---------------------------------------------------------------------------
  // Properties of the table
  // ---------------------------------------------------------------------------

  /** Every route authenticates first, and a route adds the admin check
      exactly when its handler is one of the administrator operations. */
  lemma GuardPolicy(i: int)
    requires 0 <= i < |Routes|
    ensures Routes[i].guards[0] == Protect
    ensures AdminOnly(Routes[i].handler) <==> Routes[i].guards == [Protect, Admin]
    ensures !AdminOnly(Routes[i].handler) <==> Routes[i].guards == [Protect]
  {
  }

  /** A caller without a valid session gets 401 from every route, never 403
      and never a handler. */
  lemma NoSessionGets401(verb: Verb, path: seq<string>, cookie: Option<string>,
                         verify: string -> Option<Claims>, users: seq<User>)
    requires TokenUser(cookie, verify).None? || FindUser(users, TokenUser(cookie, verify).value).None?
    ensures var r := Handle(verb, path, cookie, verify, users);
      r.NoRoute? || r == Denied(UNAUTHORIZED)
  {
    match Dispatch(verb, path)
    case None =>
    case Some(i) =>
      GuardPolicy(i);
      UnauthenticatedGets401(Routes[i].guards, cookie, verify, users);
  }

  /** A request reaches an administrator handler only for a user whose
      current row has the admin flag. */
  lemma AdminHandlersNeedAdmin(verb: Verb, path: seq<string>, cookie: Option<string>,
                               verify: string -> Option<Claims>, users: seq<User>)
    requires Handle(verb, path, cookie, verify, users).Handled?
    requires AdminOnly(Handle(verb, path, cookie, verify, users).handler)
    ensures TokenUser(cookie, verify).Some?
    ensures FindUser(users, TokenUser(cookie, verify).value).Some?
    ensures FindUser(users, TokenUser(cookie, verify).value).value.isAdmin
  {
    var i := Dispatch(verb, path).value;
    GuardPolicy(i);
    AdminChain(cookie, verify, users);
  }

  /** A signed-in user reaches the handler of any route without the admin
      check, whatever the row's admin flag. */
  lemma SessionReachesUserRoutes(verb: Verb, path: seq<string>, cookie: Option<string>,
                                   verify: string -> Option<Claims>, users: seq<User>)
    requires Dispatch(verb, path).Some? && !AdminOnly(Routes[Dispatch(verb, path).value].handler)
    requires TokenUser(cookie, verify).Some? && FindUser(users, TokenUser(cookie, verify).value).Some?
    ensures Handle(verb, path, cookie, verify, users).Handled?
  {
    var i := Dispatch(verb, path).value;
    GuardPolicy(i);
    ProtectChain(cookie, verify, users);
  }

  /** A literal with no upper-case letters is its own lower-cased form. */
  lemma LowerLiteral(s: string)
    requires forall i :: 0 <= i < |s| ==> !('A' <= s[i] <= 'Z')
    ensures ToLower(s) == s
  {
  }

  /** `GET /dashboard` is taken by the statistics route, registered before
      `GET /:id`, so it never reaches `getTicket`. */
  lemma DashboardBeforeGetTicket()
    ensures Dispatch(GET, ["dashboard"]) == Some(2)
    ensures Routes[2].handler == DashboardStatistics
    ensures MatchPath(Routes[4].pattern, ["dashboard"]).Some?
  {
    LowerLiteral("dashboard");
    assert MatchPath(Routes[2].pattern, ["dashboard"]).Some?;
  }

  /** `DELETE /delete-restore` without an id reaches the delete/restore
      handler, with the id absent. */
  lemma DeleteRestoreWithoutId()
    ensures Dispatch(DELETE, ["delete-restore"]) == Some(8)
    ensures MatchPath(Routes[8].pattern, ["delete-restore"]) == Some(None)
  {
    LowerLiteral("delete-restore");
    assert MatchPath([Param(true)], []) == Some(None);
  }

  /** `PUT /update/:id` reaches `updateTicket` behind authentication alone,
      and not the trash route registered after it. */
  lemma UpdateIsProtectOnly(id: string)
    requires id != []
    ensures Dispatch(PUT, ["update", id]) == Some(6)
    ensures Routes[6].handler == UpdateTicket && Routes[6].guards == [Protect]
    ensures MatchPath(Routes[6].pattern, ["update", id]) == Some(Some(id))
  {
    LowerLiteral("update");
    assert MatchPath([Param(false)], [id]) == Some(Some(id));
  }

  /** `PUT /:id` with any single segment is the administrator's trash route;
      even `PUT /update` lands there, since `/update/:id` needs a second
      segment. */
  lemma TrashIsAdminOnly(id: string)
    ensures Dispatch(PUT, [id]) == Some(7)
    ensures Routes[7].handler == TrashTicket && Routes[7].guards == [Protect, Admin]
  {
  }
}

=== FILE: ticket_search.dfy ===
/** The client-side search over a list of tickets, shared by the tickets
    page and the dashboard's table: a ticket is kept when its lower-cased
    title includes the lower-cased search text, or when its id written in
    decimal includes the search text as typed. */
module TicketSearch {
  import opened Common
  import opened Store
  import opened TicketController

  predicate Matches(v: TicketView, search: string)
  {
    Contains(ToLower(v.ticket.title), ToLower(search)) || Contains(NatToString(v.ticket.id), search)
  }

  function MatchesSearch(search: string): TicketView -> bool
  {
    (v: TicketView) => Matches(v, search)
  }

  /** `filteredTickets` of the tickets page: no list gives `[]`; otherwise
      the matching tickets in list order. */
  function TicketsPageFilter(tickets: Option<seq<TicketView>>, search: string): (r: seq<TicketView>)
    ensures tickets.None? ==> r == []
    ensures tickets.Some? ==> IsSubsequence(r, tickets.value)
    ensures tickets.Some? ==> forall v :: v in r <==> v in tickets.value && Matches(v, search)
  {
    match tickets
    case None => []
    case Some(ts) =>
      FilterIsSubsequence(ts, MatchesSearch(search));
      Filter(ts, MatchesSearch(search))
  }

  /** `filteredTickets` of the dashboard's table: `tickets?.filter(...)`, so
      an absent list stays absent. */
  function TicketTableFilter(tickets: Option<seq<TicketView>>, search: string): (r: Option<seq<TicketView>>)
    ensures r.Some? <==> tickets.Some?
    ensures r.Some? ==> IsSubsequence(r.value, tickets.value)
    ensures r.Some? ==> forall v :: v in r.value <==> v in tickets.value && Matches(v, search)
  {
    match tickets
    case None => None
    case Some(ts) =>
      FilterIsSubsequence(ts, MatchesSearch(search));
      Some(Filter(ts, MatchesSearch(search)))
  }

  /** Both pages keep the same tickets for the same list and search. */
  lemma PagesAgree(ts: seq<TicketView>, search: string)
    ensures TicketTableFilter(Some(ts), search) == Some(TicketsPageFilter(Some(ts), search))
  {
  }

  /** An empty search keeps every ticket, in order. */
  lemma EmptySearchKeepsAll(ts: seq<TicketView>)
    ensures TicketsPageFilter(Some(ts), "") == ts
  {
    forall i | 0 <= i < |ts| ensures MatchesSearch("")(ts[i]) {
      ContainsEmpty(ToLower(ts[i].ticket.title));
    }
    FilterAll(ts, MatchesSearch(""));
  }

  /** Searching for a ticket's id, as the page shows it, keeps that ticket. */
  lemma SearchByIdKeepsTicket(ts: seq<TicketView>, i: int)
    requires 0 <= i < |ts|
    ensures ts[i] in TicketsPageFilter(Some(ts), NatToString(ts[i].ticket.id))
  {
    var s := NatToString(ts[i].ticket.id);
    assert MatchAt(s, s, 0);
    ContainsIff(s, s);
  }

  /** Searching for a ticket's own title keeps that ticket. */
  lemma SearchByTitleKeepsTicket(ts: seq<TicketView>, i: int)
    requires 0 <= i < |ts|
    ensures ts[i] in TicketsPageFilter(Some(ts), ts[i].ticket.title)
  {
    var s := ToLower(ts[i].ticket.title);
    assert MatchAt(s, s, 0);
    ContainsIff(s, s);
  }

  /** Ids strictly decrease along the list, as in the dashboard's history. */
  predicate NewestFirst(s: seq<TicketView>)
  {
    forall i, j :: 0 <= i < j < |s| ==> s[i].ticket.id > s[j].ticket.id
  }

  /** Filtering a list whose ids strictly decrease, as the dashboard's
      history does, keeps them strictly decreasing. */
  lemma FilterKeepsNewestFirst(ts: seq<TicketView>, search: string)
    requires forall i, j :: 0 <= i < j < |ts| ==> ts[i].ticket.id > ts[j].ticket.id
    ensures var r := TicketsPageFilter(Some(ts), search);
      forall i, j :: 0 <= i < j < |r| ==> r[i].ticket.id > r[j].ticket.id
  {
    var r := TicketsPageFilter(Some(ts), search);
    assert r == Filter(ts, MatchesSearch(search));
    DecreasingFilter(ts, MatchesSearch(search));
    assert NewestFirst(r);
  }

  lemma {:induction false} DecreasingFilter(ts: seq<TicketView>, p: TicketView -> bool)
    requires NewestFirst(ts)
    ensures NewestFirst(Filter(ts, p))
  {
    if ts != [] {
      var rest := Filter(ts[1..], p);
      TailNewestFirst(ts);
      DecreasingFilter(ts[1..], p);
      BelowHead(ts, p);
      FilterCons(ts, p);
      if p(ts[0]) {
        ConsNewestFirst(ts[0], rest);
        assert Filter(ts, p) == [ts[0]] + rest;
      } else {
        assert Filter(ts, p) == rest;
      }
    }
  }

  lemma TailNewestFirst(ts: seq<TicketView>)
    requires ts != [] && NewestFirst(ts)
    ensures NewestFirst(ts[1..])
  {
    forall i, j | 0 <= i < j < |ts[1..]| ensures ts[1..][i].ticket.id > ts[1..][j].ticket.id {
      assert ts[1..][i] == ts[i + 1] && ts[1..][j] == ts[j + 1];
    }
  }

  /** A head newer than everything after it extends a newest-first list. */
  lemma ConsNewestFirst(h: TicketView, rest: seq<TicketView>)
    requires NewestFirst(rest)
    requires forall k :: 0 <= k < |rest| ==> rest[k].ticket.id < h.ticket.id
    ensures NewestFirst([h] + rest)
  {
    var r := [h] + rest;
    forall i, j | 0 <= i < j < |r| ensures r[i].ticket.id > r[j].ticket.id {
      assert r[j] == rest[j - 1];
      if i > 0 {
        assert r[i] == rest[i - 1];
      }
    }
  }

  /** What the filter keeps from the tail of a newest-first list is older
      than its head. */
  lemma BelowHead(ts: seq<TicketView>, p: TicketView -> bool)
    requires ts != [] && NewestFirst(ts)
    ensures forall k :: 0 <= k < |Filter(ts[1..], p)| ==> Filter(ts[1..], p)[k].ticket.id < ts[0].ticket.id
  {
    var rest := Filter(ts[1..], p);
    forall k | 0 <= k < |rest| ensures rest[k].ticket.id < ts[0].ticket.id {
      var m :| 0 <= m < |ts[1..]| && ts[1..][m] == rest[k];
      assert ts[m + 1] == rest[k];
    }
  }
}

=== FILE: user_controller.dfy ===
/** The account handlers: registration, login, and the profile updates an
    administrator or the user themself makes. Hashing, password comparison
    and token signing are parameters: `hash` stands for bcrypt hashing with
    a fresh salt, `matches` for `bcrypt.compare`, `sign` for `jwt.sign` with
    the server's secret. A request field that is absent is `None`; the
    database driver rejects an undefined bind parameter and bcrypt rejects an
    undefined password, and each handler's `catch` turns that into 400. */
module UserController {
  import opened Common
  import opened Store
  import opened Auth

  const OK: int := 200
  const CREATED: int := 201
  const BAD_REQUEST: int := 400

  // ---------------------------------------------------------------------------
  // Registration
  // ---------------------------------------------------------------------------

  datatype RegisterRequest = RegisterRequest(
    name: Option<string>,
    email: Option<string>,
    password: Option<string>,
    isAdmin: Option<bool>,
    role: Option<string>,
    title: Option<string>)

  /** The result header of the `INSERT`, which is what `createUser` hands
      back: it carries `insertId` and no `id`. */
  datatype InsertHeader = InsertHeader(insertId: UserId, affectedRows: nat)

  /** A handler's answer: status, the user-facing body, the session cookie it
      sets (if any) and the store afterwards. */
  datatype Reply<B> = Reply(status: int, body: Option<B>, cookie: Option<string>, db: Db)

  predicate Complete(req: RegisterRequest)
  {
    req.name.Some? && req.email.Some? && req.password.Some? && req.isAdmin.Some?
    && req.role.Some? && req.title.Some?
  }

  /** The row `createUser` inserts. The insert does not write `isActive`,
      so it takes the column default, which is taken to be `true`. */
  function NewUser(db: Db, req: RegisterRequest, hash: string -> string): User
    requires Complete(req)
  {
    User(db.nextUserId, req.name.value, req.title.value, req.role.value, req.email.value,
         hash(req.password.value), req.isAdmin.value, true)
  }

  /** The store after `createUser`. */
  function InsertUser(db: Db, u: User): (db': Db)
    requires u.id == db.nextUserId
    ensures db'.users == db.users + [u]
    ensures db'.nextUserId == db.nextUserId + 1
    ensures db'.tickets == db.tickets && db'.team == db.team
    ensures Valid(db) ==> Valid(db')
  {
    db.(users := db.users + [u], nextUserId := db.nextUserId + 1)
  }

  /** The id the session cookie of `registerUser` is signed with: the code
      reads `newUser.id` from the insert header, which has no such field. */
  function RegisteredTokenId(h: InsertHeader): Option<UserId>
  {
    None
  }

  /** `registerUser` as written: an absent email or an existing one answers
      400 before anything is inserted; an absent field further on makes the
      insert fail with 400; otherwise the user is inserted and 201 returns the
      insert header, and an administrator also gets a session cookie signed
      with whatever id the header yields. */
  function RegisterUser(db: Db, req: RegisterRequest, hash: string -> string, sign: Claims -> string): (r: Reply<InsertHeader>)
    ensures r.status == CREATED || r.status == BAD_REQUEST
    ensures r.status == CREATED <==> Complete(req) && FindUserByEmail(db.users, req.email.value).None?
    ensures r.status == BAD_REQUEST ==> r.db == db && r.cookie.None?
    ensures r.status == CREATED ==>
      && r.db.users == db.users + [NewUser(db, req, hash)]
      && r.body == Some(InsertHeader(db.nextUserId, 1))
      && (r.cookie.Some? <==> req.isAdmin.value)
    ensures r.cookie.Some? ==> r.cookie.value == sign(Claims(RegisteredTokenId(r.body.value)))
    ensures Valid(db) ==> Valid(r.db)
  {
    if req.email.None? || FindUserByEmail(db.users, req.email.value).Some? then
      Reply(BAD_REQUEST, None, None, db)
    else if !Complete(req) then
      Reply(BAD_REQUEST, None, None, db)
    else
      var h := InsertHeader(db.nextUserId, 1);
      var cookie := if req.isAdmin.value then Some(sign(Claims(RegisteredTokenId(h)))) else None;
      Reply(CREATED, Some(h), cookie, InsertUser(db, NewUser(db, req, hash)))
  }

  /** `registerUser` with the cookie signed with the inserted row's id
      (`insertId`), the id the rest of the system looks users up by. */
  function RegisterUserFixed(db: Db, req: RegisterRequest, hash: string -> string, sign: Claims -> string): (r: Reply<InsertHeader>)
    ensures r.status == RegisterUser(db, req, hash, sign).status
    ensures r.db == RegisterUser(db, req, hash, sign).db
    ensures r.body == RegisterUser(db, req, hash, sign).body
    ensures r.cookie.Some? <==> RegisterUser(db, req, hash, sign).cookie.Some?
    ensures r.cookie.Some? ==> r.cookie.value == sign(Claims(Some(db.nextUserId)))
  {
    var r := RegisterUser(db, req, hash, sign);
    if r.cookie.Some? then r.(cookie := Some(sign(Claims(Some(r.body.value.insertId))))) else r
  }

  // ---------------------------------------------------------------------------
  // Login
  // ---------------------------------------------------------------------------

  datatype LoginRequest = LoginRequest(email: Option<string>, password: Option<string>)

  /** `loginUser` as written: an absent email answers 400; an unknown email
      and a deactivated account answer 401 before any password is compared;
      an absent password makes the comparison throw (400); a matching
      password answers 200 with the stored row and a session cookie for its
      id, a wrong one 401 without a cookie. The store is never changed. */
  function LoginUser(db: Db, req: LoginRequest, matches: (string, string) -> bool, sign: Claims -> string): (r: Reply<User>)
    ensures r.db == db
    ensures r.status == OK || r.status == UNAUTHORIZED || r.status == BAD_REQUEST
    ensures r.status == OK <==> r.cookie.Some?
    ensures r.status == OK <==>
      && req.email.Some? && FindUserByEmail(db.users, req.email.value).Some?
      && FindUserByEmail(db.users, req.email.value).value.isActive
      && req.password.Some?
      && matches(req.password.value, FindUserByEmail(db.users, req.email.value).value.password)
    ensures r.status == OK ==>
      && r.body == FindUserByEmail(db.users, req.email.value)
      && r.cookie == Some(sign(Claims(Some(r.body.value.id))))
    ensures (req.email.Some? && FindUserByEmail(db.users, req.email.value).Some?
             && !FindUserByEmail(db.users, req.email.value).value.isActive) ==> r.status == UNAUTHORIZED
  {
    if req.email.None? then Reply(BAD_REQUEST, None, None, db)
    else match FindUserByEmail(db.users, req.email.value)
      case None => Reply(UNAUTHORIZED, None, None, db)
      case Some(u) =>
        if !u.isActive then Reply(UNAUTHORIZED, None, None, db)
        else if req.password.None? then Reply(BAD_REQUEST, None, None, db)
        else if matches(req.password.value, u.password) then
          Reply(OK, Some(u), Some(sign(Claims(Some(u.id)))), db)
        else Reply(UNAUTHORIZED, None, None, db)
  }

  /** A user row as a client may see it: every column but the password hash. */
  datatype PublicUser = PublicUser(
    id: UserId, name: string, title: string, role: string, email: string, isAdmin: bool, isActive: bool)

  function Public(u: User): PublicUser
  {
    PublicUser(u.id, u.name, u.title, u.role, u.email, u.isAdmin, u.isActive)
  }

  /** `loginUser` answering with the row minus its password, as registration
      already does by clearing `password`. */
  function LoginUserFixed(db: Db, req: LoginRequest, matches: (string, string) -> bool, sign: Claims -> string): (r: Reply<PublicUser>)
    ensures r.status == LoginUser(db, req, matches, sign).status
    ensures r.cookie == LoginUser(db, req, matches, sign).cookie
    ensures r.db == db
    ensures r.body.Some? <==> LoginUser(db, req, matches, sign).body.Some?
    ensures r.body.Some? ==> r.body.value == Public(LoginUser(db, req, matches, sign).body.value)
  {
    var r := LoginUser(db, req, matches, sign);
    Reply(r.status, if r.body.Some? then Some(Public(r.body.value)) else None, r.cookie, r.db)
  }

  // ---------------------------------------------------------------------------
  // Profile changes
  // ---------------------------------------------------------------------------

  /** `UPDATE users SET ... WHERE id = ?`, applying `f` to the matching rows. */
  function UpdateUsers(us: seq<User>, id: UserId, f: User -> User): (r: seq<User>)
    ensures |r| == |us|
    ensures forall i :: 0 <= i < |us| && us[i].id == id ==> r[i] == f(us[i])
    ensures forall i :: 0 <= i < |us| && us[i].id != id ==> r[i] == us[i]
  {
    seq(|us|, i requires 0 <= i < |us| => if us[i].id == id then f(us[i]) else us[i])
  }

  function SetProfile(name: string, title: string, role: string): User -> User
  {
    (u: User) => u.(name := name, title := title, role := role)
  }

  function SetActive(flag: bool): User -> User
  {
    (u: User) => u.(isActive := flag)
  }

  datatype ProfileRequest = ProfileRequest(id: Option<UserId>, name: Option<string>, title: Option<string>, role: Option<string>)

  /** The row `updateUserProfile` writes: the body's `id` for an
      administrator, the caller's own id for anyone else. */
  function ProfileTarget(caller: Principal, req: ProfileRequest): (r: Option<UserId>)
    ensures !caller.isAdmin ==> r == Some(caller.userId)
    ensures caller.isAdmin ==> r == req.id
  {
    if caller.isAdmin then req.id else Some(caller.userId)
  }

  /** `updateUserProfile`: with every value present it sets name, title and
      role of the target row (200 even when no row has that id); an absent
      value answers 400 and changes nothing. */
  function UpdateUserProfile(db: Db, caller: Principal, req: ProfileRequest): (r: Reply<()>)
    ensures r.status == OK || r.status == BAD_REQUEST
    ensures r.status == OK <==>
      ProfileTarget(caller, req).Some? && req.name.Some? && req.title.Some? && req.role.Some?
    ensures r.status == BAD_REQUEST ==> r.db == db
    ensures r.db == db.(users := r.db.users)
    ensures |r.db.users| == |db.users|
    ensures forall i :: 0 <= i < |db.users| ==>
      var (u, v) := (db.users[i], r.db.users[i]);
      && v.(name := u.name, title := u.title, role := u.role) == u
      && (r.status == OK && u.id == ProfileTarget(caller, req).value ==>
            v.name == req.name.value && v.title == req.title.value && v.role == req.role.value)
      && (r.status == OK && u.id != ProfileTarget(caller, req).value ==> v == u)
  {
    var target := ProfileTarget(caller, req);
    if target.None? || req.name.None? || req.title.None? || req.role.None? then
      Reply(BAD_REQUEST, None, None, db)
    else
      Reply(OK, None, None,
        db.(users := UpdateUsers(db.users, target.value, SetProfile(req.name.value, req.title.value, req.role.value))))
  }

  /** `activateUserProfile`: sets `isActive` of row `id` to the body's value;
      an absent value answers 400. */
  function ActivateUserProfile(db: Db, id: UserId, isActive: Option<bool>): (r: Reply<()>)
    ensures r.status == OK <==> isActive.Some?
    ensures r.status != OK ==> r.status == BAD_REQUEST && r.db == db
    ensures r.db == db.(users := r.db.users)
    ensures |r.db.users| == |db.users|
    ensures forall i :: 0 <= i < |db.users| ==>
      var (u, v) := (db.users[i], r.db.users[i]);
      && v.(isActive := u.isActive) == u
      && (r.status == OK && u.id == id ==> v.isActive == isActive.value)
      && (u.id != id ==> v == u)
  {
    if isActive.None? then Reply(BAD_REQUEST, None, None, db)
    else Reply(OK, None, None, db.(users := UpdateUsers(db.users, id, SetActive(isActive.value))))
  }

  predicate OtherUser(id: UserId, u: User)
  {
    u.id != id
  }

  /** `deleteUserProfile`: removes the row with that id and no other. */
  function DeleteUserProfile(db: Db, id: UserId): (r: Reply<()>)
    ensures r.status == OK
    ensures r.db == db.(users := r.db.users)
    ensures forall u :: u in r.db.users <==> u in db.users && u.id != id
    ensures IsSubsequence(r.db.users, db.users)
  {
    var p := (u: User) => OtherUser(id, u);
    FilterIsSubsequence(db.users, p);
    Reply(OK, None, None, db.(users := Filter(db.users, p)))
  }

  // ---------------------------------------------------------------------------
  // Properties
  // ---------------------------------------------------------------------------

  /** After a user is appended with an id above every existing one, looking
      that id up finds the new row. */
  lemma {:induction false} FindAppendedUser(us: seq<User>, u: User)
    requires forall i :: 0 <= i < |us| ==> us[i].id < u.id
    ensures FindUser(us + [u], u.id) == Some(u)
  {
    if us != [] {
      assert (us + [u])[1..] == us[1..] + [u];
      FindAppendedUser(us[1..], u);
    }
  }

  /** After a user with a new email is appended, looking the email up finds
      the new row. */
  lemma {:induction false} FindAppendedEmail(us: seq<User>, u: User)
    requires FindUserByEmail(us, u.email).None?
    ensures FindUserByEmail(us + [u], u.email) == Some(u)
  {
    if us != [] {
      assert (us + [u])[1..] == us[1..] + [u];
      FindAppendedEmail(us[1..], u);
    }
  }

  /** Registering under an email already in use changes nothing. */
  lemma RegisterExistingEmail(db: Db, req: RegisterRequest, hash: string -> string, sign: Claims -> string)
    requires req.email.Some? && FindUserByEmail(db.users, req.email.value).Some?
    ensures var r := RegisterUser(db, req, hash, sign);
      r.status == BAD_REQUEST && r.db == db && r.cookie.None?
  {
  }

  /** The cookie an administrator receives at registration, as written, is
      turned away by `protectRoute`: its token carries no user id. */
  lemma RegisterCookieRejected(db: Db, req: RegisterRequest, hash: string -> string, sign: Claims -> string,
                               verify: string -> Option<Claims>)
    requires Valid(db)
    requires Complete(req) && req.isAdmin.value
    requires FindUserByEmail(db.users, req.email.value).None?
    requires verify(sign(Claims(None))) == Some(Claims(None))
    ensures var r := RegisterUser(db, req, hash, sign);
      && r.status == CREATED && r.cookie.Some?
      && ProtectRoute(r.cookie, verify, r.db.users) == Stop(UNAUTHORIZED)
  {
  }

  /** With the corrected cookie, the new administrator's first request passes
      both guards as the user just inserted. */
  lemma RegisterFixedCookieAccepted(db: Db, req: RegisterRequest, hash: string -> string, sign: Claims -> string,
                                    verify: string -> Option<Claims>)
    requires Valid(db)
    requires Complete(req) && req.isAdmin.value
    requires FindUserByEmail(db.users, req.email.value).None?
    requires sign(Claims(Some(db.nextUserId))) != ""
    requires verify(sign(Claims(Some(db.nextUserId)))) == Some(Claims(Some(db.nextUserId)))
    ensures var r := RegisterUserFixed(db, req, hash, sign);
      && r.status == CREATED && r.cookie.Some?
      && RunGuards([Protect, Admin], None, r.cookie, verify, r.db.users)
         == Pass(Some(Principal(req.email.value, true, db.nextUserId)))
  {
    var u := NewUser(db, req, hash);
    var r := RegisterUserFixed(db, req, hash, sign);
    FindAppendedUser(db.users, u);
    assert TokenUser(r.cookie, verify) == Some(db.nextUserId);
    assert ProtectRoute(r.cookie, verify, r.db.users) == Pass(Some(Principal(u.email, u.isAdmin, db.nextUserId)));
    assert [Protect, Admin][1..] == [Admin] && [Admin][1..] == [];
  }

  /** A user who has just registered can log in with the same email and
      password, and the session is for the new row. */
  lemma RegisterThenLogin(db: Db, req: RegisterRequest, hash: string -> string, sign: Claims -> string,
                          matches: (string, string) -> bool)
    requires RegisterUser(db, req, hash, sign).status == CREATED
    requires matches(req.password.value, hash(req.password.value))
    ensures var r := RegisterUser(db, req, hash, sign);
      var l := LoginUser(r.db, LoginRequest(req.email, req.password), matches, sign);
      && l.status == OK
      && l.body == Some(NewUser(db, req, hash))
      && l.cookie == Some(sign(Claims(Some(db.nextUserId))))
  {
    FindAppendedEmail(db.users, NewUser(db, req, hash));
  }

  /** As written, the login answer reveals the stored hash: two stores that
      differ only in that hash give different answers to the same request. */
  lemma LoginExposesHash(u: User, hash2: string, matches: (string, string) -> bool, sign: Claims -> string, password: string)
    requires u.isActive && hash2 != u.password
    requires matches(password, u.password) && matches(password, hash2)
    ensures var (db1, db2) := (Empty().(users := [u]), Empty().(users := [u.(password := hash2)]));
      var req := LoginRequest(Some(u.email), Some(password));
      && LoginUser(db1, req, matches, sign).status == OK
      && LoginUser(db1, req, matches, sign).body.value.password == u.password
      && LoginUser(db1, req, matches, sign).body != LoginUser(db2, req, matches, sign).body
  {
  }

  /** The corrected login answer does not depend on the stored hash beyond
      whether the password matches it. */
  lemma LoginFixedHidesHash(db: Db, i: int, hash2: string, req: LoginRequest,
                            matches: (string, string) -> bool, sign: Claims -> string)
    requires 0 <= i < |db.users|
    requires req.password.Some? ==> matches(req.password.value, db.users[i].password) == matches(req.password.value, hash2)
    ensures var db2 := db.(users := db.users[i := db.users[i].(password := hash2)]);
      LoginUserFixed(db, req, matches, sign).body == LoginUserFixed(db2, req, matches, sign).body
      && LoginUserFixed(db, req, matches, sign).status == LoginUserFixed(db2, req, matches, sign).status
  {
    var db2 := db.(users := db.users[i := db.users[i].(password := hash2)]);
    if req.email.Some? {
      RehashKeepsLookup(db.users, i, hash2, req.email.value);
    }
  }

  /** Changing one row's hash changes what an email lookup finds only in
      that hash. */
  lemma {:induction false} RehashKeepsLookup(us: seq<User>, i: int, hash2: string, email: string)
    requires 0 <= i < |us|
    ensures var r2 := FindUserByEmail(us[i := us[i].(password := hash2)], email);
      && (r2.Some? <==> FindUserByEmail(us, email).Some?)
      && (r2.Some? ==> r2.value.(password := FindUserByEmail(us, email).value.password) == FindUserByEmail(us, email).value)
      && (r2.Some? ==> (r2.value.password == FindUserByEmail(us, email).value.password
                        || (r2.value.password == hash2 && FindUserByEmail(us, email).value == us[i])))
  {
    var us2 := us[i := us[i].(password := hash2)];
    if us[0].email != email {
      if i == 0 {
        assert us2[1..] == us[1..];
      } else {
        assert us2[1..] == us[1..][i - 1 := us[1..][i - 1].(password := hash2)];
        RehashKeepsLookup(us[1..], i - 1, hash2, email);
      }
    }
  }

  /** A non-administrator can only ever change their own row, whatever id
      the request body names. */
  lemma NonAdminEditsOwnRow(db: Db, caller: Principal, req: ProfileRequest, i: int)
    requires !caller.isAdmin
    requires 0 <= i < |db.users| && db.users[i].id != caller.userId
    ensures UpdateUserProfile(db, caller, req).db.users[i] == db.users[i]
  {
  }

  /** A deactivated account cannot log in, whatever password is given. */
  lemma DeactivatedCannotLogin(db: Db, email: string, password: Option<string>,
                               matches: (string, string) -> bool, sign: Claims -> string)
    requires FindUserByEmail(db.users, email).Some?
    ensures var id := FindUserByEmail(db.users, email).value.id;
      var d := ActivateUserProfile(db, id, Some(false)).db;
      LoginUser(d, LoginRequest(Some(email), password), matches, sign).status == UNAUTHORIZED
  {
    var id := FindUserByEmail(db.users, email).value.id;
    var d := ActivateUserProfile(db, id, Some(false)).db;
    DeactivateKeepsLookup(db.users, id, email);
  }

  /** Deactivating a user keeps the row an email lookup finds, inactive when
      it is that user's. */
  lemma {:induction false} DeactivateKeepsLookup(us: seq<User>, id: UserId, email: string)
    requires FindUserByEmail(us, email).Some?
    ensures var r := FindUserByEmail(UpdateUsers(us, id, SetActive(false)), email);
      && r.Some? && r.value.id == FindUserByEmail(us, email).value.id
      && (r.value.id == id ==> !r.value.isActive)
  {
    var us2 := UpdateUsers(us, id, SetActive(false));
    if us[0].email != email {
      assert us2[1..] == UpdateUsers(us[1..], id, SetActive(false));
      DeactivateKeepsLookup(us[1..], id, email);
    }
  }

  /** `protectRoute` does not look at `isActive`: a session issued before a
      deactivation keeps passing it. */
  lemma DeactivatedKeepsSession(db: Db, id: UserId, cookie: Option<string>, verify: string -> Option<Claims>)
    requires TokenUser(cookie, verify) == Some(id) && FindUser(db.users, id).Some?
    ensures ProtectRoute(cookie, verify, ActivateUserProfile(db, id, Some(false)).db.users).Pass?
  {
    var us2 := ActivateUserProfile(db, id, Some(false)).db.users;
    var k :| 0 <= k < |db.users| && db.users[k].id == id;
    assert us2[k].id == id;
  }

  /** After a user is deleted, every session for that user is turned away. */
  lemma DeletedLosesSession(db: Db, id: UserId, cookie: Option<string>, verify: string -> Option<Claims>)
    requires TokenUser(cookie, verify) == Some(id)
    ensures ProtectRoute(cookie, verify, DeleteUserProfile(db, id).db.users) == Stop(UNAUTHORIZED)
  {
    var us2 := DeleteUserProfile(db, id).db.users;
    forall i | 0 <= i < |us2| ensures us2[i].id != id {
      assert us2[i] in us2;
    }
  }
}
